=== FILE: README.md ===
# Portfolio site rules, modelled in Dafny

This project models the pure rules and the small state machines behind a
React/TypeScript portfolio site. Each component or hook becomes one Dafny
module. Its state is an immutable datatype and every event is a step
function. The properties the site relies on are stated as contracts and
lemmas:

- **Project list.** Category listing, filtering, sorting by year and grouping
  by status (`ProjectUtils`). The paged carousel (`Carousel`), its keyboard
  handler (`KeyboardNavigation`) and the responsive number of cards per page
  (`CardCount`). A project card's technology chips and colour (`ProjectCard`).
  The showcase's screenshot gallery (`ProjectShowcase`).
- **Section navigation.** Section tracking by scroll position (`Sections`,
  `ScrollNavigation`, `ScrollAnimation`). The side navigation
  (`SmoothScrollNav`) and the scroll progress bar (`ScrollProgress`).
- **Loading.** Lazy and progressive loading (`LazyLoading`,
  `ProgressiveLoading`). The bounded memory cache and windowed list
  (`PerformanceOptimizations`). Web-vitals grading (`PerformanceGrade`).
- **Interactive widgets.** The animated contact form (`AnimatedForm`), the
  ripple button (`RippleButton`), the blog's filter and modal (`Blog`) and
  the keyword chatbot (`Assistant`).
- **Analytics and gamification.** The analytics tracker and its aggregations
  (`Analytics`), and the achievement system (`Achievements`).

A few shared helper modules support them:

- `Wrappers` holds `Option`.
- `Seqs` models JavaScript's `filter`, `slice` and `Set` de-duplication.
- `Sorting` is a stable descending sort, as `Array.prototype.sort` is.
- `Counting` models a `Map` tally in insertion order.
- `Text` covers `toLowerCase`, `includes`, `trim` and `split`.
- `Numbers` holds floor, ceiling and real-number facts.
- `Cyclic` is the wrap-around step that the carousel and the gallery share.

JavaScript behaviour is written out where it matters:

- `%` truncates toward zero (`ProjectCard.JsRem`).
- A division that yields `NaN` or `Infinity` becomes `None`.
- `slice` clamps its bounds.
- `Set` and `Map` keep insertion order.
- `sort` is stable.

Timers, promises and browser callbacks are atomic events of the step
functions. Window sizes, scroll offsets, user agents and random picks are
parameters.

## Model

| member | source | states |
|---|---|---|
| ProjectUtils.UniqueCategories | my-portfolio/src/utils/projectUtils.ts:6-12 | every defined category appears exactly once, nothing else appears, in order of first occurrence |
| ProjectUtils.FilterByCategory | my-portfolio/src/utils/projectUtils.ts:17-25 | "all" returns the list unchanged; any other category keeps exactly the projects of that category, in order |
| ProjectUtils.SortByYear | my-portfolio/src/utils/projectUtils.ts:30-32 | the result is a permutation of the input, ordered newest first with a missing year counting as 0; projects of the same year keep their input order |
| ProjectUtils.SortByYearIsTheStableOrder | my-portfolio/src/utils/projectUtils.ts:30-32 | an arrangement is the result exactly when it is ordered newest first and keeps each year's projects in input order, so stability fixes the result |
| ProjectUtils.WithStatusMembers | my-portfolio/src/utils/projectUtils.ts:37-46 | a project is in the group for key k exactly when it is in the list and its status (or "unknown") is k |
| ProjectUtils.GroupByStatus | my-portfolio/src/utils/projectUtils.ts:37-46 | the reduce yields one group per status key that occurs, each holding exactly that key's projects in input order |
| ProjectUtils.GroupSizesSum | my-portfolio/src/utils/projectUtils.ts:37-46 | the group sizes add up to the number of projects: every project lands in exactly one group |
| Carousel.TotalPages | my-portfolio/src/hooks/useCarousel.ts:27-30 | the page count is the least number of pages that holds all items, and zero exactly for an empty list |
| Carousel.VisibleItems | my-portfolio/src/hooks/useCarousel.ts:33-36 | a page holds at most itemsPerPage items, and an existing page is never empty |
| Carousel.AllPagesConcat | my-portfolio/src/hooks/useCarousel.ts:27-36 | the pages laid end to end give back exactly the item list: nothing lost, nothing repeated |
| Carousel.PagesFromConcat | my-portfolio/src/hooks/useCarousel.ts:33-36 | the pages from page k on, laid end to end, are the items from position k times itemsPerPage on |
| Carousel.GoToNext | my-portfolio/src/hooks/useCarousel.ts:39-41 | next keeps a valid page valid, wrapping from the last page to the first |
| Carousel.GoToPrevious | my-portfolio/src/hooks/useCarousel.ts:43-45 | previous keeps a valid page valid, wrapping from the first page to the last |
| Carousel.GoToPage | my-portfolio/src/hooks/useCarousel.ts:47-51 | a jump happens exactly when the target page exists; otherwise nothing changes |
| Carousel.NextPreviousInverse | my-portfolio/src/hooks/useCarousel.ts:39-45 | next then previous, and previous then next, return to the same page |
| Carousel.CanNavigateIffMoves | my-portfolio/src/hooks/useCarousel.ts:54-55 | the can-go flags are set exactly when next and previous would change the page |
| Carousel.Settle | my-portfolio/src/hooks/useCarousel.ts:58-62 | the reset effect leaves a valid page alone and brings an out-of-range page back into range when pages exist |
| Carousel.EmptyListDrifts | my-portfolio/src/hooks/useCarousel.ts:39-45 | with no items (so zero pages), next moves page 0 to page 1 and previous moves it to page -1; neither page exists and nothing is shown |
| KeyboardNavigation.HandleKeyPress | my-portfolio/src/hooks/useKeyboardNavigation.ts:15-30 | ArrowLeft calls onPrevious once, ArrowRight calls onNext once, other keys or a disabled hook do nothing; the default is prevented exactly when a callback runs |
| KeyboardNavigation.ArrowsUndoEachOther | my-portfolio/src/hooks/useKeyboardNavigation.ts:15-30 | on the carousel, ArrowLeft and ArrowRight cancel in either order, and other keys leave it unchanged |
| CardCount.VisibleCards | my-portfolio/src/hooks/useResponsiveCardCount.ts:3-27 | 2 cards up to 768px, 3 up to 1200px, 6 beyond, each band in both directions |
| CardCount.CardsMonotone | my-portfolio/src/hooks/useResponsiveCardCount.ts:17-27 | a wider window never shows fewer cards |
| CardCount.CardsAfter | my-portfolio/src/hooks/useResponsiveCardCount.ts:15-34 | the hook shows the desktop count until the mount measurement; after that it shows the count for the last measured width |
| CardCount.DesktopMountKeepsInitial | my-portfolio/src/hooks/useResponsiveCardCount.ts:15-30 | mounting on a window wider than 1200px leaves the initial count as it was |
| CardCount.NarrowMountChangesCount | my-portfolio/src/hooks/useResponsiveCardCount.ts:15-30 | mounting on any window up to 1200px wide lowers the count right after the first render |
| CardCount.OnlyLastWidthCounts | my-portfolio/src/hooks/useResponsiveCardCount.ts:17-34 | two measurement histories that end at the same width give the same count |
| CardCount.WiderNeedsNoMorePages | my-portfolio/src/hooks/useResponsiveCardCount.ts:17-27 | with the carousel's page count, a wider window never needs more pages for the same projects |
| ProjectCard.DisplayedTechnologies | my-portfolio/src/components/ProjectCard.tsx:40 | at most the first three technologies, as a prefix; none when the list is missing |
| ProjectCard.TechnologiesAccountedFor | my-portfolio/src/components/ProjectCard.tsx:40-41 | the chips plus the "+N" count add up to the number of technologies, and the badge shows exactly when some are hidden |
| ProjectCard.JsRem | my-portfolio/src/components/ProjectCard.tsx:47 | JavaScript's remainder: it agrees with the mathematical one on non-negative input and is never positive on negative input |
| ProjectCard.CardColor | my-portfolio/src/components/ProjectCard.tsx:7-13 | a non-negative index gets the colour at its remainder; a negative index gets no colour exactly when its remainder is negative |
| ProjectCard.ColorsCycle | my-portfolio/src/components/ProjectCard.tsx:47 | colours repeat every five cards |
| ProjectCard.NeighboursDiffer | my-portfolio/src/components/ProjectCard.tsx:7-13 | adjacent cards never share a colour, across the wrap included |
| ProjectShowcase.ScreenshotCount | my-portfolio/src/components/EnhancedProjectShowcase.tsx:49-59 | the gallery wraps at the screenshot count, or at one for a missing or empty list |
| ProjectShowcase.ControlsIffSteppingMoves | my-portfolio/src/components/EnhancedProjectShowcase.tsx:241 | the gallery controls render exactly when next and previous would change the screenshot |
| ProjectShowcase.GalleryStep | my-portfolio/src/components/EnhancedProjectShowcase.tsx:49-59 | next and previous step cyclically and a thumbnail jumps to its own index |
| ProjectShowcase.IndexStaysInRange | my-portfolio/src/components/EnhancedProjectShowcase.tsx:276-282 | through any sequence of button and thumbnail clicks the index names an existing screenshot |
| ProjectShowcase.NextPrevUndo | my-portfolio/src/components/EnhancedProjectShowcase.tsx:49-59 | next then previous, or previous then next, shows the same screenshot |
| ProjectShowcase.NextTimesAdvances | my-portfolio/src/components/EnhancedProjectShowcase.tsx:49-53 | any number k of presses of next advances by k modulo the count; within one lap it wraps at most once, and whole laps return to the start |
| ProjectShowcase.DeviceClass | my-portfolio/src/components/EnhancedProjectShowcase.tsx:61-67 | each view mode has its own device class, in both directions |
| Sections.Track | my-portfolio/src/hooks/useScrollNavigation.ts:38-45 | the section whose box holds the probe point becomes current, the last such one winning; with no hit the current section stays |
| Sections.TrackUnique | my-portfolio/src/hooks/useAdvancedScrollAnimation.ts:302-313 | with sections stacked without overlap, the tracked section is the one holding the probe point |
| ScrollNavigation.ScrollToSection | my-portfolio/src/hooks/useScrollNavigation.ts:22-31 | only an index whose ref holds an element becomes current; otherwise nothing changes |
| ScrollNavigation.ScrollPercent | my-portfolio/src/hooks/useScrollNavigation.ts:49 | a percentage exists exactly when the page is taller or shorter than the window, and then it is scrollY over the scrollable range, times 100 |
| ScrollNavigation.PercentWithinRange | my-portfolio/src/hooks/useScrollNavigation.ts:49 | within the scrollable range the percentage lies between 0 and 100 |
| ScrollNavigation.PercentUnclamped | my-portfolio/src/hooks/useScrollNavigation.ts:49 | scrolling past the range reports more than 100: nothing clamps it |
| ScrollNavigation.HandleScroll | my-portfolio/src/hooks/useScrollNavigation.ts:33-50 | the up arrow hides exactly within 50px of the top, the down arrow exactly within 50px of the bottom, and the section follows the tracker |
| ScrollNavigation.CurrentStaysValid | my-portfolio/src/hooks/useScrollNavigation.ts:17-50 | through any scroll events and section requests the current section stays a valid index |
| ScrollNavigation.CurrentIsMounted | my-portfolio/src/hooks/useScrollNavigation.ts:22-45 | once current, a section is always one whose ref holds an element |
| SmoothScrollNav.SectionClick | my-portfolio/src/components/Navigation/SmoothScrollNav.tsx:59-62 | a click requests its section exactly when no scroll is in progress |
| SmoothScrollNav.KeyNavigation | my-portfolio/src/components/Navigation/SmoothScrollNav.tsx:64-81 | the arrow keys prevent the default exactly when not scrolling, and request the neighbouring section exactly when it exists |
| SmoothScrollNav.KeyTargetInRange | my-portfolio/src/components/Navigation/SmoothScrollNav.tsx:64-81 | a key never requests a section outside the list or the current one |
| SmoothScrollNav.ArrowButtonsMatchKeys | my-portfolio/src/components/Navigation/SmoothScrollNav.tsx:336-364 | the up and down buttons, clamped and disabled as written, request exactly what the ArrowUp and ArrowDown keys request |
| SmoothScrollNav.ProgressBounds | my-portfolio/src/components/Navigation/SmoothScrollNav.tsx:309 | the progress line is a fraction in (0, 1], full exactly at the last section |
| SmoothScrollNav.LabelsShown | my-portfolio/src/components/Navigation/SmoothScrollNav.tsx:241 | without hover only the current section's label shows; with hover every label does |
| ScrollProgress.Clamp | my-portfolio/src/components/Navigation/ScrollProgress.tsx:36 | clamping to the percent range: a value below 0 becomes 0, one above 100 becomes 100, and anything between is kept |
| ScrollProgress.BarWidth | my-portfolio/src/components/Navigation/ScrollProgress.tsx:36 | the bar's width stays within 0–100 percent and shows the progress itself whenever it lies in that range |
| ScrollProgress.DotPosition | my-portfolio/src/components/Navigation/ScrollProgress.tsx:57 | the dot's offset stays within 0 to 100 percent, equals the progress whenever the progress is in that range, and equals the bar's width, so the dot sits at the bar's end |
| ScrollProgress.ClampMonotone | my-portfolio/src/components/Navigation/ScrollProgress.tsx:36-57 | more progress never shrinks the bar, and the dot sits at the bar's end |
| ScrollProgress.ClampIdempotent | my-portfolio/src/components/Navigation/ScrollProgress.tsx:36 | clamping an already clamped value changes nothing |
| ScrollAnimation.OnIntersect | my-portfolio/src/hooks/useAdvancedScrollAnimation.ts:94-105 | the in-view flag follows the observer, and the triggered flag is raised on entry and cleared on exit unless triggerOnce |
| ScrollAnimation.TriggerOnceLatches | my-portfolio/src/hooks/useAdvancedScrollAnimation.ts:94-105 | with triggerOnce the reported flag is true from the first intersection on |
| ScrollAnimation.WithoutTriggerOnceFollows | my-portfolio/src/hooks/useAdvancedScrollAnimation.ts:190 | without triggerOnce the reported flag is the latest callback's |
| ScrollAnimation.DirectionOf | my-portfolio/src/hooks/useAdvancedScrollAnimation.ts:136-140 | down exactly for a move of more than 1px down, up for more than 1px up, idle otherwise |
| ScrollAnimation.Frame | my-portfolio/src/hooks/useAdvancedScrollAnimation.ts:126-146 | velocity times elapsed time is the distance scrolled, and a frame with no elapsed time keeps velocity and direction |
| ScrollAnimation.KeyDown | my-portfolio/src/hooks/useAdvancedScrollAnimation.ts:265-292 | while scrolling keys are ignored; the six navigation keys prevent the default and move one step, or to either end |
| ScrollAnimation.KeyKeepsSectionInRange | my-portfolio/src/hooks/useAdvancedScrollAnimation.ts:265-292 | a key press keeps a valid current section valid |
| ScrollAnimation.ArrowsMoveByOne | my-portfolio/src/hooks/useAdvancedScrollAnimation.ts:268-282 | arrow and page keys move at most one section |
| ScrollAnimation.EndBeyondKnownIds | my-portfolio/src/hooks/useAdvancedScrollAnimation.ts:229-234 | with more than five sections, End does nothing, because only five section ids exist |
| ScrollAnimation.OnScroll | my-portfolio/src/hooks/useAdvancedScrollAnimation.ts:299-313 | during a programmatic scroll the listener is off; otherwise the section follows the tracker |
| LazyLoading.RunIntersections | my-portfolio/src/hooks/useLazyLoading.ts:27-42 | visibility is the latest callback's, and has-been-visible is set exactly when some callback intersected |
| LazyLoading.LoadImage | my-portfolio/src/hooks/useLazyLoading.ts:96-101 | a load is ignored while loading or once loaded; otherwise loading starts and the error clears |
| LazyLoading.RunImageInvariant | my-portfolio/src/hooks/useLazyLoading.ts:89-118 | the source is always the placeholder or the image, the image exactly when loaded, and a loaded image never changes again |
| LazyLoading.LoadComponent | my-portfolio/src/hooks/useLazyLoading.ts:183-189 | the import starts exactly when not loading, not loaded and not triggered before |
| LazyLoading.ImportAtMostOnce | my-portfolio/src/hooks/useLazyLoading.ts:181-199 | from a fresh hook, any sequence of events starts the import at most once |
| LazyLoading.ExtensionAfterLastDot | my-portfolio/src/hooks/useLazyLoading.ts:255 | the extension is the lowercased text after the last dot |
| LazyLoading.KindOf | my-portfolio/src/hooks/useLazyLoading.ts:256-280 | css, js, the font and the image extensions each get their kind, in both directions; everything else is fetch |
| LazyLoading.PreloadLinkFor | my-portfolio/src/hooks/useLazyLoading.ts:250-280 | fonts and fetches, and only those, are marked anonymous cross-origin |
| LazyLoading.Preload | my-portfolio/src/hooks/useLazyLoading.ts:245-283 | no links without the condition; otherwise one link per resource, in order |
| LazyLoading.VirtualScroll | my-portfolio/src/hooks/useLazyLoading.ts:317-323 | the start is overscan rows above the row holding the scroll offset, but not below 0; the end is overscan rows past the fewest rows that reach the viewport's bottom, but no further than the last item; the offset is the start row's top, and the offset never lies below the scroll position |
| LazyLoading.VirtualWindowDetermined | my-portfolio/src/hooks/useLazyLoading.ts:317-323 | any window that fits that description is the one computed |
| LazyLoading.VirtualScrollCovers | my-portfolio/src/hooks/useLazyLoading.ts:317-323 | every item that intersects the viewport lies inside the rendered window |
| ProgressiveLoading.Init | my-portfolio/src/hooks/useProgressiveLoading.ts:24-27 | the first batch is a prefix of the items, and hasMore holds exactly when items remain |
| ProgressiveLoading.RunValid | my-portfolio/src/hooks/useProgressiveLoading.ts:19-47 | the visible items stay a prefix of all items and only ever grow |
| ProgressiveLoading.HasMoreHonestPreserved | my-portfolio/src/hooks/useProgressiveLoading.ts:29-47 | hasMore keeps telling the truth about hidden items through every step, and a pending batch is only ever started while more remains |
| ProgressiveLoading.RunHonest | my-portfolio/src/hooks/useProgressiveLoading.ts:19-47 | from the initial batch, hasMore never claims more to load once everything is shown, whatever calls and completions follow |
| ProgressiveLoading.LoadMoreProgresses | my-portfolio/src/hooks/useProgressiveLoading.ts:29-47 | a request and its completion reveal at least one more item |
| PerformanceOptimizations.Set | my-portfolio/src/utils/performanceOptimizations.ts:111-119 | after set the key holds the value; the oldest entry is evicted exactly when the cache is full |
| PerformanceOptimizations.SetBounded | my-portfolio/src/utils/performanceOptimizations.ts:111-119 | the cache never grows beyond its bound |
| PerformanceOptimizations.SetEvictsOldest | my-portfolio/src/utils/performanceOptimizations.ts:113-116 | a full cache loses exactly its oldest key, even when the key being set is already present |
| PerformanceOptimizations.SetFrame | my-portfolio/src/utils/performanceOptimizations.ts:111-127 | set changes no other key's value or presence, except by evicting the oldest |
| PerformanceOptimizations.Clear | my-portfolio/src/utils/performanceOptimizations.ts:129-131 | after clear no key is present |
| PerformanceOptimizations.CalculateVisibleItems | my-portfolio/src/utils/performanceOptimizations.ts:139-151 | the start is overscan rows above the row holding the scroll offset, but not below 0; the visible count is the fewest rows that fill the container; the end is the smaller of the last item and visible count plus twice the overscan past the start; with no items the end is -1 |
| PerformanceOptimizations.WindowDetermined | my-portfolio/src/utils/performanceOptimizations.ts:139-151 | any window that fits that description is the one computed |
| PerformanceOptimizations.WindowCoversViewport | my-portfolio/src/utils/performanceOptimizations.ts:139-151 | every item that intersects the viewport lies inside the returned window |
| PerformanceGrade.ScoreColor | my-portfolio/src/components/PerformanceMonitor.tsx:198-211 | each known metric is good up to its first threshold, needs improvement up to its second and poor above; unknown metrics are neutral |
| PerformanceGrade.LargerIsNeverBetter | my-portfolio/src/components/PerformanceMonitor.tsx:198-211 | a larger measured value never gets a better grade |
| PerformanceGrade.ThresholdsOrdered | my-portfolio/src/components/PerformanceMonitor.tsx:200-207 | every metric's thresholds are ordered, so all three grades are reachable |
| PerformanceGrade.FirstPaintGrade | my-portfolio/src/components/PerformanceMonitor.tsx:279-285 | first paint is graded with the fcp thresholds and is never neutral |
| AnimatedForm.HandleChange | my-portfolio/src/components/Interactive/AnimatedForm.tsx:21-28 | the value is stored; a validated field's error becomes the verdict or ''; an unvalidated field leaves the errors alone |
| AnimatedForm.StylingExclusive | my-portfolio/src/components/Interactive/AnimatedForm.tsx:64-65 | the invalid and valid classes never show together |
| AnimatedForm.SubmissionFreezesData | my-portfolio/src/components/Interactive/AnimatedForm.tsx:67 | while a submission is pending the inputs are disabled, so values and errors cannot change |
| AnimatedForm.SubmitOutcomes | my-portfolio/src/components/Interactive/AnimatedForm.tsx:30-43 | both outcomes end the submission, and only a resolved one shows success |
| AnimatedForm.ErrorsStayCurrent | my-portfolio/src/components/Interactive/AnimatedForm.tsx:21-28 | the error record always holds each validated field's verdict on its current value |
| AnimatedForm.UnvalidatedFieldHasNoError | my-portfolio/src/components/Interactive/AnimatedForm.tsx:24-27 | a field without a validator never gets an error entry |
| AnimatedForm.AcceptedChangeBlocksSubmit | my-portfolio/src/components/Interactive/AnimatedForm.tsx:79 | as written, typing an accepted value disables submit although no field shows an error |
| AnimatedForm.AsWrittenNeverReenables | my-portfolio/src/components/Interactive/AnimatedForm.tsx:79 | as written, once a validated field has been typed in, submit stays disabled forever |
| AnimatedForm.SubmitIffSomeFieldRejected | my-portfolio/src/components/Interactive/AnimatedForm.tsx:64-79 | with the corrected rule submit is disabled exactly while submitting or while some field shows an error |
| RippleButton.HandleClick | my-portfolio/src/components/Interactive/RippleButton.tsx:47-69 | a disabled or loading button does nothing; otherwise one ripple is appended under the next key and onClick runs |
| RippleButton.WithoutIdRemovesOne | my-portfolio/src/components/Interactive/RippleButton.tsx:33-35 | an expiring ripple's key is removed exactly once |
| RippleButton.WithoutIdAbsent | my-portfolio/src/components/Interactive/RippleButton.tsx:33-35 | an expiry for a key no longer present changes nothing |
| RippleButton.KeysStayOrdered | my-portfolio/src/components/Interactive/RippleButton.tsx:26-69 | clicks and expiries keep the ripple keys strictly increasing and below the next key |
| RippleButton.KeysUniqueFromStart | my-portfolio/src/components/Interactive/RippleButton.tsx:26-69 | no two ripples on screen share a key |
| Blog.FilteredPosts | my-portfolio/src/components/Blog.tsx:125-133 | exactly the posts matching both the search and the category, in order and with their multiplicities |
| Blog.NoFilterShowsAll | my-portfolio/src/components/Blog.tsx:125-133 | an empty search with "all" lists every post |
| Blog.Categories | my-portfolio/src/components/Blog.tsx:123 | "all" first, then each post category once, in order of first occurrence |
| Blog.CategoriesDistinct | my-portfolio/src/components/Blog.tsx:123 | the list has no repeats unless a post's category is itself "all" |
| Blog.FeaturedShown | my-portfolio/src/components/Blog.tsx:135-201 | the first three featured posts, in order |
| Blog.ModalFromStart | my-portfolio/src/components/Blog.tsx:137-145 | the modal is open exactly while a post is selected |
| Assistant.GenerateResponse | my-portfolio/src/components/AI/AIAssistant.tsx:137-177 | the reply branch is the first that matches, in order: the topic table, then projects, skills, greetings, thanks and the fallback, each condition stated in both directions; a project or skill reply names the first one the message mentions |
| Assistant.ResponseIsTheAnswer | my-portfolio/src/components/AI/AIAssistant.tsx:137-177 | a reply meets the stage-by-stage description of the answer exactly when it is the reply given, so that description has one answer |
| Assistant.WorkHistoryGetsProjects | my-portfolio/src/components/AI/AIAssistant.tsx:60-64 | "work history" gets the projects reply, because "work" is a projects pattern listed earlier |
| Assistant.ThisGetsGreeting | my-portfolio/src/components/AI/AIAssistant.tsx:167-169 | "this" gets the greeting, because "hi" is matched anywhere |
| Assistant.ResponseText | my-portfolio/src/components/AI/AIAssistant.tsx:137-177 | every message gets a non-empty answer |
| Assistant.UpdateSuggestions | my-portfolio/src/components/AI/AIAssistant.tsx:108-135 | three suggestions: the skill follow-ups exactly when the lowercased message says "skill" or "technology", the project ones exactly when it says "project" and neither of those, the experience ones exactly when it says only "experience", and the first three quick suggestions otherwise |
| Assistant.FollowUpsMatchReply | my-portfolio/src/components/AI/AIAssistant.tsx:108-135 | the skill follow-ups come only with the skills reply, and a message naming projects or experience gets a topic reply no later than that topic |
| Assistant.WelcomeOnce | my-portfolio/src/components/AI/AIAssistant.tsx:93-106 | the welcome greeting is sent at most once |
| Assistant.Welcome | my-portfolio/src/components/AI/AIAssistant.tsx:93-106 | an open, empty chat gets one greeting from the list and the first three suggestions; otherwise nothing changes |
| Assistant.UserSends | my-portfolio/src/components/AI/AIAssistant.tsx:179-193 | a blank message changes nothing; otherwise the user message is appended, its text joins the pending replies, the input is cleared and the typing indicator comes on |
| Assistant.ReplyArrives | my-portfolio/src/components/AI/AIAssistant.tsx:195-210 | the end of one pending delay appends the reply to that text, removes it from the pending texts, turns the typing indicator off and sets the suggestions for that text |
| Assistant.SendMessage | my-portfolio/src/components/AI/AIAssistant.tsx:179-213 | a send whose delay ends before anything else happens appends the user message and then its reply, and leaves the pending texts as they were |
| Assistant.AlwaysAccounted | my-portfolio/src/components/AI/AIAssistant.tsx:179-213 | from any chat whose replies are accounted for, every sequence of events keeps the replies shown plus the pending texts' replies equal, as a multiset, to the replies owed to the user messages |
| Assistant.RepliesNeverOutnumber | my-portfolio/src/components/AI/AIAssistant.tsx:179-213 | from the initial chat, the replies shown plus the pending texts always number exactly the user messages |
| Assistant.SendKeepsPaired | my-portfolio/src/components/AI/AIAssistant.tsx:179-213 | an uninterrupted send keeps every user message directly followed by the reply to it |
| Assistant.TypedRunsStayPaired | my-portfolio/src/components/AI/AIAssistant.tsx:345-355 | while only the input box and the send button are used (both disabled while the reply is awaited), every user message is followed by the reply to it, with at most the last one still waiting |
| Assistant.SuggestionClicksInterleave | my-portfolio/src/components/AI/AIAssistant.tsx:327-335 | the suggestion buttons stay enabled while a reply is awaited, so two quick clicks put two user messages next to each other and the chat is no longer paired |
| Assistant.KeyPress | my-portfolio/src/components/AI/AIAssistant.tsx:215-220 | Enter without Shift starts a send of the trimmed input; any other key leaves the chat unchanged |
| Assistant.ToggleChat | my-portfolio/src/components/AI/AIAssistant.tsx:222-227 | the chat's open flag flips and nothing else changes |
| Assistant.ToggleMinimize | my-portfolio/src/components/AI/AIAssistant.tsx:229-231 | the minimised flag flips and nothing else changes |
| Analytics.DetectDeviceType | my-portfolio/src/utils/advancedAnalytics.ts:103-108 | mobile below 768px, tablet below 1024px, desktop from there, each in both directions |
| Analytics.DetectorsAreFirstMatch | my-portfolio/src/utils/advancedAnalytics.ts:110-125 | browser and OS detection return the first rule of their tables whose pattern occurs |
| Analytics.AndroidReportedAsLinux | my-portfolio/src/utils/advancedAnalytics.ts:118-125 | an Android user agent is reported as Linux: the Linux test comes first |
| Analytics.IPhoneReportedAsMac | my-portfolio/src/utils/advancedAnalytics.ts:118-125 | an iPhone user agent is reported as macOS: the Mac test comes first |
| Analytics.DetermineVisitFrequency | my-portfolio/src/utils/advancedAnalytics.ts:141-147 | 0 visits is first-time, 1 to 4 is returning, anything else (including an unparsable count) is frequent |
| Analytics.IdSelectorsCollide | my-portfolio/src/utils/advancedAnalytics.ts:206 | as written, every element with an id gets the same selector |
| Analytics.IdSelectorsSeparate | my-portfolio/src/utils/advancedAnalytics.ts:205-215 | with the id interpolated, different ids give different selectors |
| Analytics.ClassOrTagSelector | my-portfolio/src/utils/advancedAnalytics.ts:207-214 | without an id the selector is the first class token, else the lowercased tag |
| Analytics.CellOf | my-portfolio/src/utils/advancedAnalytics.ts:217-222 | the heatmap bucket is the 10px cell containing the mouse |
| Analytics.SaveSession | my-portfolio/src/utils/advancedAnalytics.ts:417-427 | the stored sessions are the last ten of the old ones plus the new one, which comes last |
| Analytics.Step | my-portfolio/src/utils/advancedAnalytics.ts:151-273 | start, pause, resume, stop and the visibility listener set the tracking flag; page views and interactions are recorded only while tracking; a click, key press or touch records the target's selector under the chosen selector rule, which is the as-written one for the listeners |
| Analytics.ClicksOnIdsLumped | my-portfolio/src/utils/advancedAnalytics.ts:173-206 | under the as-written selector, clicks on two elements with ids are both recorded under the one literal selector; with the id interpolated they are recorded apart |
| Analytics.NothingRecordedWhileOff | my-portfolio/src/utils/advancedAnalytics.ts:256-273 | while tracking is off and nothing switches it on, no page view or interaction is recorded |
| Analytics.RecordsOnlyGrow | my-portfolio/src/utils/advancedAnalytics.ts:256-273 | page views, interactions and mouse moves are only ever appended to |
| Analytics.Candidates | my-portfolio/src/utils/advancedAnalytics.ts:297-309 | each recommendation pair is pushed exactly when its interest or device condition holds |
| Analytics.RecommendationsIgnoreViews | my-portfolio/src/utils/advancedAnalytics.ts:289-312 | the viewed-projects filter never removes anything: the result is the first three candidates |
| Analytics.SuggestedSections | my-portfolio/src/utils/advancedAnalytics.ts:314-319 | exactly the fixed sections not yet visited, in order |
| Counting.TopCounts | my-portfolio/src/utils/advancedAnalytics.ts:386-389 | the first k entries of the stably sorted Map tally: true counts, largest first, none left out that outnumbers one kept, equal counts in first-occurrence order, and a left-out tie first occurs after every kept entry it ties with |
| Analytics.MostInteractedElements | my-portfolio/src/utils/advancedAnalytics.ts:378-390 | up to ten distinct targets with their true counts, sorted by count, none left out that outnumbers one kept; equal counts keep first-interaction order, and a target left out with the count of a kept one was first hit after it |
| Analytics.MostFrequentPages | my-portfolio/src/utils/advancedAnalytics.ts:453-465 | up to five distinct viewed pages, most viewed first, none left out that was viewed more often than one kept; equal counts keep first-view order, and a page left out with the count of a kept one was first viewed after it |
| Analytics.HeatmapData | my-portfolio/src/utils/advancedAnalytics.ts:343-353 | up to a hundred distinct cells, sorted by intensity, each with its true count, none left out that is hotter than one kept; equal intensities keep first-visit order, and a cell left out with the intensity of a kept one was first visited after it |
| Achievements.Check | my-portfolio/src/components/Gamification/AchievementSystem.tsx:118-174 | each achievement's progress follows its statistic, capped at the target; it unlocks once the target is reached, and the run's notifications are the newly unlocked ones |
| Achievements.Transitions | my-portfolio/src/components/Gamification/AchievementSystem.tsx:144-164 | the positions the check moves from locked to unlocked, in increasing order, each of them and no other |
| Achievements.NotificationsAreTransitions | my-portfolio/src/components/Gamification/AchievementSystem.tsx:144-164 | the notifications are exactly the updated achievements at those positions, in order |
| Achievements.NotifiedAtMostOnce | my-portfolio/src/components/Gamification/AchievementSystem.tsx:144-164 | across any sequence of checks each achievement is notified at most once |
| Achievements.TotalPointsMonotone | my-portfolio/src/components/Gamification/AchievementSystem.tsx:226-231 | the points total never drops, because nothing relocks |
| Achievements.ProgressPercentage | my-portfolio/src/components/Gamification/AchievementSystem.tsx:243-245 | the percentage is progress over target, capped at 100; below the target it is exactly progress times 100 over target |
| Achievements.PercentageMonotone | my-portfolio/src/components/Gamification/AchievementSystem.tsx:243-245 | more progress never shows a smaller percentage |
| Achievements.TrackingIdempotent | my-portfolio/src/components/Gamification/AchievementSystem.tsx:177-189 | visiting the same section or project twice counts once |
| Achievements.TrackScroll | my-portfolio/src/components/Gamification/AchievementSystem.tsx:198-203 | the scroll distance grows by the absolute distance, in either direction |
| Achievements.MasterUnlocksEarly | my-portfolio/src/components/Gamification/AchievementSystem.tsx:105-115 | as written, portfolio-master unlocks while time-traveler is still locked |
| Achievements.MasterRequiresAllOthers | my-portfolio/src/components/Gamification/AchievementSystem.tsx:139-141 | with a target of six, portfolio-master is unlocked only when every other achievement is |
| Achievements.MasterFollowsAllOthers | my-portfolio/src/components/Gamification/AchievementSystem.tsx:139-141 | with a target of six, once every other achievement is unlocked the next check unlocks portfolio-master |

## Left out

- Rendering, CSS classes beyond the ones modelled, framer-motion animation values, springs and transforms: they are presentation, not logic.
- Timers (`setTimeout`, `setInterval`, `requestAnimationFrame`, throttling) and awaited promises are modelled as atomic step events. The exact delays (1000 ms, 2000 ms, 5000 ms, the random typing delay) are not modelled.
- Randomness is a parameter. The session id and the greeting pick (`Assistant.Welcome`'s `pick`) are examples. The clock is one too (`timeSpent` and timestamps).
- Browser and DOM APIs become parameters: `localStorage`, `IntersectionObserver`, `getBoundingClientRect`, `scrollIntoView` and `document.getElementById`. Which section elements are mounted is an explicit argument.
- `Text.Lower` maps ASCII letters only, and `Text.Trim` strips the ASCII whitespace characters. JavaScript's Unicode case mapping and whitespace set are not modelled.
- The heatmap keeps cells as integer pairs. The string key `"x,y"` and its `split(',').map(Number)` round trip are not modelled.
- Analytics scroll depth, `getScrollPatterns`, `calculateEngagementScore`, `getInsights`, `getCustomizedContent` and `getAdaptiveUI` are not modelled: they read the clock and compute floating-point scores.
- ProjectUtils.GroupByStatus: a status that names an `Object.prototype` member (`"constructor"`, `"toString"`, `"__proto__"`) makes the source's `{}` accumulator find an inherited value, so `push` throws; the model groups such a status like any other key.
- `updateUserPreference` and `analyzePreviousSessions`' preferred interaction types are not modelled. The first only writes `localStorage`; the second is `MostFrequentPages` without the cut.
- `formatBytes`, `formatTime` and `formatDate` are not modelled: they only format numbers and dates for display.
- Performance measurement itself (`PerformanceObserver`, memory readings) is not modelled; measured values are parameters of `PerformanceGrade`.
- Carousel.TotalPages: requires a positive `itemsPerPage`. With 0 the source divides by zero and yields `Infinity` or `NaN`, which the model does not follow.
- PerformanceOptimizations.CalculateVisibleItems: requires a positive item height, for the same division-by-zero reason.
- LazyLoading.VirtualScroll: requires a positive item height, for the same division-by-zero reason.
- ProjectCard: the view callback (`handleViewProject`, which passes the project to its parent) is the identity and is not modelled.
- SmoothScrollNav: its velocity tracking duplicates `ScrollAnimation.Frame` and is not modelled again.
- `useSmoothSectionScroll`'s ref-array initialisation is not modelled. `ScrollAnimation.OnScroll` takes the refs as given, one per section.
- ScrollAnimation.Frame: `deltaTime` and `scrollY` are parameters. Elapsed time comes from `Date.now()`, which is not modelled.
- Assistant.SendMessage: the whole send in one step, for the case where no other event comes before the reply. Interleaved sends are `UserSends` and `ReplyArrives` events. The random delay only decides which pending reply arrives next, so the model lets any pending reply arrive at any time. The length of the delay is not modelled.

## Findings

| source | as written | input that shows it | evidently intended | confidence | as-written member | corrected member |
|---|---|---|---|---|---|---|
| my-portfolio/src/utils/advancedAnalytics.ts:206 | the id selector is the template `` `#$;{element.id}` ``, where `$;{` is not an interpolation, so every id yields the literal text `#$;{element.id}` | any two elements with ids `"a"` and `"b"` | `` `#${element.id}` ``, one selector per id | high (not executed) | Analytics.ElementSelectorAsWritten | Analytics.ElementSelector |
| my-portfolio/src/components/Interactive/AnimatedForm.tsx:79 | submit is disabled while `Object.keys(errors).length > 0`, but an accepted value stores `''` under its field, so the key stays | one validated field, typed with a value its validator accepts | disabled only while some field shows a non-empty error | high (not executed) | AnimatedForm.SubmitDisabledAsWritten | AnimatedForm.SubmitDisabled |
| my-portfolio/src/components/Gamification/AchievementSystem.tsx:111 | `portfolio-master` has target 5 with six other achievements, so it unlocks while one is still locked | statistics that unlock every achievement except `time-traveler`, checked twice | target 6, matching "Unlock all other achievements" | high (not executed) | Achievements.MasterUnlocksEarly | Achievements.MasterRequiresAllOthers |

=== FILE: achievements.dfy ===
/**
 * `AchievementSystem`: seven achievements whose progress follows the user's
 * statistics, unlocked once progress reaches the target, with a points total
 * and a progress percentage. `checkAchievements` runs whenever the statistics
 * change; the unlock callback and notification are reported as the list of
 * achievements unlocked by that run.
 */
module Achievements {
  import opened Numbers

  datatype AchievementId =
    | FirstVisit | TimeTraveler | SectionExplorer | ProjectEnthusiast
    | InteractionMaster | ScrollChampion | PortfolioMaster

  datatype Achievement = Achievement(
    id: AchievementId, progress: real, maxProgress: real, unlocked: bool, points: int)

  /** What the tracking methods accumulate. `timeSpent` comes from the clock. */
  datatype UserStats = UserStats(
    timeSpent: int,
    sectionsVisited: set<string>,
    projectsViewed: set<string>,
    interactionsCount: int,
    scrollDistance: real)

  const InitialStats := UserStats(0, {}, {}, 0, 0.0)

  /**
   * The target of `portfolio-master` as the source writes it: 5, while six
   * other achievements exist.
   */
  const AsWrittenMasterTarget: real := 5.0

  /** The intended target: every other achievement. */
  const MasterTarget: real := 6.0

  /** `initializeAchievements`, with the master target as a parameter. */
  function InitialWith(masterTarget: real): (r: seq<Achievement>)
    ensures |r| == 7
    ensures r[0] == Achievement(FirstVisit, 1.0, 1.0, true, 10)
    ensures forall i :: 1 <= i < |r| ==> !r[i].unlocked && r[i].progress == 0.0
  {
    [ Achievement(FirstVisit, 1.0, 1.0, true, 10),
      Achievement(TimeTraveler, 0.0, 300.0, false, 25),
      Achievement(SectionExplorer, 0.0, 5.0, false, 50),
      Achievement(ProjectEnthusiast, 0.0, 3.0, false, 40),
      Achievement(InteractionMaster, 0.0, 50.0, false, 75),
      Achievement(ScrollChampion, 0.0, 10000.0, false, 60),
      Achievement(PortfolioMaster, 0.0, masterTarget, false, 200) ]
  }

  /** The achievement list as the source initialises it. */
  function InitialAsWritten(): seq<Achievement>
  {
    InitialWith(AsWrittenMasterTarget)
  }

  /** The achievement list with the master target corrected to six. */
  function Initial(): seq<Achievement>
  {
    InitialWith(MasterTarget)
  }

  /** The statistic an achievement follows, or `None` for the two that follow none. */
  function Stat(id: AchievementId, stats: UserStats): real
  {
    match id
    case TimeTraveler => stats.timeSpent as real
    case SectionExplorer => |stats.sectionsVisited| as real
    case ProjectEnthusiast => |stats.projectsViewed| as real
    case InteractionMaster => stats.interactionsCount as real
    case ScrollChampion => stats.scrollDistance
    case _ => 0.0
  }

  predicate FollowsStat(id: AchievementId)
  {
    id != FirstVisit && id != PortfolioMaster
  }

  /** `prev.filter(a => a.id !== 'portfolio-master' && a.unlocked).length`. */
  function OthersUnlocked(prev: seq<Achievement>): (n: nat)
    ensures n <= |prev|
  {
    if |prev| == 0 then 0
    else (if prev[0].id != PortfolioMaster && prev[0].unlocked then 1 else 0) + OthersUnlocked(prev[1..])
  }

  /** The progress `checkAchievements` computes for one achievement. */
  function NewProgress(a: Achievement, prev: seq<Achievement>, stats: UserStats): (p: real)
    ensures FollowsStat(a.id) ==> p == MinReal(Stat(a.id, stats), a.maxProgress)
    ensures FollowsStat(a.id) && Stat(a.id, stats) >= 0.0 && a.maxProgress >= 0.0 ==>
              0.0 <= p <= a.maxProgress
    ensures a.id == PortfolioMaster ==> p == OthersUnlocked(prev) as real
    ensures a.id == FirstVisit ==> p == a.progress
  {
    if FollowsStat(a.id) then MinReal(Stat(a.id, stats), a.maxProgress)
    else if a.id == PortfolioMaster then OthersUnlocked(prev) as real
    else a.progress
  }

  /** The updated achievement and whether this update unlocked it. */
  function Update(a: Achievement, prev: seq<Achievement>, stats: UserStats): (r: (Achievement, bool))
    ensures r.0.id == a.id && r.0.maxProgress == a.maxProgress && r.0.points == a.points
    ensures r.0.progress == NewProgress(a, prev, stats)
    ensures r.0.unlocked <==> a.unlocked || NewProgress(a, prev, stats) >= a.maxProgress
    ensures r.1 <==> !a.unlocked && r.0.unlocked
  {
    var p := NewProgress(a, prev, stats);
    if !a.unlocked && p >= a.maxProgress then (a.(progress := p, unlocked := true), true)
    else (a.(progress := p), false)
  }

  /** `checkAchievements` over the achievements from index `k` on. */
  function CheckFrom(prev: seq<Achievement>, stats: UserStats, k: nat): (r: (seq<Achievement>, seq<Achievement>))
    requires k <= |prev|
    ensures |r.0| == |prev| - k
    ensures forall i :: 0 <= i < |r.0| ==> r.0[i] == Update(prev[k + i], prev, stats).0
    ensures forall j :: 0 <= j < |r.1| ==> r.1[j] in r.0 && r.1[j].unlocked
    decreases |prev| - k
  {
    if k == |prev| then ([], [])
    else
      var (a, fired) := Update(prev[k], prev, stats);
      var (rest, unlocks) := CheckFrom(prev, stats, k + 1);
      ([a] + rest, (if fired then [a] else []) + unlocks)
  }

  /**
   * `checkAchievements`: every achievement updated against the same previous
   * list, plus the achievements this run unlocked, in list order.
   */
  function Check(prev: seq<Achievement>, stats: UserStats): (r: (seq<Achievement>, seq<Achievement>))
    ensures |r.0| == |prev|
    ensures forall i :: 0 <= i < |prev| ==>
              r.0[i].id == prev[i].id && r.0[i].maxProgress == prev[i].maxProgress
              && r.0[i].points == prev[i].points
    ensures forall i :: 0 <= i < |prev| && prev[i].unlocked ==> r.0[i].unlocked
    ensures forall i :: 0 <= i < |prev| ==>
              (r.0[i].unlocked <==> prev[i].unlocked || NewProgress(prev[i], prev, stats) >= prev[i].maxProgress)
    ensures forall j :: 0 <= j < |r.1| ==> r.1[j] in r.0 && r.1[j].unlocked
  {
    CheckFrom(prev, stats, 0)
  }

  /** Whether the run of `Check` unlocked the achievement at index `i`. */
  predicate UnlockedBy(prev: seq<Achievement>, stats: UserStats, i: nat)
    requires i < |prev|
  {
    Update(prev[i], prev, stats).1
  }

  /** The indices from `k` on whose achievement the run unlocks, in increasing order. */
  function Transitions(prev: seq<Achievement>, stats: UserStats, k: nat): (t: seq<nat>)
    requires k <= |prev|
    ensures forall j :: 0 <= j < |t| ==> k <= t[j] < |prev| && UnlockedBy(prev, stats, t[j])
    ensures forall j1, j2 :: 0 <= j1 < j2 < |t| ==> t[j1] < t[j2]
    ensures forall i :: k <= i < |prev| && UnlockedBy(prev, stats, i) ==> i in t
    decreases |prev| - k
  {
    if k == |prev| then []
    else (if UnlockedBy(prev, stats, k) then [k] else []) + Transitions(prev, stats, k + 1)
  }

  /** `xs[j]` is the updated achievement at index `ts[j]`, for every `j`. */
  predicate Aligned(prev: seq<Achievement>, stats: UserStats, xs: seq<Achievement>, ts: seq<nat>)
  {
    |xs| == |ts| && forall j :: 0 <= j < |ts| ==> ts[j] < |prev| && xs[j] == Update(prev[ts[j]], prev, stats).0
  }

  /**
   * A run's notifications are exactly the achievements it moved from locked
   * to unlocked, each once, in list order, as they stand after the update.
   */
  lemma {:induction false} NotificationsAreTransitions(prev: seq<Achievement>, stats: UserStats, k: nat)
    requires k <= |prev|
    ensures Aligned(prev, stats, CheckFrom(prev, stats, k).1, Transitions(prev, stats, k))
    decreases |prev| - k
  {
    if k < |prev| {
      NotificationsAreTransitions(prev, stats, k + 1);
      CheckFromStep(prev, stats, k);
      if UnlockedBy(prev, stats, k) {
        ConsAligned(prev, stats, k, CheckFrom(prev, stats, k + 1).1, Transitions(prev, stats, k + 1));
      }
    }
  }

  /** One step of both lists: the achievement at `k` joins them exactly when the run unlocks it. */
  lemma CheckFromStep(prev: seq<Achievement>, stats: UserStats, k: nat)
    requires k < |prev|
    ensures var u := Update(prev[k], prev, stats);
            CheckFrom(prev, stats, k).1 == (if u.1 then [u.0] else []) + CheckFrom(prev, stats, k + 1).1
            && Transitions(prev, stats, k) == (if u.1 then [k] else []) + Transitions(prev, stats, k + 1)
  {
  }

  /** Prepending the update at `k` to both lists keeps them aligned. */
  lemma ConsAligned(prev: seq<Achievement>, stats: UserStats, k: nat, xs: seq<Achievement>, ts: seq<nat>)
    requires k < |prev| && Aligned(prev, stats, xs, ts)
    ensures Aligned(prev, stats, [Update(prev[k], prev, stats).0] + xs, [k] + ts)
  {
    var ys := [Update(prev[k], prev, stats).0] + xs;
    var us := [k] + ts;
    forall j | 0 <= j < |us| ensures us[j] < |prev| && ys[j] == Update(prev[us[j]], prev, stats).0 {
      if j > 0 {
        assert ys[j] == xs[j - 1] && us[j] == ts[j - 1];
      }
    }
  }

  /** The achievements after a sequence of statistic snapshots, each followed by a check. */
  function RunChecks(a: seq<Achievement>, snapshots: seq<UserStats>): (r: seq<Achievement>)
    ensures |r| == |a|
    ensures forall i :: 0 <= i < |a| ==> r[i].id == a[i].id && r[i].maxProgress == a[i].maxProgress
    ensures forall i :: 0 <= i < |a| && a[i].unlocked ==> r[i].unlocked
    decreases |snapshots|
  {
    if |snapshots| == 0 then a else RunChecks(Check(a, snapshots[0]).0, snapshots[1..])
  }

  /** How many of a sequence of checks notified the unlock of the achievement at index `i`. */
  function TimesNotified(a: seq<Achievement>, snapshots: seq<UserStats>, i: nat): nat
    requires i < |a|
    decreases |snapshots|
  {
    if |snapshots| == 0 then 0
    else (if UnlockedBy(a, snapshots[0], i) then 1 else 0) + TimesNotified(Check(a, snapshots[0]).0, snapshots[1..], i)
  }

  /**
   * An achievement is announced at most once, however many checks run, and
   * never if it was already unlocked.
   */
  lemma {:induction false} NotifiedAtMostOnce(a: seq<Achievement>, snapshots: seq<UserStats>, i: nat)
    requires i < |a|
    ensures TimesNotified(a, snapshots, i) <= (if a[i].unlocked then 0 else 1)
    decreases |snapshots|
  {
    if |snapshots| > 0 {
      var next := Check(a, snapshots[0]).0;
      NotifiedAtMostOnce(next, snapshots[1..], i);
      if UnlockedBy(a, snapshots[0], i) {
        assert next[i].unlocked;
      }
    }
  }

  /** `totalPoints`: the points of the unlocked achievements. */
  function TotalPoints(a: seq<Achievement>): int
  {
    if |a| == 0 then 0 else (if a[0].unlocked then a[0].points else 0) + TotalPoints(a[1..])
  }

  /** With non-negative points, a check never lowers the total. */
  lemma {:induction false} TotalPointsMonotone(a: seq<Achievement>, b: seq<Achievement>)
    requires |a| == |b|
    requires forall i :: 0 <= i < |a| ==> a[i].points == b[i].points && a[i].points >= 0
    requires forall i :: 0 <= i < |a| && a[i].unlocked ==> b[i].unlocked
    ensures TotalPoints(a) <= TotalPoints(b)
    decreases |a|
  {
    if |a| > 0 {
      TotalPointsMonotone(a[1..], b[1..]);
    }
  }

  lemma CheckRaisesPoints(a: seq<Achievement>, stats: UserStats)
    requires forall i :: 0 <= i < |a| ==> a[i].points >= 0
    ensures TotalPoints(a) <= TotalPoints(Check(a, stats).0)
  {
    TotalPointsMonotone(a, Check(a, stats).0);
  }

  lemma InitialPoints()
    ensures TotalPoints(Initial()) == 10
  {
  }

  /** `getProgressPercentage`, capped at 100. */
  function ProgressPercentage(a: Achievement): (pct: real)
    requires a.maxProgress > 0.0
    ensures pct <= 100.0
    ensures a.progress >= 0.0 ==> pct >= 0.0
    ensures pct == 100.0 <==> a.progress >= a.maxProgress
    ensures a.progress < a.maxProgress ==> pct * a.maxProgress == a.progress * 100.0
  {
    var raw := a.progress / a.maxProgress * 100.0;
    assert a.progress >= a.maxProgress <==> a.progress / a.maxProgress >= 1.0 by {
      DivAtLeastOne(a.progress, a.maxProgress);
    }
    ScaledQuotient(a.progress, a.maxProgress, 100.0);
    MinReal(raw, 100.0)
  }

  /** More progress never shows a smaller percentage. */
  lemma PercentageMonotone(a: Achievement, progress: real)
    requires a.maxProgress > 0.0 && a.progress <= progress
    ensures ProgressPercentage(a) <= ProgressPercentage(a.(progress := progress))
  {
    var m := a.maxProgress;
    assert a.progress / m <= progress / m;
    MulLe(a.progress / m, progress / m, 100.0);
  }

  /** `x / m * s`, multiplied back by `m`, is `x * s`. */
  lemma ScaledQuotient(x: real, m: real, s: real)
    requires m > 0.0
    ensures x / m * s * m == x * s
  {
    assert (x / m) * m == x;
    assert x / m * s * m == (x / m) * m * s;
  }

  lemma DivAtLeastOne(x: real, m: real)
    requires m > 0.0
    ensures x >= m <==> x / m >= 1.0
  {
    assert (x / m) * m == x;
    if x / m >= 1.0 {
      MulLe(1.0, x / m, m);
    } else {
      MulLt(x / m, 1.0, m);
    }
  }

  /** `trackSectionVisit`. */
  function TrackSectionVisit(s: UserStats, sectionId: string): (r: UserStats)
    ensures r.sectionsVisited == s.sectionsVisited + {sectionId}
    ensures |s.sectionsVisited| <= |r.sectionsVisited| <= |s.sectionsVisited| + 1
    ensures r.(sectionsVisited := s.sectionsVisited) == s
  {
    var r := s.(sectionsVisited := s.sectionsVisited + {sectionId});
    assert sectionId in s.sectionsVisited ==> r.sectionsVisited == s.sectionsVisited;
    r
  }

  /** `trackProjectView`. */
  function TrackProjectView(s: UserStats, projectId: string): (r: UserStats)
    ensures r.projectsViewed == s.projectsViewed + {projectId}
    ensures |s.projectsViewed| <= |r.projectsViewed| <= |s.projectsViewed| + 1
    ensures r.(projectsViewed := s.projectsViewed) == s
  {
    var r := s.(projectsViewed := s.projectsViewed + {projectId});
    assert projectId in s.projectsViewed ==> r.projectsViewed == s.projectsViewed;
    r
  }

  /** Visiting a section or viewing a project twice counts once. */
  lemma TrackingIdempotent(s: UserStats, id: string)
    ensures TrackSectionVisit(TrackSectionVisit(s, id), id) == TrackSectionVisit(s, id)
    ensures TrackProjectView(TrackProjectView(s, id), id) == TrackProjectView(s, id)
  {
  }

  /** `trackInteraction`. */
  function TrackInteraction(s: UserStats): (r: UserStats)
    ensures r.interactionsCount == s.interactionsCount + 1
    ensures r.(interactionsCount := s.interactionsCount) == s
  {
    s.(interactionsCount := s.interactionsCount + 1)
  }

  /** `trackScroll`: the distance grows by the absolute value, up or down. */
  function TrackScroll(s: UserStats, distance: real): (r: UserStats)
    ensures r.scrollDistance >= s.scrollDistance
    ensures r.scrollDistance == s.scrollDistance + distance || r.scrollDistance == s.scrollDistance - distance
    ensures r.(scrollDistance := s.scrollDistance) == s
  {
    s.(scrollDistance := s.scrollDistance + Abs(distance))
  }

  // ------------------------------------------------------------ the master target

  /** The list has the seven achievements in their initial order. */
  predicate WellFormed(a: seq<Achievement>)
  {
    |a| == 7
    && a[0].id == FirstVisit && a[1].id == TimeTraveler && a[2].id == SectionExplorer
    && a[3].id == ProjectEnthusiast && a[4].id == InteractionMaster && a[5].id == ScrollChampion
    && a[6].id == PortfolioMaster
  }

  /**
   * With the target of 5 as written, two checks with the statistics below
   * unlock `portfolio-master` while `time-traveler` is still locked: its
   * description ("unlock all other achievements") does not hold.
   */
  lemma MasterUnlocksEarly()
    ensures var once := Check(InitialAsWritten(), EarlyStats()).0;
            var twice := Check(once, EarlyStats()).0;
            twice[6].id == PortfolioMaster && twice[6].unlocked
            && twice[1].id == TimeTraveler && !twice[1].unlocked
  {
    var once := Check(InitialAsWritten(), EarlyStats()).0;
    FirstEarlyCheck();
    OthersUnlockedFive(once);
    assert NewProgress(once[6], once, EarlyStats()) == 5.0;
  }

  lemma FirstEarlyCheck()
    ensures var once := Check(InitialAsWritten(), EarlyStats()).0;
            && WellFormed(once) && once[6].maxProgress == AsWrittenMasterTarget
            && once[0].unlocked && !once[1].unlocked && once[2].unlocked && once[3].unlocked
            && once[4].unlocked && once[5].unlocked
  {
    var stats := EarlyStats();
    var init := InitialAsWritten();
    var once := Check(init, stats).0;
    EarlyProgress(init, stats);
    assert WellFormed(once) by {
      assert forall i :: 0 <= i < 7 ==> once[i].id == init[i].id;
    }
  }

  /** Under `EarlyStats`, each tracked achievement reaches its target except `time-traveler`. */
  lemma EarlyProgress(init: seq<Achievement>, stats: UserStats)
    requires init == InitialAsWritten() && stats == EarlyStats()
    ensures WellFormed(init) && init[6].maxProgress == AsWrittenMasterTarget
    ensures NewProgress(init[1], init, stats) < init[1].maxProgress
    ensures NewProgress(init[2], init, stats) >= init[2].maxProgress
    ensures NewProgress(init[3], init, stats) >= init[3].maxProgress
    ensures NewProgress(init[4], init, stats) >= init[4].maxProgress
    ensures NewProgress(init[5], init, stats) >= init[5].maxProgress
  {
    EarlyStatsSizes();
  }

  /** Every achievement except `time-traveler` is within reach, and no time has passed. */
  function EarlyStats(): UserStats
  {
    UserStats(0, {"a", "b", "c", "d", "e"}, {"p", "q", "r"}, 50, 10000.0)
  }

  lemma EarlyStatsSizes()
    ensures |EarlyStats().sectionsVisited| == 5 && |EarlyStats().projectsViewed| == 3
  {
    assert EarlyStats().sectionsVisited == {"a"} + {"b"} + {"c"} + {"d"} + {"e"};
    assert EarlyStats().projectsViewed == {"p"} + {"q"} + {"r"};
  }

  lemma OthersUnlockedFive(a: seq<Achievement>)
    requires WellFormed(a)
    requires a[0].unlocked && !a[1].unlocked && a[2].unlocked && a[3].unlocked
    requires a[4].unlocked && a[5].unlocked
    ensures OthersUnlocked(a) == 5
  {
    OthersUnlockedSplit(a, 6);
    OthersUnlockedSplit(a, 5);
    OthersUnlockedSplit(a, 4);
    OthersUnlockedSplit(a, 3);
    OthersUnlockedSplit(a, 2);
    OthersUnlockedSplit(a, 1);
    OthersUnlockedSplit(a, 0);
    assert a[0..] == a;
  }

  lemma OthersUnlockedSplit(a: seq<Achievement>, k: nat)
    requires k < |a|
    ensures OthersUnlocked(a[k..]) ==
              (if a[k].id != PortfolioMaster && a[k].unlocked then 1 else 0) + OthersUnlocked(a[k + 1..])
  {
    assert a[k..][1..] == a[k + 1..];
  }

  /** Exactly the six achievements before `portfolio-master` are unlocked. */
  predicate AllOthersUnlocked(a: seq<Achievement>)
    requires WellFormed(a)
  {
    forall i :: 0 <= i < 6 ==> a[i].unlocked
  }

  lemma {:induction false} OthersUnlockedBound(a: seq<Achievement>, k: nat)
    requires WellFormed(a) && k <= 7
    ensures OthersUnlocked(a[k..]) <= (if k < 6 then 6 - k else 0)
    ensures OthersUnlocked(a[k..]) == (if k < 6 then 6 - k else 0) <==> forall i :: k <= i < 6 ==> a[i].unlocked
    decreases 7 - k
  {
    if k < 7 {
      OthersUnlockedSplit(a, k);
      OthersUnlockedBound(a, k + 1);
    }
  }

  /**
   * With the corrected target of six, `portfolio-master` is unlocked only
   * when every other achievement is: the property holds initially and every
   * check keeps it.
   */
  lemma MasterRequiresAllOthers(a: seq<Achievement>, stats: UserStats)
    requires WellFormed(a) && a[6].maxProgress == MasterTarget
    requires a[6].unlocked ==> AllOthersUnlocked(a)
    ensures WellFormed(Check(a, stats).0)
    ensures Check(a, stats).0[6].unlocked ==> AllOthersUnlocked(Check(a, stats).0)
  {
    var b := Check(a, stats).0;
    OthersUnlockedBound(a, 0);
    assert a[0..] == a;
  }

  /**
   * And the converse: once the six others are unlocked, the next check
   * unlocks `portfolio-master`, whose progress is counted from `prev`.
   */
  lemma MasterFollowsAllOthers(a: seq<Achievement>, stats: UserStats)
    requires WellFormed(a) && a[6].maxProgress == MasterTarget
    requires AllOthersUnlocked(a)
    ensures Check(a, stats).0[6].unlocked
  {
    OthersUnlockedBound(a, 0);
    assert a[0..] == a;
  }

  lemma InitialMasterLocked()
    ensures WellFormed(Initial()) && Initial()[6].maxProgress == MasterTarget
    ensures !Initial()[6].unlocked
  {
  }
}

=== FILE: analytics.dfy ===
/**
 * `advancedAnalytics.ts`: the device, browser, OS and visit-frequency
 * classifiers; the CSS selector recorded for an interaction target; the
 * `isTracking` gate in front of page-view and interaction recording; the
 * mouse heatmap buckets; the personalisation lists; the top-k aggregations;
 * and the ten-session history kept on stop.
 */
module Analytics {
  import opened Wrappers
  import opened Seqs
  import opened Sorting
  import opened Counting
  import opened Numbers
  import Text

  // ---------------------------------------------------------------- classifiers

  datatype DeviceType = Mobile | Tablet | Desktop

  /** `detectDeviceType` on the window width. */
  function DetectDeviceType(width: int): (d: DeviceType)
    ensures d == Mobile <==> width < 768
    ensures d == Tablet <==> 768 <= width < 1024
    ensures d == Desktop <==> 1024 <= width
  {
    if width < 768 then Mobile else if width < 1024 then Tablet else Desktop
  }

  /** A user-agent test: the name reported when `pattern` occurs. */
  datatype Rule = Rule(pattern: string, name: string)

  const BrowserRules: seq<Rule> :=
    [Rule("Chrome", "Chrome"), Rule("Firefox", "Firefox"), Rule("Safari", "Safari"), Rule("Edge", "Edge")]

  const OsRules: seq<Rule> :=
    [Rule("Windows", "Windows"), Rule("Mac", "macOS"), Rule("Linux", "Linux"),
     Rule("Android", "Android"), Rule("iOS", "iOS")]

  const UnknownLabel := "Unknown"

  /** The reference reading of an ordered rule table: the first rule that matches wins. */
  function Classify(ua: string, rules: seq<Rule>): string
  {
    match FindFirst(rules, (r: Rule) => Text.Contains(ua, r.pattern))
    case Some(i) => rules[i].name
    case None => UnknownLabel
  }

  /** `detectBrowser`, as its chain of `if (ua.includes(...)) return ...`. */
  function DetectBrowser(ua: string): (b: string)
    ensures b == "Chrome" <==> Text.Contains(ua, "Chrome")
    ensures b == "Unknown" <==>
              !Text.Contains(ua, "Chrome") && !Text.Contains(ua, "Firefox")
              && !Text.Contains(ua, "Safari") && !Text.Contains(ua, "Edge")
  {
    if Text.Contains(ua, "Chrome") then "Chrome"
    else if Text.Contains(ua, "Firefox") then "Firefox"
    else if Text.Contains(ua, "Safari") then "Safari"
    else if Text.Contains(ua, "Edge") then "Edge"
    else UnknownLabel
  }

  /** `detectOS`, as its chain of `if (ua.includes(...)) return ...`. */
  function DetectOS(ua: string): (os: string)
    ensures os == "Windows" <==> Text.Contains(ua, "Windows")
    ensures os == "macOS" <==> !Text.Contains(ua, "Windows") && Text.Contains(ua, "Mac")
    ensures os == "Unknown" <==>
              !Text.Contains(ua, "Windows") && !Text.Contains(ua, "Mac") && !Text.Contains(ua, "Linux")
              && !Text.Contains(ua, "Android") && !Text.Contains(ua, "iOS")
  {
    if Text.Contains(ua, "Windows") then "Windows"
    else if Text.Contains(ua, "Mac") then "macOS"
    else if Text.Contains(ua, "Linux") then "Linux"
    else if Text.Contains(ua, "Android") then "Android"
    else if Text.Contains(ua, "iOS") then "iOS"
    else UnknownLabel
  }

  /** Both detectors are the first-match reading of their rule tables. */
  lemma DetectorsAreFirstMatch(ua: string)
    ensures DetectBrowser(ua) == Classify(ua, BrowserRules)
    ensures DetectOS(ua) == Classify(ua, OsRules)
  {
    BrowserIsFirstMatch(ua);
    OsIsFirstMatch(ua);
  }

  lemma BrowserIsFirstMatch(ua: string)
    ensures DetectBrowser(ua) == Classify(ua, BrowserRules)
  {
    var p := (r: Rule) => Text.Contains(ua, r.pattern);
    assert p(BrowserRules[0]) == Text.Contains(ua, "Chrome");
    assert p(BrowserRules[1]) == Text.Contains(ua, "Firefox");
    assert p(BrowserRules[2]) == Text.Contains(ua, "Safari");
    assert p(BrowserRules[3]) == Text.Contains(ua, "Edge");
    var b := FindFirst(BrowserRules, p);
    if b.Some? {
      assert BrowserRules[b.value].pattern == BrowserRules[b.value].name;
    }
  }

  lemma OsIsFirstMatch(ua: string)
    ensures DetectOS(ua) == Classify(ua, OsRules)
  {
    var p := (r: Rule) => Text.Contains(ua, r.pattern);
    assert p(OsRules[0]) == Text.Contains(ua, "Windows");
    assert p(OsRules[1]) == Text.Contains(ua, "Mac");
    assert p(OsRules[2]) == Text.Contains(ua, "Linux");
    assert p(OsRules[3]) == Text.Contains(ua, "Android");
    assert p(OsRules[4]) == Text.Contains(ua, "iOS");
  }

  const AndroidAgent := "(Linux; Android 14)"
  const IPhoneAgent := "(iPhone; like Mac OS X)"

  /** An Android agent names Linux first, so it is reported as Linux. */
  lemma AndroidReportedAsLinux()
    ensures DetectOS(AndroidAgent) == "Linux"
  {
    AndroidNamesLinux();
    AndroidNotWindows();
    AndroidNotMac();
  }

  lemma AndroidNamesLinux()
    ensures Text.Contains(AndroidAgent, "Linux")
  {
    assert AndroidAgent[1..6] == "Linux";
    Text.ContainsAt(AndroidAgent, "Linux", 1);
  }

  lemma AndroidNotWindows()
    ensures !Text.Contains(AndroidAgent, "Windows")
  {
    assert 'W' !in AndroidAgent;
    Text.MissingCharNotContained(AndroidAgent, "Windows", 0);
  }

  lemma AndroidNotMac()
    ensures !Text.Contains(AndroidAgent, "Mac")
  {
    assert 'c' !in AndroidAgent;
    Text.MissingCharNotContained(AndroidAgent, "Mac", 2);
  }

  /** An iPhone agent names Mac OS X, so it is reported as macOS. */
  lemma IPhoneReportedAsMac()
    ensures DetectOS(IPhoneAgent) == "macOS"
  {
    IPhoneNamesMac();
    IPhoneNotWindows();
  }

  lemma IPhoneNamesMac()
    ensures Text.Contains(IPhoneAgent, "Mac")
  {
    assert IPhoneAgent[14..17] == "Mac";
    Text.ContainsAt(IPhoneAgent, "Mac", 14);
  }

  lemma IPhoneNotWindows()
    ensures !Text.Contains(IPhoneAgent, "Windows")
  {
    assert 'W' !in IPhoneAgent;
    Text.MissingCharNotContained(IPhoneAgent, "Windows", 0);
  }

  datatype VisitFrequency = FirstTime | Returning | Frequent

  /**
   * `determineVisitFrequency` on `parseInt(stored || '0')`; `None` stands for
   * `NaN`, which fails both comparisons.
   */
  function DetermineVisitFrequency(visitCount: Option<int>): (f: VisitFrequency)
    ensures f == FirstTime <==> visitCount == Some(0)
    ensures f == Returning <==> visitCount.Some? && visitCount.value != 0 && visitCount.value < 5
    ensures visitCount.None? ==> f == Frequent
  {
    match visitCount
    case None => Frequent
    case Some(n) => if n == 0 then FirstTime else if n < 5 then Returning else Frequent
  }

  // ---------------------------------------------------------------- element selector

  /**
   * `className` is a string on HTML elements and an object on SVG elements;
   * `ObjectClass` carries what its `toString()` returns.
   */
  datatype ClassName = StringClass(value: string) | ObjectClass(text: string)

  datatype Element = Element(id: string, className: ClassName, tagName: string)

  /** The selector when the element has no id: first class token, else tag name. */
  function ClassOrTagSelector(e: Element): (r: string)
    ensures e.className.StringClass? && e.className.value != "" ==>
              r == "." + Text.FirstPiece(e.className.value, ' ')
    ensures e.className.ObjectClass? && e.className.text != "" ==>
              r == "." + Text.FirstPiece(e.className.text, ' ')
    ensures (e.className == StringClass("") || e.className == ObjectClass("")) ==>
              r == Text.Lower(e.tagName)
  {
    match e.className
    case StringClass(v) => if v != "" then "." + Text.FirstPiece(v, ' ') else Text.Lower(e.tagName)
    case ObjectClass(t) => if t != "" then "." + Text.FirstPiece(t, ' ') else Text.Lower(e.tagName)
  }

  /** The id branch's template literal: `$;{` is not an interpolation. */
  const LiteralIdSelector := "#$;{element.id}"

  /** `getElementSelector` as written. */
  function ElementSelectorAsWritten(e: Element): (r: string)
    ensures e.id != "" ==> r == LiteralIdSelector
    ensures e.id == "" ==> r == ClassOrTagSelector(e)
  {
    if e.id != "" then LiteralIdSelector else ClassOrTagSelector(e)
  }

  /** Every element with an id is recorded under the same selector. */
  lemma IdSelectorsCollide(e1: Element, e2: Element)
    requires e1.id != "" && e2.id != ""
    ensures ElementSelectorAsWritten(e1) == ElementSelectorAsWritten(e2)
  {
  }

  /** `getElementSelector` as intended: `#` followed by the id. */
  function ElementSelector(e: Element): (r: string)
    ensures e.id != "" ==> |r| > 0 && r[0] == '#' && r[1..] == e.id
    ensures e.id == "" ==> r == ClassOrTagSelector(e)
  {
    if e.id != "" then "#" + e.id else ClassOrTagSelector(e)
  }

  /** With the id interpolated, elements with different ids are told apart. */
  lemma IdSelectorsSeparate(e1: Element, e2: Element)
    requires e1.id != "" && e2.id != "" && e1.id != e2.id
    ensures ElementSelector(e1) != ElementSelector(e2)
  {
    assert ElementSelector(e1)[1..] == e1.id;
    assert ElementSelector(e2)[1..] == e2.id;
  }

  // ---------------------------------------------------------------- tracking

  datatype InteractionType = Click | Hover | Scroll | Keypress | Touch | Gesture

  /** An interaction as aggregated: its type and its target selector. */
  datatype Interaction = Interaction(kind: InteractionType, element: string)

  /** A heatmap bucket: `Math.floor(x / 10)`, `Math.floor(y / 10)`. */
  datatype Cell = Cell(cx: int, cy: int)

  /** A stored session: what was recorded while tracking. */
  datatype Session = Session(pageViews: seq<string>, interactions: seq<Interaction>)

  /**
   * The analytics singleton. `moves` lists the heatmap bucket of every mouse
   * move in order; the source's map from bucket to timestamps is its tally.
   * `visitCount` is the stored `visitCount`, `stored` the stored sessions.
   */
  datatype Tracker = Tracker(
    isTracking: bool,
    pageViews: seq<string>,
    interactions: seq<Interaction>,
    moves: seq<Cell>,
    visitCount: int,
    stored: seq<Session>)

  function NewTracker(visitCount: int, stored: seq<Session>): Tracker
  {
    Tracker(false, [], [], [], visitCount, stored)
  }

  /** The bucket of a mouse position. */
  function CellOf(x: real, y: real): (c: Cell)
    ensures (c.cx * 10) as real <= x < ((c.cx + 1) * 10) as real
    ensures (c.cy * 10) as real <= y < ((c.cy + 1) * 10) as real
  {
    var c := Cell(Floor(x / 10.0), Floor(y / 10.0));
    DivBounds(x, 10.0, c.cx);
    DivBounds(y, 10.0, c.cy);
    c
  }

  /** `saveSession`: push, then keep only the last ten. */
  function SaveSession<S>(stored: seq<S>, s: S): (r: seq<S>)
    ensures |r| == Min(|stored| + 1, 10)
    ensures r == (stored + [s])[|stored| + 1 - |r|..]
    ensures r[|r| - 1] == s
  {
    var sessions := stored + [s];
    if |sessions| > 10 then sessions[|sessions| - 10..] else sessions
  }

  datatype Command =
    | Start | Pause | Resume | Stop
    | VisibilityChange(hidden: bool)
    | PageView(page: string)
    | ClickOn(target: Element)
    | KeyDownOn(target: Element)
    | TouchOn(target: Element)
    | ScrollSettled
    | MouseMove(x: real, y: real)

  /** `trackInteraction`: appended only while tracking. */
  function TrackInteraction(t: Tracker, i: Interaction): (r: Tracker)
    ensures r.interactions == if t.isTracking then t.interactions + [i] else t.interactions
    ensures r.(interactions := t.interactions) == t
  {
    if t.isTracking then t.(interactions := t.interactions + [i]) else t
  }

  /**
   * Which `getElementSelector` the click, keydown and touch listeners call:
   * the program's (`AsWritten`) or the evidently intended one.
   */
  datatype SelectorRule = AsWritten | Intended

  function SelectorBy(rule: SelectorRule, e: Element): (r: string)
    ensures rule.AsWritten? ==> r == ElementSelectorAsWritten(e)
    ensures rule.Intended? ==> r == ElementSelector(e)
  {
    match rule
    case AsWritten => ElementSelectorAsWritten(e)
    case Intended => ElementSelector(e)
  }

  /** One public call or one event listener; the program is `Step(AsWritten, _, _)`. */
  function Step(rule: SelectorRule, t: Tracker, c: Command): (r: Tracker)
    ensures c.Start? ==> r.isTracking && r.visitCount == t.visitCount + 1
    ensures c.Pause? || c.Stop? || c == VisibilityChange(true) ==> !r.isTracking
    ensures c.Resume? || c == VisibilityChange(false) ==> r.isTracking
    ensures !c.Start? ==> r.visitCount == t.visitCount
    ensures c.Stop? ==> r.stored == SaveSession(t.stored, Session(t.pageViews, t.interactions))
    ensures !c.Stop? ==> r.stored == t.stored
    ensures c.PageView? ==> r.pageViews == if t.isTracking then t.pageViews + [c.page] else t.pageViews
    ensures !c.PageView? ==> r.pageViews == t.pageViews
    ensures c.ClickOn? ==>
              r.interactions == t.interactions + (if t.isTracking then [Interaction(Click, SelectorBy(rule, c.target))] else [])
    ensures c.KeyDownOn? ==>
              r.interactions == t.interactions + (if t.isTracking then [Interaction(Keypress, SelectorBy(rule, c.target))] else [])
    ensures c.TouchOn? ==>
              r.interactions == t.interactions + (if t.isTracking then [Interaction(Touch, SelectorBy(rule, c.target))] else [])
    ensures c.ScrollSettled? ==>
              r.interactions == t.interactions + (if t.isTracking then [Interaction(Scroll, "window")] else [])
    ensures !(c.ClickOn? || c.KeyDownOn? || c.TouchOn? || c.ScrollSettled?) ==> r.interactions == t.interactions
    ensures c.MouseMove? ==> r.moves == t.moves + [CellOf(c.x, c.y)]
    ensures !c.MouseMove? ==> r.moves == t.moves
    ensures c.PageView? || c.ClickOn? || c.KeyDownOn? || c.TouchOn? || c.ScrollSettled? || c.MouseMove? ==>
              r.isTracking == t.isTracking
  {
    match c
    case Start => t.(isTracking := true, visitCount := t.visitCount + 1)
    case Pause => t.(isTracking := false)
    case Resume => t.(isTracking := true)
    case Stop => t.(isTracking := false, stored := SaveSession(t.stored, Session(t.pageViews, t.interactions)))
    case VisibilityChange(hidden) => t.(isTracking := !hidden)
    case PageView(page) => if t.isTracking then t.(pageViews := t.pageViews + [page]) else t
    case ClickOn(target) => TrackInteraction(t, Interaction(Click, SelectorBy(rule, target)))
    case KeyDownOn(target) => TrackInteraction(t, Interaction(Keypress, SelectorBy(rule, target)))
    case TouchOn(target) => TrackInteraction(t, Interaction(Touch, SelectorBy(rule, target)))
    case ScrollSettled => TrackInteraction(t, Interaction(Scroll, "window"))
    case MouseMove(x, y) => t.(moves := t.moves + [CellOf(x, y)])
  }

  function Run(rule: SelectorRule, t: Tracker, cs: seq<Command>): Tracker
    decreases |cs|
  {
    if |cs| == 0 then t else Run(rule, Step(rule, t, cs[0]), cs[1..])
  }

  /**
   * As the program runs, clicks on two elements with different ids are
   * recorded under one target, so the most-interacted tally counts them
   * together; with the intended selector they are recorded apart.
   */
  lemma ClicksOnIdsLumped(t: Tracker, e1: Element, e2: Element)
    requires t.isTracking && e1.id != "" && e2.id != "" && e1.id != e2.id
    ensures Run(AsWritten, t, [ClickOn(e1), ClickOn(e2)]).interactions
            == t.interactions + [Interaction(Click, LiteralIdSelector), Interaction(Click, LiteralIdSelector)]
    ensures var xs := Run(Intended, t, [ClickOn(e1), ClickOn(e2)]).interactions;
            |xs| == |t.interactions| + 2 && xs[|t.interactions|].element != xs[|t.interactions| + 1].element
  {
    TwoClicks(AsWritten, t, e1, e2);
    TwoClicks(Intended, t, e1, e2);
    IdSelectorsSeparate(e1, e2);
  }

  /** Two clicks while tracking record two interactions, in order. */
  lemma TwoClicks(rule: SelectorRule, t: Tracker, e1: Element, e2: Element)
    requires t.isTracking
    ensures Run(rule, t, [ClickOn(e1), ClickOn(e2)]).interactions
            == t.interactions + [Interaction(Click, SelectorBy(rule, e1)), Interaction(Click, SelectorBy(rule, e2))]
  {
    var cs := [ClickOn(e1), ClickOn(e2)];
    assert cs[1..] == [ClickOn(e2)] && cs[1..][1..] == [];
    var a1 := Step(rule, t, ClickOn(e1));
    assert Run(rule, t, cs) == Run(rule, a1, [ClickOn(e2)]);
    assert Run(rule, a1, [ClickOn(e2)]) == Run(rule, Step(rule, a1, ClickOn(e2)), []);
  }

  /** A command that switches tracking on. */
  predicate Enables(c: Command)
  {
    c.Start? || c.Resume? || c == VisibilityChange(false)
  }

  /**
   * While tracking is off and nothing switches it on, no page view and no
   * interaction is recorded; mouse moves still reach the heatmap.
   */
  lemma {:induction false} NothingRecordedWhileOff(rule: SelectorRule, t: Tracker, cs: seq<Command>)
    requires !t.isTracking
    requires forall i :: 0 <= i < |cs| ==> !Enables(cs[i])
    ensures !Run(rule, t, cs).isTracking
    ensures Run(rule, t, cs).pageViews == t.pageViews
    ensures Run(rule, t, cs).interactions == t.interactions
    ensures |Run(rule, t, cs).moves| >= |t.moves|
    decreases |cs|
  {
    if |cs| > 0 {
      var t1 := Step(rule, t, cs[0]);
      assert !Enables(cs[0]);
      assert t1.interactions == t.interactions;
      NothingRecordedWhileOff(rule, t1, cs[1..]);
    }
  }

  /** Page views and interactions only ever grow, by appending. */
  lemma {:induction false} RecordsOnlyGrow(rule: SelectorRule, t: Tracker, cs: seq<Command>)
    ensures t.pageViews <= Run(rule, t, cs).pageViews
    ensures t.interactions <= Run(rule, t, cs).interactions
    ensures t.moves <= Run(rule, t, cs).moves
    decreases |cs|
  {
    if |cs| > 0 {
      var t1 := Step(rule, t, cs[0]);
      assert t.interactions <= t1.interactions;
      RecordsOnlyGrow(rule, t1, cs[1..]);
    }
  }

  // ---------------------------------------------------------------- personalisation

  predicate IsProjectPage(page: string)
  {
    Text.IsPrefix("project-", page)
  }

  const CandidatePool := ["portfolio-website", "e-commerce-platform", "mobile-app", "react-native-app",
                          "mobile-first-design", "pwa-project"]

  lemma PoolHasNoProjectPages(c: string)
    requires c in CandidatePool
    ensures !IsProjectPage(c)
  {
    if c == "portfolio-website" { assert c[1] == 'o'; }
    else if c == "pwa-project" { assert c[1] == 'w'; }
    else { assert c[0] != 'p'; }
  }

  /** The pushes of `getRecommendedProjects`, before filtering. */
  function Candidates(interestAreas: seq<string>, device: DeviceType): (r: seq<string>)
    ensures ("portfolio-website" in r) <==> "web-development" in interestAreas
    ensures ("mobile-app" in r) <==> "mobile-development" in interestAreas
    ensures ("pwa-project" in r) <==> device == Mobile
    ensures |r| <= 6
    ensures forall i :: 0 <= i < |r| ==> r[i] in CandidatePool
  {
    (if "web-development" in interestAreas then ["portfolio-website", "e-commerce-platform"] else [])
    + (if "mobile-development" in interestAreas then ["mobile-app", "react-native-app"] else [])
    + (if device == Mobile then ["mobile-first-design", "pwa-project"] else [])
  }

  /** `getRecommendedProjects`: unviewed candidates, first three. */
  function RecommendedProjects(interestAreas: seq<string>, pageViews: seq<string>, device: DeviceType): (r: seq<string>)
    ensures |r| <= 3
    ensures IsSubsequence(r, Candidates(interestAreas, device))
    ensures forall i :: 0 <= i < |r| ==> !(r[i] in pageViews && IsProjectPage(r[i]))
  {
    var viewed := Filter(pageViews, IsProjectPage);
    var unviewed := Filter(Candidates(interestAreas, device), c => c !in viewed);
    var r := Take(unviewed, 3);
    PrefixIsSubsequence(r, unviewed);
    SubsequenceTransitive(r, unviewed, Candidates(interestAreas, device));
    r
  }

  /**
   * No candidate is a `project-` page, so the viewed filter never removes
   * anything: the recommendations are the first three candidates.
   */
  lemma RecommendationsIgnoreViews(interestAreas: seq<string>, pageViews: seq<string>, device: DeviceType)
    ensures RecommendedProjects(interestAreas, pageViews, device) == Take(Candidates(interestAreas, device), 3)
  {
    var cs := Candidates(interestAreas, device);
    var viewed := Filter(pageViews, IsProjectPage);
    forall i | 0 <= i < |cs| ensures cs[i] !in viewed {
      assert cs[i] in CandidatePool;
      PoolHasNoProjectPages(cs[i]);
    }
    FilterAll(cs, c => c !in viewed);
  }

  const AllSections := ["about", "skills", "projects", "contact"]

  /** `getSuggestedSections`: the fixed sections not yet visited, in order. */
  function SuggestedSections(pageViews: seq<string>): (r: seq<string>)
    ensures IsSubsequence(r, AllSections)
    ensures forall s :: s in r <==> s in AllSections && s !in pageViews
  {
    Filter(AllSections, s => s !in pageViews)
  }

  // ---------------------------------------------------------------- aggregations

  function ElementsOf(xs: seq<Interaction>): (r: seq<string>)
    ensures |r| == |xs|
    ensures forall i :: 0 <= i < |xs| ==> r[i] == xs[i].element
  {
    seq(|xs|, i requires 0 <= i < |xs| => xs[i].element)
  }

  /** `getMostInteractedElements`: the ten most frequent targets and their counts. */
  function MostInteractedElements(xs: seq<Interaction>): (r: seq<Counted<string>>)
    ensures |r| == Min(10, |Distinct(ElementsOf(xs))|)
    ensures SortedDesc(r, CountOf)
    ensures NoDuplicates(KeysOf(r))
    ensures forall i :: 0 <= i < |r| ==> r[i].key in ElementsOf(xs) && r[i].count == Count(ElementsOf(xs), r[i].key)
    ensures forall e :: e in ElementsOf(xs) && e !in KeysOf(r) ==>
              forall i :: 0 <= i < |r| ==> r[i].count >= Count(ElementsOf(xs), e)
    ensures TiesInFirstOrder(ElementsOf(xs), r)
    ensures CutInFirstOrder(ElementsOf(xs), r)
  {
    TopCounts(ElementsOf(xs), 10)
  }

  /** `getMostFrequentPages`: the five most viewed pages. */
  function MostFrequentPages(pageViews: seq<string>): (r: seq<string>)
    ensures |r| == Min(5, |Distinct(pageViews)|)
    ensures NoDuplicates(r)
    ensures forall i :: 0 <= i < |r| ==> r[i] in pageViews
    ensures forall p, i :: p in pageViews && p !in r && 0 <= i < |r| ==> Count(pageViews, r[i]) >= Count(pageViews, p)
    ensures forall i, j :: 0 <= i < j < |r| ==> Count(pageViews, r[i]) >= Count(pageViews, r[j])
    ensures forall i, j :: 0 <= i < j < |r| && Count(pageViews, r[i]) == Count(pageViews, r[j]) ==>
              FirstIndex(pageViews, r[i]) < FirstIndex(pageViews, r[j])
    ensures forall p, i :: p in pageViews && p !in r && 0 <= i < |r| && Count(pageViews, r[i]) == Count(pageViews, p) ==>
              FirstIndex(pageViews, r[i]) < FirstIndex(pageViews, p)
  {
    var top := TopCounts(pageViews, 5);
    TopPagesOrdered(pageViews, top);
    KeysOf(top)
  }

  /** The pages' order and tie rule, read off the counted entries. */
  lemma TopPagesOrdered(pageViews: seq<string>, top: seq<Counted<string>>)
    requires SortedDesc(top, CountOf)
    requires forall i :: 0 <= i < |top| ==> top[i].key in pageViews && top[i].count == Count(pageViews, top[i].key)
    requires TiesInFirstOrder(pageViews, top) && CutInFirstOrder(pageViews, top)
    ensures forall i, j :: 0 <= i < j < |top| ==> Count(pageViews, KeysOf(top)[i]) >= Count(pageViews, KeysOf(top)[j])
    ensures forall i, j :: 0 <= i < j < |top| && Count(pageViews, KeysOf(top)[i]) == Count(pageViews, KeysOf(top)[j]) ==>
              FirstIndex(pageViews, KeysOf(top)[i]) < FirstIndex(pageViews, KeysOf(top)[j])
    ensures forall p, i ::
              p in pageViews && p !in KeysOf(top) && 0 <= i < |top|
              && Count(pageViews, KeysOf(top)[i]) == Count(pageViews, p)
              ==> FirstIndex(pageViews, KeysOf(top)[i]) < FirstIndex(pageViews, p)
  {
    forall i, j | 0 <= i < j < |top| ensures Count(pageViews, KeysOf(top)[i]) >= Count(pageViews, KeysOf(top)[j]) {
      assert CountOf(top[i]) >= CountOf(top[j]);
    }
  }

  /** A heatmap point: the bucket's corner and its number of moves. */
  datatype HeatPoint = HeatPoint(x: int, y: int, intensity: int)

  function Intensity(p: HeatPoint): int
  {
    p.intensity
  }

  /** The bucket a heatmap point stands for: its corner divided by the bucket size. */
  function CellAt(p: HeatPoint): Cell
  {
    Cell(p.x / 10, p.y / 10)
  }

  function PointOf(c: Counted<Cell>): (p: HeatPoint)
    ensures p.x % 10 == 0 && p.y % 10 == 0 && CellAt(p) == c.key
    ensures p.intensity == c.count
  {
    HeatPoint(c.key.cx * 10, c.key.cy * 10, c.count)
  }

  function PointsOf(top: seq<Counted<Cell>>): (r: seq<HeatPoint>)
    ensures |r| == |top|
    ensures forall i :: 0 <= i < |top| ==> r[i] == PointOf(top[i])
  {
    seq(|top|, i requires 0 <= i < |top| => PointOf(top[i]))
  }

  /**
   * `getHeatmapData`: one point per bucket, the hundred most visited, most
   * visited first. Mapping entries to points keeps the sort key, so sorting
   * before or after the mapping gives the same list.
   */
  function HeatmapData(moves: seq<Cell>): (r: seq<HeatPoint>)
    ensures |r| == Min(100, |Distinct(moves)|)
    ensures SortedDesc(r, Intensity)
    ensures forall i :: 0 <= i < |r| ==>
              r[i].x % 10 == 0 && r[i].y % 10 == 0
              && CellAt(r[i]) in moves
              && r[i].intensity == Count(moves, CellAt(r[i]))
    ensures forall i, j :: 0 <= i < j < |r| ==> PointsAt(r)[i] != PointsAt(r)[j]
    ensures forall c, i :: c in moves && 0 <= i < |r| && (c.cx * 10, c.cy * 10) !in PointsAt(r) ==>
              r[i].intensity >= Count(moves, c)
    ensures HeatTiesInFirstOrder(moves, r)
    ensures HeatCutInFirstOrder(moves, r)
  {
    var top := TopCounts(moves, 100);
    HeatPointsSorted(top);
    HeatPointsDistinct(top);
    HeatPointsDominate(moves, top);
    HeatPointsTies(moves, top);
    PointsOf(top)
  }

  /** Points of equal intensity are listed in the order their buckets were first visited. */
  predicate HeatTiesInFirstOrder(moves: seq<Cell>, r: seq<HeatPoint>)
  {
    forall i, j :: 0 <= i < j < |r| && r[i].intensity == r[j].intensity ==>
      FirstMove(moves, CellAt(r[i])) < FirstMove(moves, CellAt(r[j]))
  }

  /** A visited bucket left out with the intensity of a kept point was first visited after it. */
  predicate HeatCutInFirstOrder(moves: seq<Cell>, r: seq<HeatPoint>)
  {
    forall c, i ::
      c in moves && 0 <= i < |r| && (c.cx * 10, c.cy * 10) !in PointsAt(r) && r[i].intensity == Count(moves, c)
      ==> FirstMove(moves, CellAt(r[i])) < FirstMove(moves, c)
  }

  /** Where a move into bucket `c` first happened; past the end if none did. */
  function FirstMove(moves: seq<Cell>, c: Cell): nat
  {
    if c in moves then FirstIndex(moves, c) else |moves|
  }

  /** Equal intensities keep the order in which their cells were first visited. */
  lemma HeatPointsTies(moves: seq<Cell>, top: seq<Counted<Cell>>)
    requires forall i :: 0 <= i < |top| ==> top[i].key in moves
    requires TiesInFirstOrder(moves, top) && CutInFirstOrder(moves, top)
    ensures HeatTiesInFirstOrder(moves, PointsOf(top))
    ensures HeatCutInFirstOrder(moves, PointsOf(top))
  {
    var r := PointsOf(top);
    forall i, j | 0 <= i < j < |top| && r[i].intensity == r[j].intensity
      ensures FirstMove(moves, CellAt(r[i])) < FirstMove(moves, CellAt(r[j]))
    {
      assert FirstSeen(moves, top[i]) < FirstSeen(moves, top[j]);
    }
    forall c, i | c in moves && 0 <= i < |top| && (c.cx * 10, c.cy * 10) !in PointsAt(r) && r[i].intensity == Count(moves, c)
      ensures FirstMove(moves, CellAt(r[i])) < FirstMove(moves, c)
    {
      assert c !in KeysOf(top);
      assert FirstSeen(moves, top[i]) < FirstIndex(moves, c);
    }
  }

  lemma HeatPointsSorted(top: seq<Counted<Cell>>)
    requires SortedDesc(top, CountOf)
    ensures SortedDesc(PointsOf(top), Intensity)
  {
    var r := PointsOf(top);
    forall i, j | 0 <= i < j < |r| ensures Intensity(r[i]) >= Intensity(r[j]) {
      assert CountOf(top[i]) >= CountOf(top[j]);
    }
  }

  lemma HeatPointsDistinct(top: seq<Counted<Cell>>)
    requires NoDuplicates(KeysOf(top))
    ensures forall i, j :: 0 <= i < j < |top| ==> PointsAt(PointsOf(top))[i] != PointsAt(PointsOf(top))[j]
  {
    var r := PointsOf(top);
    forall i, j | 0 <= i < j < |top| ensures PointsAt(r)[i] != PointsAt(r)[j] {
      assert KeysOf(top)[i] != KeysOf(top)[j];
    }
  }

  lemma HeatPointsDominate(moves: seq<Cell>, top: seq<Counted<Cell>>)
    requires forall x :: x in moves && x !in KeysOf(top) ==> forall i :: 0 <= i < |top| ==> top[i].count >= Count(moves, x)
    ensures forall c, i :: c in moves && 0 <= i < |top| && (c.cx * 10, c.cy * 10) !in PointsAt(PointsOf(top)) ==>
              PointsOf(top)[i].intensity >= Count(moves, c)
  {
    var r := PointsOf(top);
    forall c, i | c in moves && 0 <= i < |top| && (c.cx * 10, c.cy * 10) !in PointsAt(r)
      ensures r[i].intensity >= Count(moves, c)
    {
      assert c !in KeysOf(top);
    }
  }

  /** The corners of a list of heatmap points. */
  function PointsAt(ps: seq<HeatPoint>): (r: seq<(int, int)>)
    ensures |r| == |ps|
    ensures forall i :: 0 <= i < |ps| ==> r[i] == (ps[i].x, ps[i].y)
  {
    seq(|ps|, i requires 0 <= i < |ps| => (ps[i].x, ps[i].y))
  }
}

=== FILE: animated_form.dfy ===
/**
 * `AnimatedForm.tsx`: the value and error records kept per field name, the
 * field styling derived from them, the submit button's enablement and the
 * submitting/success flags around `onSubmit`. A field's validator is a
 * function from the typed value to a message, or `None` for JavaScript's
 * `null`.
 */
module AnimatedForm {
  import opened Wrappers

  datatype Field = Field(name: string, validation: Option<string -> Option<string>>)

  /** `error || ''`: the validator's message, or '' when it returns null (an empty message is falsy too). */
  function Verdict(check: string -> Option<string>, value: string): (e: string)
    ensures check(value).None? ==> e == ""
    ensures check(value).Some? ==> e == check(value).value
  {
    match check(value)
    case None => ""
    case Some(m) => m
  }

  datatype FormState = FormState(
    values: map<string, string>,
    errors: map<string, string>,
    isSubmitting: bool,
    isSuccess: bool)

  const InitialForm := FormState(map[], map[], false, false)

  /** `handleChange(field, value)`. */
  function HandleChange(s: FormState, f: Field, value: string): (r: FormState)
    ensures r.values == s.values[f.name := value]
    ensures f.validation.None? ==> r.errors == s.errors
    ensures f.validation.Some? ==> r.errors == s.errors[f.name := Verdict(f.validation.value, value)]
    ensures r.isSubmitting == s.isSubmitting && r.isSuccess == s.isSuccess
  {
    var values := s.values[f.name := value];
    match f.validation
    case None => s.(values := values)
    case Some(check) => s.(values := values, errors := s.errors[f.name := Verdict(check, value)])
  }

  // ---------------------------------------------------------------- field styling

  /** `errors[field.name]` is truthy: the invalid class and the message show. */
  predicate FieldInvalid(s: FormState, name: string)
  {
    name in s.errors && s.errors[name] != ""
  }

  /** `!errors[field.name] && values[field.name]`: the valid class shows. */
  predicate FieldValid(s: FormState, name: string)
  {
    !FieldInvalid(s, name) && name in s.values && s.values[name] != ""
  }

  /** The two classes never show together. */
  lemma StylingExclusive(s: FormState, name: string)
    ensures !(FieldInvalid(s, name) && FieldValid(s, name))
  {
  }

  /** `disabled={isSubmitting}` on every input. */
  predicate InputsDisabled(s: FormState)
  {
    s.isSubmitting
  }

  // ---------------------------------------------------------------- submit enablement

  /** `isSubmitting || Object.keys(errors).length > 0`, as the button is written. */
  predicate SubmitDisabledAsWritten(s: FormState)
  {
    s.isSubmitting || |s.errors.Keys| > 0
  }

  /** The evident intent: disabled while submitting or while some field shows an error. */
  predicate SubmitDisabled(s: FormState)
  {
    s.isSubmitting || exists k :: k in s.errors && s.errors[k] != ""
  }

  /**
   * As written, typing a value the validator accepts still disables submit:
   * the accepted field leaves an '' entry behind, which counts as a key.
   */
  lemma AcceptedChangeBlocksSubmit(f: Field, value: string)
    requires f.validation.Some? && f.validation.value(value).None?
    ensures var r := HandleChange(InitialForm, f, value);
            SubmitDisabledAsWritten(r) && !SubmitDisabled(r) && !FieldInvalid(r, f.name)
  {
    var r := HandleChange(InitialForm, f, value);
    assert f.name in r.errors.Keys;
    assert r.errors == map[f.name := ""];
  }

  // ---------------------------------------------------------------- submission

  datatype FormEvent =
    | Change(field: nat, value: string)
    | Submit
    | Resolved
    | Rejected
    | SuccessTimeout

  /** The form's steps: `handleChange`, the start of `handleSubmit`, its two outcomes, and the 2-second success timer. */
  function FormStep(fields: seq<Field>, s: FormState, e: FormEvent): (r: FormState)
    requires e.Change? ==> e.field < |fields|
    ensures e.Submit? ==> r == s.(isSubmitting := true)
    ensures e.Resolved? ==> r == s.(isSubmitting := false, isSuccess := true)
    ensures e.Rejected? ==> r == s.(isSubmitting := false)
    ensures e.SuccessTimeout? ==> r == s.(isSuccess := false)
    ensures !e.Change? ==> r.values == s.values && r.errors == s.errors
  {
    match e
    case Change(i, value) => HandleChange(s, fields[i], value)
    case Submit => s.(isSubmitting := true)
    case Resolved => s.(isSubmitting := false, isSuccess := true)
    case Rejected => s.(isSubmitting := false)
    case SuccessTimeout => s.(isSuccess := false)
  }

  /** Events the page can deliver: a change needs a rendered field and an enabled input. */
  predicate Offered(fields: seq<Field>, s: FormState, e: FormEvent)
  {
    e.Change? ==> e.field < |fields| && !InputsDisabled(s)
  }

  /** While a submission is pending the form's data cannot change. */
  lemma SubmissionFreezesData(fields: seq<Field>, s: FormState, e: FormEvent)
    requires s.isSubmitting && Offered(fields, s, e)
    ensures FormStep(fields, s, e).values == s.values
    ensures FormStep(fields, s, e).errors == s.errors
  {
  }

  /** Either outcome ends the submission; only a resolved one shows success. */
  lemma SubmitOutcomes(fields: seq<Field>, s: FormState)
    ensures var p := FormStep(fields, s, Submit);
            InputsDisabled(p)
            && !FormStep(fields, p, Resolved).isSubmitting && FormStep(fields, p, Resolved).isSuccess
            && !FormStep(fields, p, Rejected).isSubmitting && FormStep(fields, p, Rejected).isSuccess == s.isSuccess
  {
  }

  // ---------------------------------------------------------------- the error record over time

  predicate NamesDistinct(fields: seq<Field>)
  {
    forall i, j :: 0 <= i < j < |fields| ==> fields[i].name != fields[j].name
  }

  /**
   * Every error entry belongs to a field with a validator and holds that
   * validator's verdict on the field's current value.
   */
  predicate ErrorsCurrent(fields: seq<Field>, s: FormState)
  {
    (forall k :: k in s.errors ==> exists i :: 0 <= i < |fields| && fields[i].name == k)
    && forall i :: 0 <= i < |fields| && fields[i].name in s.errors ==>
         fields[i].validation.Some? && fields[i].name in s.values
         && s.errors[fields[i].name] == Verdict(fields[i].validation.value, s.values[fields[i].name])
  }

  lemma ChangeKeepsErrorsCurrent(fields: seq<Field>, s: FormState, e: FormEvent)
    requires NamesDistinct(fields) && ErrorsCurrent(fields, s)
    requires e.Change? ==> e.field < |fields|
    ensures ErrorsCurrent(fields, FormStep(fields, s, e))
  {
    if e.Change? {
      var r := FormStep(fields, s, e);
      var f := fields[e.field];
      forall k | k in r.errors ensures exists i :: 0 <= i < |fields| && fields[i].name == k {
        if k == f.name {
          assert fields[e.field].name == k;
        }
      }
    }
  }

  function FormRun(fields: seq<Field>, s: FormState, es: seq<FormEvent>): FormState
    requires forall k :: 0 <= k < |es| ==> (es[k].Change? ==> es[k].field < |fields|)
    decreases |es|
  {
    if |es| == 0 then s else FormRun(fields, FormStep(fields, s, es[0]), es[1..])
  }

  /** From the empty form, the error record always reflects the current values. */
  lemma {:induction false} ErrorsStayCurrent(fields: seq<Field>, s: FormState, es: seq<FormEvent>)
    requires NamesDistinct(fields) && ErrorsCurrent(fields, s)
    requires forall k :: 0 <= k < |es| ==> (es[k].Change? ==> es[k].field < |fields|)
    ensures ErrorsCurrent(fields, FormRun(fields, s, es))
    decreases |es|
  {
    if |es| > 0 {
      ChangeKeepsErrorsCurrent(fields, s, es[0]);
      ErrorsStayCurrent(fields, FormStep(fields, s, es[0]), es[1..]);
    }
  }

  /** A field without a validator never gets an error entry. */
  lemma UnvalidatedFieldHasNoError(fields: seq<Field>, s: FormState, i: nat)
    requires ErrorsCurrent(fields, s) && i < |fields| && fields[i].validation.None?
    ensures fields[i].name !in s.errors
  {
  }

  /**
   * With the corrected rule, and the error record current, submit is disabled
   * exactly while submitting or while some field's validator rejects its
   * current value: the button agrees with the fields' invalid styling.
   */
  lemma SubmitIffSomeFieldRejected(fields: seq<Field>, s: FormState)
    requires ErrorsCurrent(fields, s)
    ensures SubmitDisabled(s) <==>
              s.isSubmitting
              || exists i :: 0 <= i < |fields| && fields[i].name in s.errors && FieldInvalid(s, fields[i].name)
                   && Verdict(fields[i].validation.value, s.values[fields[i].name]) != ""
  {
    if !s.isSubmitting && SubmitDisabled(s) {
      var k :| k in s.errors && s.errors[k] != "";
      var i :| 0 <= i < |fields| && fields[i].name == k;
      assert FieldInvalid(s, fields[i].name);
    }
  }

  /** Error keys are never removed: the record only grows. */
  lemma {:induction false} ErrorKeysOnlyGrow(fields: seq<Field>, s: FormState, es: seq<FormEvent>)
    requires forall k :: 0 <= k < |es| ==> (es[k].Change? ==> es[k].field < |fields|)
    ensures s.errors.Keys <= FormRun(fields, s, es).errors.Keys
    decreases |es|
  {
    if |es| > 0 {
      ErrorKeysOnlyGrow(fields, FormStep(fields, s, es[0]), es[1..]);
    }
  }

  /**
   * So as written, once any validated field has been typed in, the button
   * stays disabled whatever is typed afterwards.
   */
  lemma AsWrittenNeverReenables(fields: seq<Field>, s: FormState, es: seq<FormEvent>)
    requires |s.errors.Keys| > 0
    requires forall k :: 0 <= k < |es| ==> (es[k].Change? ==> es[k].field < |fields|)
    ensures SubmitDisabledAsWritten(FormRun(fields, s, es))
  {
    ErrorKeysOnlyGrow(fields, s, es);
    var k :| k in s.errors.Keys;
    assert k in FormRun(fields, s, es).errors.Keys;
  }
}

=== FILE: assistant.dfy ===
/**
 * `AIAssistant.tsx`: the keyword chatbot. A message is lowercased and matched
 * by substring against an ordered table of topics, then against the project
 * titles and technologies, then the skills, then greeting and thanks words;
 * the first hit chooses the reply. Around it sit the follow-up suggestions,
 * the send guard and the welcome message.
 */
module Assistant {
  import opened Wrappers
  import opened Seqs
  import Text

  datatype ProjectInfo = ProjectInfo(title: string, description: string, technologies: seq<string>)
  datatype Job = Job(company: string, role: string, duration: string)
  datatype PortfolioData = PortfolioData(
    name: string, skills: seq<string>, projects: seq<ProjectInfo>, experience: seq<Job>)

  /** The data used when the component receives none. */
  const DefaultData := PortfolioData(
    "Portfolio Owner",
    ["React", "TypeScript", "Node.js", "Python", "AWS"],
    [ProjectInfo("E-commerce Platform", "Full-stack e-commerce solution", ["React", "Node.js", "MongoDB"]),
     ProjectInfo("Mobile App", "Cross-platform mobile application", ["React Native", "Firebase"]),
     ProjectInfo("Data Analytics Dashboard", "Real-time analytics platform", ["Python", "D3.js", "PostgreSQL"])],
    [Job("Tech Corp", "Senior Developer", "2022-Present"),
     Job("StartupXYZ", "Full Stack Developer", "2020-2022")])

  // ---------------------------------------------------------------- knowledge base

  /** The knowledge-base categories other than the greetings. */
  datatype Topic = SkillsTopic | ProjectsTopic | ExperienceTopic | ContactTopic | HelpTopic

  /** Object-entry order of the knowledge base, greetings skipped. */
  const TopicOrder := [SkillsTopic, ProjectsTopic, ExperienceTopic, ContactTopic, HelpTopic]

  function Rank(t: Topic): (k: nat)
    ensures k < |TopicOrder| && TopicOrder[k] == t
  {
    match t
    case SkillsTopic => 0
    case ProjectsTopic => 1
    case ExperienceTopic => 2
    case ContactTopic => 3
    case HelpTopic => 4
  }

  function Patterns(t: Topic): seq<string>
  {
    match t
    case SkillsTopic => ["skill", "technology", "tech stack", "programming", "language", "framework"]
    case ProjectsTopic => ["project", "work", "portfolio", "built", "created", "developed"]
    case ExperienceTopic => ["experience", "work history", "career", "job", "employment"]
    case ContactTopic => ["contact", "reach out", "get in touch", "hire", "email"]
    case HelpTopic => ["help", "what can you do", "commands", "assistance"]
  }

  /** `patterns.some(pattern => message.includes(pattern))`. */
  predicate MentionsAny(m: string, patterns: seq<string>)
  {
    exists i :: 0 <= i < |patterns| && Text.Contains(m, patterns[i])
  }

  predicate MentionsTopic(m: string, t: Topic)
  {
    MentionsAny(m, Patterns(t))
  }

  /** The project test: its lowercased title or any lowercased technology occurs. */
  predicate AboutProject(m: string, p: ProjectInfo)
  {
    Text.Contains(m, Text.Lower(p.title))
    || exists i :: 0 <= i < |p.technologies| && Text.Contains(m, Text.Lower(p.technologies[i]))
  }

  predicate AboutSkill(m: string, skill: string)
  {
    Text.Contains(m, Text.Lower(skill))
  }

  predicate Greets(m: string)
  {
    Text.Contains(m, "hello") || Text.Contains(m, "hi")
  }

  predicate Thanks(m: string)
  {
    Text.Contains(m, "thank")
  }

  // ---------------------------------------------------------------- generateResponse

  /** Which branch of `generateResponse` answered. */
  datatype Reply =
    | TopicReply(topic: Topic)
    | ProjectReply(project: ProjectInfo)
    | SkillReply(skill: string)
    | GreetingReply
    | ThanksReply
    | FallbackReply

  /** No topic of the knowledge base is mentioned. */
  predicate NoTopic(m: string)
  {
    forall t :: !MentionsTopic(m, t)
  }

  /** No project is named by title or technology. */
  predicate NoProject(m: string, ps: seq<ProjectInfo>)
  {
    forall j :: 0 <= j < |ps| ==> !AboutProject(m, ps[j])
  }

  /** No skill is named. */
  predicate NoSkill(m: string, skills: seq<string>)
  {
    forall j :: 0 <= j < |skills| ==> !AboutSkill(m, skills[j])
  }

  function TopicHit(m: string): (r: Option<nat>)
    ensures r.Some? ==> r.value < |TopicOrder| && MentionsTopic(m, TopicOrder[r.value])
    ensures r.Some? ==> forall j :: 0 <= j < r.value ==> !MentionsTopic(m, TopicOrder[j])
    ensures r.None? <==> NoTopic(m)
  {
    var r := FindFirst(TopicOrder, (t: Topic) => MentionsTopic(m, t));
    if r.None? then
      assert NoTopic(m) by {
        forall t ensures !MentionsTopic(m, t) {
          assert TopicOrder[Rank(t)] == t;
        }
      }
      r
    else r
  }

  /** `data.projects.find(...)`: the first project the message is about. */
  function ProjectHit(m: string, ps: seq<ProjectInfo>): (r: Option<nat>)
    ensures r.Some? ==> r.value < |ps| && AboutProject(m, ps[r.value])
                        && forall i :: 0 <= i < r.value ==> !AboutProject(m, ps[i])
    ensures r.None? <==> NoProject(m, ps)
  {
    FindFirst(ps, (p: ProjectInfo) => AboutProject(m, p))
  }

  /** `data.skills.find(...)`: the first skill the message names. */
  function SkillHit(m: string, skills: seq<string>): (r: Option<nat>)
    ensures r.Some? ==> r.value < |skills| && AboutSkill(m, skills[r.value])
                        && forall i :: 0 <= i < r.value ==> !AboutSkill(m, skills[i])
    ensures r.None? <==> NoSkill(m, skills)
  {
    FindFirst(skills, (s: string) => AboutSkill(m, s))
  }

  /** The topic found is mentioned, and no topic ranked before it is. */
  lemma TopicHitIsFirst(m: string)
    requires TopicHit(m).Some?
    ensures var t := TopicOrder[TopicHit(m).value];
            MentionsTopic(m, t) && forall u :: Rank(u) < Rank(t) ==> !MentionsTopic(m, u)
  {
    var i := TopicHit(m).value;
    assert Rank(TopicOrder[i]) == i;
    EarlierRanksFail((t: Topic) => MentionsTopic(m, t), i);
  }

  /** Failing at the first `i` table positions means failing at every topic ranked below `i`. */
  lemma EarlierRanksFail(p: Topic -> bool, i: nat)
    requires i <= |TopicOrder|
    requires forall j :: 0 <= j < i ==> !p(TopicOrder[j])
    ensures forall u :: Rank(u) < i ==> !p(u)
  {
    forall u | Rank(u) < i ensures !p(u) {
      assert TopicOrder[Rank(u)] == u;
    }
  }

  /** `generateResponse`, as the branch it takes on the lowercased message. */
  function GenerateResponse(data: PortfolioData, userMessage: string): (r: Reply)
    ensures var m := Text.Lower(userMessage);
            r.TopicReply? <==> !NoTopic(m)
    ensures var m := Text.Lower(userMessage);
            r.TopicReply? ==> MentionsTopic(m, r.topic)
                              && forall t :: Rank(t) < Rank(r.topic) ==> !MentionsTopic(m, t)
    ensures var m := Text.Lower(userMessage);
            r.ProjectReply? <==> NoTopic(m) && !NoProject(m, data.projects)
    ensures var m := Text.Lower(userMessage);
            r.ProjectReply? ==>
              AboutProject(m, r.project)
              && exists j :: (0 <= j < |data.projects| && data.projects[j] == r.project
                              && forall i :: 0 <= i < j ==> !AboutProject(m, data.projects[i]))
    ensures var m := Text.Lower(userMessage);
            r.SkillReply? <==> NoTopic(m) && NoProject(m, data.projects) && !NoSkill(m, data.skills)
    ensures var m := Text.Lower(userMessage);
            r.SkillReply? ==>
              AboutSkill(m, r.skill)
              && exists j :: (0 <= j < |data.skills| && data.skills[j] == r.skill
                              && forall i :: 0 <= i < j ==> !AboutSkill(m, data.skills[i]))
    ensures var m := Text.Lower(userMessage);
            r == GreetingReply <==>
              NoTopic(m) && NoProject(m, data.projects) && NoSkill(m, data.skills) && Greets(m)
    ensures var m := Text.Lower(userMessage);
            r == ThanksReply <==>
              NoTopic(m) && NoProject(m, data.projects) && NoSkill(m, data.skills) && !Greets(m) && Thanks(m)
    ensures var m := Text.Lower(userMessage);
            r == FallbackReply <==>
              NoTopic(m) && NoProject(m, data.projects) && NoSkill(m, data.skills) && !Greets(m) && !Thanks(m)
  {
    var m := Text.Lower(userMessage);
    match TopicHit(m)
    case Some(i) =>
      TopicHitIsFirst(m);
      TopicReply(TopicOrder[i])
    case None =>
      match ProjectHit(m, data.projects)
      case Some(j) => ProjectReply(data.projects[j])
      case None =>
        match SkillHit(m, data.skills)
        case Some(k) => SkillReply(data.skills[k])
        case None =>
          if Greets(m) then GreetingReply
          else if Thanks(m) then ThanksReply
          else FallbackReply
  }

  /**
   * What a correct answer to the lowercased message `m` is, stated stage by
   * stage without the search: the earliest-ranked topic mentioned; else the
   * first project named; else the first skill named; else a greeting,
   * thanks or the fallback.
   */
  predicate Answers(data: PortfolioData, m: string, r: Reply)
  {
    match r
    case TopicReply(t) =>
      MentionsTopic(m, t) && forall u :: Rank(u) < Rank(t) ==> !MentionsTopic(m, u)
    case ProjectReply(p) =>
      NoTopic(m)
      && exists j :: 0 <= j < |data.projects| && data.projects[j] == p && AboutProject(m, p)
                     && forall i :: 0 <= i < j ==> !AboutProject(m, data.projects[i])
    case SkillReply(s) =>
      NoTopic(m) && NoProject(m, data.projects)
      && exists j :: 0 <= j < |data.skills| && data.skills[j] == s && AboutSkill(m, s)
                     && forall i :: 0 <= i < j ==> !AboutSkill(m, data.skills[i])
    case GreetingReply =>
      NoTopic(m) && NoProject(m, data.projects) && NoSkill(m, data.skills) && Greets(m)
    case ThanksReply =>
      NoTopic(m) && NoProject(m, data.projects) && NoSkill(m, data.skills) && !Greets(m) && Thanks(m)
    case FallbackReply =>
      NoTopic(m) && NoProject(m, data.projects) && NoSkill(m, data.skills) && !Greets(m) && !Thanks(m)
  }

  /** `generateResponse` gives a correct answer, and the only one. */
  lemma ResponseIsTheAnswer(data: PortfolioData, userMessage: string, r: Reply)
    ensures Answers(data, Text.Lower(userMessage), r) <==> r == GenerateResponse(data, userMessage)
  {
    var m := Text.Lower(userMessage);
    var g := GenerateResponse(data, userMessage);
    assert Answers(data, m, g);
    if Answers(data, m, r) {
      AnswerUnique(data, m, r, g);
    }
  }

  /** At most one reply answers a message. */
  lemma AnswerUnique(data: PortfolioData, m: string, r1: Reply, r2: Reply)
    requires Answers(data, m, r1) && Answers(data, m, r2)
    ensures r1 == r2
  {
    if r1.TopicReply? && r2.TopicReply? {
      FirstTopicUnique(m, r1.topic, r2.topic);
    } else if r1.ProjectReply? && r2.ProjectReply? {
      FirstProjectUnique(data, m, r1.project, r2.project);
    } else if r1.SkillReply? && r2.SkillReply? {
      FirstSkillUnique(data, m, r1.skill, r2.skill);
    }
  }

  lemma FirstTopicUnique(m: string, t1: Topic, t2: Topic)
    requires MentionsTopic(m, t1) && forall u :: Rank(u) < Rank(t1) ==> !MentionsTopic(m, u)
    requires MentionsTopic(m, t2) && forall u :: Rank(u) < Rank(t2) ==> !MentionsTopic(m, u)
    ensures t1 == t2
  {
    assert TopicOrder[Rank(t1)] == t1 && TopicOrder[Rank(t2)] == t2;
  }

  lemma FirstProjectUnique(data: PortfolioData, m: string, p1: ProjectInfo, p2: ProjectInfo)
    requires Answers(data, m, ProjectReply(p1)) && Answers(data, m, ProjectReply(p2))
    ensures p1 == p2
  {
    var j :| 0 <= j < |data.projects| && data.projects[j] == p1 && AboutProject(m, p1)
             && forall i :: 0 <= i < j ==> !AboutProject(m, data.projects[i]);
    var k :| 0 <= k < |data.projects| && data.projects[k] == p2 && AboutProject(m, p2)
             && forall i :: 0 <= i < k ==> !AboutProject(m, data.projects[i]);
  }

  lemma FirstSkillUnique(data: PortfolioData, m: string, s1: string, s2: string)
    requires Answers(data, m, SkillReply(s1)) && Answers(data, m, SkillReply(s2))
    ensures s1 == s2
  {
    var j :| 0 <= j < |data.skills| && data.skills[j] == s1 && AboutSkill(m, s1)
             && forall i :: 0 <= i < j ==> !AboutSkill(m, data.skills[i]);
    var k :| 0 <= k < |data.skills| && data.skills[k] == s2 && AboutSkill(m, s2)
             && forall i :: 0 <= i < k ==> !AboutSkill(m, data.skills[i]);
  }

  const Greetings: seq<string> :=
    ["Hello! I'm your AI assistant. How can I help you learn more about this portfolio?",
     "Hi there! I'm here to answer any questions about the projects, skills, or experience showcased here.",
     "Welcome! Feel free to ask me anything about this portfolio or the work displayed."]

  function ProjectLine(p: ProjectInfo): string
  {
    p.title + " - " + p.description
  }

  function JobLine(j: Job): string
  {
    j.role + " at " + j.company + " (" + j.duration + ")"
  }

  function MapStrings<T>(s: seq<T>, f: T -> string): (r: seq<string>)
    ensures |r| == |s|
    ensures forall i :: 0 <= i < |s| ==> r[i] == f(s[i])
  {
    seq(|s|, i requires 0 <= i < |s| => f(s[i]))
  }

  /** The text of a topic reply, built from the portfolio data. */
  function TopicText(data: PortfolioData, t: Topic): (text: string)
    ensures |text| > 0
  {
    match t
    case SkillsTopic => SkillsText(data)
    case ProjectsTopic => ProjectsText(data)
    case ExperienceTopic => ExperienceText(data)
    case ContactTopic => ContactText
    case HelpTopic => HelpText
  }

  function SkillsText(data: PortfolioData): (text: string)
    ensures |text| > 0
  {
    "The main skills showcased include: " + Text.Join(data.skills, ", ")
    + ". Each skill has been applied across various projects with different levels of expertise."
  }

  function ProjectsText(data: PortfolioData): (text: string)
    ensures |text| > 0
  {
    "Here are the featured projects: " + Text.Join(MapStrings(data.projects, ProjectLine), "; ")
    + ". Would you like to know more about any specific project?"
  }

  function ExperienceText(data: PortfolioData): (text: string)
    ensures |text| > 0
  {
    "Professional experience includes: " + Text.Join(MapStrings(data.experience, JobLine), "; ") + "."
  }

  const ContactText := "You can find contact information in the Contact section of the portfolio. Feel free to reach out for collaborations or opportunities!"
  const HelpText := "I can help you with information about skills, projects, experience, and how to get in touch. Try asking about specific technologies, projects, or career background!"
  const GreetingText := "Hello! How can I help you explore this portfolio today?"
  const ThanksText := "You're welcome! Is there anything else you'd like to know about this portfolio?"
  const FallbackText := "I'm not sure about that specific question, but I can help you with information about skills, projects, experience, or contact details. What would you like to know?"

  /** The text of each reply. */
  function ReplyText(data: PortfolioData, r: Reply): (text: string)
    ensures |text| > 0
  {
    match r
    case TopicReply(t) => TopicText(data, t)
    case ProjectReply(p) => ProjectText(p)
    case SkillReply(s) => SkillText(s)
    case GreetingReply => GreetingText
    case ThanksReply => ThanksText
    case FallbackReply => FallbackText
  }

  function ProjectText(p: ProjectInfo): (text: string)
    ensures |text| > 0
  {
    p.title + ": " + p.description + ". Built with: " + Text.Join(p.technologies, ", ")
    + ". This project demonstrates expertise in modern web development and problem-solving."
  }

  function SkillText(skill: string): (text: string)
    ensures |text| > 0
  {
    skill + " is one of the core skills showcased." + " It's been used across multiple projects"
    + " and demonstrates proficiency in modern development practices."
  }

  /** Every message gets a non-empty answer. */
  function ResponseText(data: PortfolioData, userMessage: string): (text: string)
    ensures |text| > 0
  {
    ReplyText(data, GenerateResponse(data, userMessage))
  }

  // ---------------------------------------------------------------- worked cases

  /** A pattern longer than the message, or with a letter the message lacks, cannot occur in it. */
  lemma Absent(m: string, p: string, k: nat)
    requires |p| > |m| || (k < |p| && p[k] !in m)
    ensures !Text.Contains(m, p)
  {
    if |p| > |m| {
      Text.NotContainsLonger(m, p);
    } else {
      Text.MissingCharNotContained(m, p, k);
    }
  }

  /**
   * "work history" names the experience topic, but "work" is a projects
   * pattern and projects come first: the projects reply wins.
   */
  lemma WorkHistoryGetsProjects(data: PortfolioData)
    ensures GenerateResponse(data, "work history") == TopicReply(ProjectsTopic)
  {
    var m := "work history";
    WorkHistoryIsLower();
    WorkHistoryTopics();
    MentionGetsTopicReply(data, m, ProjectsTopic);
    var r := GenerateResponse(data, m);
    assert r.topic != SkillsTopic;
    assert Rank(r.topic) == 1;
  }

  lemma WorkHistoryIsLower()
    ensures Text.Lower("work history") == "work history"
  {
    var m := "work history";
    forall i | 0 <= i < |m| ensures Text.Lower(m)[i] == m[i] {
      assert !('A' <= m[i] <= 'Z');
    }
  }

  /** "work history" misses every skills pattern but contains the projects pattern "work". */
  lemma WorkHistoryTopics()
    ensures !MentionsTopic("work history", SkillsTopic)
    ensures MentionsTopic("work history", ProjectsTopic)
  {
    var m := "work history";
    NoSkillsInWorkHistory();
    assert m[0..4] == "work";
    Text.ContainsAt(m, "work", 0);
    assert Patterns(ProjectsTopic)[1] == "work";
  }

  lemma NoSkillsInWorkHistory()
    ensures forall i :: 0 <= i < |Patterns(SkillsTopic)| ==> !Text.Contains("work history", Patterns(SkillsTopic)[i])
  {
    var m := "work history";
    var ps := Patterns(SkillsTopic);
    forall i | 0 <= i < |ps| ensures !Text.Contains(m, ps[i]) {
      if i == 0 {
        assert 'l' !in m;
        Absent(m, ps[i], 3);
      } else if i == 1 || i == 2 {
        assert 'c' !in m;
        Absent(m, ps[i], 2);
      } else if i == 3 {
        assert 'p' !in m;
        Absent(m, ps[i], 0);
      } else if i == 4 {
        assert 'l' !in m;
        Absent(m, ps[i], 0);
      } else {
        assert 'f' !in m;
        Absent(m, ps[i], 0);
      }
    }
  }

  /**
   * "hi" is matched anywhere in the message, so a message such as "this",
   * which matches nothing earlier, gets the greeting.
   */
  lemma ThisGetsGreeting()
    ensures GenerateResponse(DefaultData, "this") == GreetingReply
  {
    var m := "this";
    assert Text.Lower(m) == m;
    NoTopicInThis();
    NoProjectInThis();
    NoSkillInThis();
    assert m[1..3] == "hi";
    Text.ContainsAt(m, "hi", 1);
  }

  lemma NoTopicInThis()
    ensures NoTopic("this")
  {
    var m := "this";
    assert 'e' !in m && 'w' !in m && 'j' !in m && 'a' !in m && 'k' !in m;
    forall t ensures !MentionsTopic(m, t) {
      var ps := Patterns(t);
      forall i | 0 <= i < |ps| ensures !Text.Contains(m, ps[i]) {
        if |ps[i]| > |m| {
          Absent(m, ps[i], 0);
        } else if ps[i] == "work" {
          Absent(m, "work", 0);
        } else if ps[i] == "job" {
          Absent(m, "job", 0);
        } else if ps[i] == "hire" {
          Absent(m, "hire", 3);
        } else {
          assert ps[i] == "help";
          Absent(m, "help", 1);
        }
      }
    }
  }

  lemma NoProjectInThis()
    ensures NoProject("this", DefaultData.projects)
  {
    var m := "this";
    forall j | 0 <= j < |DefaultData.projects| ensures !AboutProject(m, DefaultData.projects[j]) {
      var p := DefaultData.projects[j];
      Absent(m, Text.Lower(p.title), 0);
      forall i | 0 <= i < |p.technologies| ensures !Text.Contains(m, Text.Lower(p.technologies[i])) {
        Absent(m, Text.Lower(p.technologies[i]), 0);
      }
    }
  }

  lemma NoSkillInThis()
    ensures NoSkill("this", DefaultData.skills)
  {
    var m := "this";
    assert 'a' !in m;
    forall j | 0 <= j < |DefaultData.skills| ensures !AboutSkill(m, DefaultData.skills[j]) {
      var s := Text.Lower(DefaultData.skills[j]);
      if |s| > |m| {
        Absent(m, s, 0);
      } else {
        assert s == "aws";
        Absent(m, s, 0);
      }
    }
  }

  // ---------------------------------------------------------------- suggestions

  const QuickSuggestions := [
    "What skills are showcased?",
    "Tell me about the projects",
    "What's the work experience?",
    "How can I get in touch?",
    "What technologies are used?"]

  const SkillFollowUps := [
    "What projects use React?",
    "Tell me about the backend skills",
    "What's the experience with cloud platforms?"]

  const ProjectFollowUps := [
    "What technologies were used?",
    "How long did the projects take?",
    "Are there any live demos?"]

  const ExperienceFollowUps := [
    "What was the role at each company?",
    "What skills were developed?",
    "Any notable achievements?"]

  /** `updateSuggestions`. */
  function UpdateSuggestions(userMessage: string): (r: seq<string>)
    ensures |r| == 3
    ensures var m := Text.Lower(userMessage);
            r == SkillFollowUps <==> Text.Contains(m, "skill") || Text.Contains(m, "technology")
    ensures var m := Text.Lower(userMessage);
            r == ProjectFollowUps <==>
              !Text.Contains(m, "skill") && !Text.Contains(m, "technology") && Text.Contains(m, "project")
    ensures var m := Text.Lower(userMessage);
            r == ExperienceFollowUps <==>
              !Text.Contains(m, "skill") && !Text.Contains(m, "technology") && !Text.Contains(m, "project")
              && Text.Contains(m, "experience")
    ensures var m := Text.Lower(userMessage);
            r == QuickSuggestions[..3] <==>
              !Text.Contains(m, "skill") && !Text.Contains(m, "technology") && !Text.Contains(m, "project")
              && !Text.Contains(m, "experience")
  {
    var m := Text.Lower(userMessage);
    assert SkillFollowUps[0] != ProjectFollowUps[0] && SkillFollowUps[0] != ExperienceFollowUps[0];
    assert ProjectFollowUps[0] != ExperienceFollowUps[0];
    assert QuickSuggestions[..3][0] !in {SkillFollowUps[0], ProjectFollowUps[0], ExperienceFollowUps[0]};
    if Text.Contains(m, "skill") || Text.Contains(m, "technology") then SkillFollowUps
    else if Text.Contains(m, "project") then ProjectFollowUps
    else if Text.Contains(m, "experience") then ExperienceFollowUps
    else Take(QuickSuggestions, 3)
  }

  /** A mention of a topic pattern always gets a topic reply, never a later one. */
  lemma MentionGetsTopicReply(data: PortfolioData, userMessage: string, t: Topic)
    requires MentionsTopic(Text.Lower(userMessage), t)
    ensures GenerateResponse(data, userMessage).TopicReply?
    ensures Rank(GenerateResponse(data, userMessage).topic) <= Rank(t)
  {
  }

  /** The skill follow-ups are offered only for a message containing "skill" or "technology". */
  lemma SkillFollowUpsNeedKeyword(userMessage: string)
    requires UpdateSuggestions(userMessage) == SkillFollowUps
    ensures var m := Text.Lower(userMessage);
            Text.Contains(m, "skill") || Text.Contains(m, "technology")
  {
    assert SkillFollowUps[0] != ProjectFollowUps[0] && SkillFollowUps[0] != ExperienceFollowUps[0];
    assert SkillFollowUps[0] != QuickSuggestions[0];
  }

  /**
   * The follow-ups agree with the reply where their keywords are topic
   * patterns: a message that earns the skill follow-ups is answered with the
   * skills text, and one mentioning "project" or "experience" gets a topic
   * reply no later in the table than that topic.
   */
  lemma FollowUpsMatchReply(data: PortfolioData, userMessage: string)
    ensures UpdateSuggestions(userMessage) == SkillFollowUps ==>
              GenerateResponse(data, userMessage) == TopicReply(SkillsTopic)
    ensures Text.Contains(Text.Lower(userMessage), "project") ==>
              GenerateResponse(data, userMessage).TopicReply?
              && Rank(GenerateResponse(data, userMessage).topic) <= Rank(ProjectsTopic)
    ensures Text.Contains(Text.Lower(userMessage), "experience") ==>
              GenerateResponse(data, userMessage).TopicReply?
              && Rank(GenerateResponse(data, userMessage).topic) <= Rank(ExperienceTopic)
  {
    SkillFollowUpsGetSkills(data, userMessage);
    ProjectMentionReply(data, userMessage);
    ExperienceMentionReply(data, userMessage);
  }

  lemma SkillFollowUpsGetSkills(data: PortfolioData, userMessage: string)
    ensures UpdateSuggestions(userMessage) == SkillFollowUps ==>
              GenerateResponse(data, userMessage) == TopicReply(SkillsTopic)
  {
    if UpdateSuggestions(userMessage) == SkillFollowUps {
      SkillFollowUpsNeedKeyword(userMessage);
      assert Patterns(SkillsTopic)[0] == "skill" && Patterns(SkillsTopic)[1] == "technology";
      MentionGetsTopicReply(data, userMessage, SkillsTopic);
    }
  }

  lemma ProjectMentionReply(data: PortfolioData, userMessage: string)
    ensures Text.Contains(Text.Lower(userMessage), "project") ==>
              GenerateResponse(data, userMessage).TopicReply?
              && Rank(GenerateResponse(data, userMessage).topic) <= Rank(ProjectsTopic)
  {
    if Text.Contains(Text.Lower(userMessage), "project") {
      assert Patterns(ProjectsTopic)[0] == "project";
      MentionGetsTopicReply(data, userMessage, ProjectsTopic);
    }
  }

  lemma ExperienceMentionReply(data: PortfolioData, userMessage: string)
    ensures Text.Contains(Text.Lower(userMessage), "experience") ==>
              GenerateResponse(data, userMessage).TopicReply?
              && Rank(GenerateResponse(data, userMessage).topic) <= Rank(ExperienceTopic)
  {
    if Text.Contains(Text.Lower(userMessage), "experience") {
      assert Patterns(ExperienceTopic)[0] == "experience";
      MentionGetsTopicReply(data, userMessage, ExperienceTopic);
    }
  }

  // ---------------------------------------------------------------- chat state

  datatype Sender = User | Ai

  datatype Message = Message(text: string, sender: Sender)

  /**
   * The component's chat state. `pending` lists, in send order, the texts
   * whose awaited reply has not arrived yet: every `handleSendMessage` call
   * waits its own random delay, so several replies can be outstanding.
   */
  datatype Chat = Chat(
    isOpen: bool,
    isMinimized: bool,
    messages: seq<Message>,
    inputValue: string,
    isTyping: bool,
    suggestions: seq<string>,
    pending: seq<string>)

  const InitialChat := Chat(false, false, [], "", false, [], [])

  /**
   * The welcome effect: on an open, empty chat, one greeting (the random pick
   * is the parameter `pick`) and the first three quick suggestions.
   */
  function Welcome(c: Chat, pick: nat): (r: Chat)
    ensures c.isOpen && |c.messages| == 0 ==>
              |r.messages| == 1 && r.messages[0].sender == Ai && r.messages[0].text in Greetings
              && r.suggestions == QuickSuggestions[..3]
    ensures !(c.isOpen && |c.messages| == 0) ==> r == c
    ensures r.isOpen == c.isOpen && r.inputValue == c.inputValue
    ensures r.isTyping == c.isTyping && r.pending == c.pending
  {
    if c.isOpen && |c.messages| == 0 then
      c.(messages := [Message(Greetings[pick % |Greetings|], Ai)], suggestions := QuickSuggestions[..3])
    else c
  }

  /** The welcome message is sent at most once: once sent, the effect does nothing. */
  lemma WelcomeOnce(c: Chat, pick1: nat, pick2: nat)
    ensures Welcome(Welcome(c, pick1), pick2) == Welcome(c, pick1)
  {
  }

  /** `messageText || inputValue.trim()`. */
  function OutgoingText(c: Chat, messageText: Option<string>): (text: string)
    ensures messageText.Some? && messageText.value != "" ==> text == messageText.value
    ensures !(messageText.Some? && messageText.value != "") ==> text == Text.Trim(c.inputValue)
  {
    if messageText.Some? && messageText.value != "" then messageText.value else Text.Trim(c.inputValue)
  }

  /**
   * `handleSendMessage` up to its `await`: an empty text changes nothing;
   * otherwise the user message is appended, the input is cleared, the typing
   * indicator shows and the reply to the text becomes outstanding.
   */
  function UserSends(c: Chat, messageText: Option<string>): (r: Chat)
    ensures OutgoingText(c, messageText) == "" ==> r == c
    ensures messageText.None? && Text.AllWhitespace(c.inputValue) ==> r == c
    ensures var text := OutgoingText(c, messageText);
            text != "" ==>
              r.messages == c.messages + [Message(text, User)] && r.pending == c.pending + [text]
              && r.inputValue == "" && r.isTyping
              && r.suggestions == c.suggestions && r.isOpen == c.isOpen && r.isMinimized == c.isMinimized
  {
    var text := OutgoingText(c, messageText);
    if text == "" then c
    else c.(messages := c.messages + [Message(text, User)], inputValue := "", isTyping := true,
            pending := c.pending + [text])
  }

  /**
   * The reply function the component awaits in every send: `generateResponse`
   * over its portfolio data, rendered. The chat steps below take it as a
   * parameter, so their lemmas hold whatever the replies say.
   */
  function Responder(data: PortfolioData): (respond: string -> string)
    ensures forall m :: respond(m) == ResponseText(data, m) && |respond(m)| > 0
  {
    m => ResponseText(data, m)
  }

  /**
   * The rest of `handleSendMessage`, once the delay of the send of
   * `c.pending[j]` ends: the reply to that text is appended, the typing
   * indicator is cleared (even while other replies are outstanding) and the
   * suggestions follow that text. Any outstanding reply may arrive first,
   * since each send draws its own delay; an index with no outstanding send
   * delivers nothing.
   */
  function ReplyArrives(c: Chat, respond: string -> string, j: nat): (r: Chat)
    ensures j >= |c.pending| ==> r == c
    ensures j < |c.pending| ==>
              r.messages == c.messages + [Message(respond(c.pending[j]), Ai)]
              && multiset(r.pending) + multiset{c.pending[j]} == multiset(c.pending)
              && |r.pending| + 1 == |c.pending|
              && !r.isTyping && r.suggestions == UpdateSuggestions(c.pending[j])
              && r.inputValue == c.inputValue && r.isOpen == c.isOpen && r.isMinimized == c.isMinimized
  {
    if j >= |c.pending| then c
    else
      var text := c.pending[j];
      assert c.pending == c.pending[..j] + [text] + c.pending[j + 1..];
      c.(messages := c.messages + [Message(respond(text), Ai)], isTyping := false,
         suggestions := UpdateSuggestions(text), pending := c.pending[..j] + c.pending[j + 1..])
  }

  /**
   * A whole `handleSendMessage` whose reply arrives before anything else
   * happens: the user message and then the reply to it are appended.
   */
  function SendMessage(c: Chat, respond: string -> string, messageText: Option<string>): (r: Chat)
    ensures OutgoingText(c, messageText) == "" ==> r == c
    ensures var text := OutgoingText(c, messageText);
            text != "" ==>
              r.messages == c.messages + [Message(text, User), Message(respond(text), Ai)]
              && r.pending == c.pending && r.inputValue == "" && !r.isTyping && |r.suggestions| == 3
              && r.isOpen == c.isOpen && r.isMinimized == c.isMinimized
  {
    var s := UserSends(c, messageText);
    assert OutgoingText(c, messageText) != "" ==>
             s.pending[..|c.pending|] == c.pending && s.pending[|c.pending| + 1..] == [];
    ReplyArrives(s, respond, |c.pending|)
  }

  /** Enter without Shift starts sending the typed input. */
  function KeyPress(c: Chat, key: string, shiftKey: bool): (r: Chat)
    ensures key == "Enter" && !shiftKey ==> r == UserSends(c, None)
    ensures !(key == "Enter" && !shiftKey) ==> r == c
  {
    if key == "Enter" && !shiftKey then UserSends(c, None) else c
  }

  function ToggleChat(c: Chat): (r: Chat)
    ensures r.isOpen == !c.isOpen && r.(isOpen := c.isOpen) == c
  {
    c.(isOpen := !c.isOpen)
  }

  function ToggleMinimize(c: Chat): (r: Chat)
    ensures r.isMinimized == !c.isMinimized && r.(isMinimized := c.isMinimized) == c
  {
    c.(isMinimized := !c.isMinimized)
  }

  // ---------------------------------------------------------------- chat runs

  datatype ChatEvent =
    | Toggle
    | Minimize
    | WelcomeEffect(pick: nat)
    | Type(value: string)
    | Key(key: string, shiftKey: bool)
    | SendButton
    | SuggestionClick(k: nat)
    | Reply(j: nat)

  /**
   * The events the page can deliver: the input field and the send button are
   * disabled while the typing indicator shows (and the button also while the
   * input is blank); the suggestion buttons never are; a reply can only
   * arrive for an outstanding send.
   */
  predicate ChatOffered(c: Chat, e: ChatEvent)
  {
    match e
    case Type(_) => !c.isTyping
    case Key(_, _) => !c.isTyping
    case SendButton => !c.isTyping && Text.Trim(c.inputValue) != ""
    case SuggestionClick(k) => k < |c.suggestions|
    case Reply(j) => j < |c.pending|
    case _ => true
  }

  function ChatStep(c: Chat, respond: string -> string, e: ChatEvent): Chat
  {
    match e
    case Toggle => ToggleChat(c)
    case Minimize => ToggleMinimize(c)
    case WelcomeEffect(pick) => Welcome(c, pick)
    case Type(value) => c.(inputValue := value)
    case Key(key, shiftKey) => KeyPress(c, key, shiftKey)
    case SendButton => UserSends(c, None)
    case SuggestionClick(k) => if k < |c.suggestions| then UserSends(c, Some(c.suggestions[k])) else c
    case Reply(j) => ReplyArrives(c, respond, j)
  }

  function ChatRun(c: Chat, respond: string -> string, es: seq<ChatEvent>): Chat
    decreases |es|
  {
    if |es| == 0 then c else ChatRun(ChatStep(c, respond, es[0]), respond, es[1..])
  }

  // ---------------------------------------------------------------- every message answered once

  /** The texts of the user's messages, in order. */
  function UserTexts(ms: seq<Message>): seq<string>
    decreases |ms|
  {
    if |ms| == 0 then []
    else
      var last := ms[|ms| - 1];
      UserTexts(ms[..|ms| - 1]) + (if last.sender == User then [last.text] else [])
  }

  /** The texts of the replies: the AI messages after the first position, which only the welcome can take. */
  function ReplyTexts(ms: seq<Message>): seq<string>
    decreases |ms|
  {
    if |ms| == 0 then []
    else
      var last := ms[|ms| - 1];
      ReplyTexts(ms[..|ms| - 1]) + (if last.sender == Ai && |ms| > 1 then [last.text] else [])
  }

  /** The reply to each text. */
  function Responses(respond: string -> string, texts: seq<string>): (r: seq<string>)
    ensures |r| == |texts|
    ensures forall i :: 0 <= i < |texts| ==> r[i] == respond(texts[i])
  {
    seq(|texts|, i requires 0 <= i < |texts| => respond(texts[i]))
  }

  /**
   * Every user message is answered exactly once or is still outstanding:
   * the replies shown and the replies outstanding together are, as a
   * multiset, the replies to the user's messages; the outstanding texts are
   * texts the user sent; and the typing indicator shows only while some
   * reply is outstanding.
   */
  predicate Accounted(respond: string -> string, c: Chat)
  {
    multiset(Responses(respond, UserTexts(c.messages)))
      == multiset(ReplyTexts(c.messages)) + multiset(Responses(respond, c.pending))
    && multiset(c.pending) <= multiset(UserTexts(c.messages))
    && (c.isTyping ==> |c.pending| > 0)
  }

  lemma AppendMessage(ms: seq<Message>, m: Message)
    ensures UserTexts(ms + [m]) == UserTexts(ms) + (if m.sender == User then [m.text] else [])
    ensures ReplyTexts(ms + [m]) == ReplyTexts(ms) + (if m.sender == Ai && |ms| > 0 then [m.text] else [])
  {
    assert (ms + [m])[..|ms|] == ms;
  }

  lemma ResponsesAppend(respond: string -> string, s: seq<string>, x: string)
    ensures Responses(respond, s + [x]) == Responses(respond, s) + [respond(x)]
  {
  }

  lemma ResponsesRemove(respond: string -> string, s: seq<string>, j: nat)
    requires j < |s|
    ensures multiset(Responses(respond, s))
            == multiset(Responses(respond, s[..j] + s[j + 1..])) + multiset{respond(s[j])}
  {
    var r := Responses(respond, s);
    assert r == r[..j] + [r[j]] + r[j + 1..];
    assert Responses(respond, s[..j] + s[j + 1..]) == r[..j] + r[j + 1..];
  }

  /** A send keeps the account: the new user text is outstanding. */
  lemma SendAccounted(respond: string -> string, c: Chat, messageText: Option<string>)
    requires Accounted(respond, c)
    ensures Accounted(respond, UserSends(c, messageText))
  {
    var text := OutgoingText(c, messageText);
    if text != "" {
      AppendMessage(c.messages, Message(text, User));
      ResponsesAppend(respond, UserTexts(c.messages), text);
      ResponsesAppend(respond, c.pending, text);
    }
  }

  /** An arrival keeps the account: the reply moves from outstanding to shown. */
  lemma ReplyAccounted(respond: string -> string, c: Chat, j: nat)
    requires Accounted(respond, c)
    ensures Accounted(respond, ReplyArrives(c, respond, j))
  {
    if j < |c.pending| {
      var text := c.pending[j];
      var us := UserTexts(c.messages);
      assert text in multiset(us);
      assert |c.messages| > 0;
      var r := ReplyArrives(c, respond, j);
      var rest := c.pending[..j] + c.pending[j + 1..];
      assert r.messages == c.messages + [Message(respond(text), Ai)];
      assert r.pending == rest && !r.isTyping;
      AppendMessage(c.messages, Message(respond(text), Ai));
      MoveReply(respond, us, ReplyTexts(c.messages), c.pending, j);
      PendingShrinks(c.pending, j, us);
      AccountedOf(respond, r, us, ReplyTexts(c.messages) + [respond(text)]);
    }
  }

  lemma AccountedOf(respond: string -> string, c: Chat, us: seq<string>, rs: seq<string>)
    requires UserTexts(c.messages) == us && ReplyTexts(c.messages) == rs
    requires multiset(Responses(respond, us)) == multiset(rs) + multiset(Responses(respond, c.pending))
    requires multiset(c.pending) <= multiset(us)
    requires c.isTyping ==> |c.pending| > 0
    ensures Accounted(respond, c)
  {
  }

  /** Moving one outstanding reply to the shown ones keeps the account's equation. */
  lemma MoveReply(respond: string -> string, us: seq<string>, rs: seq<string>, p: seq<string>, j: nat)
    requires j < |p|
    requires multiset(Responses(respond, us)) == multiset(rs) + multiset(Responses(respond, p))
    ensures multiset(Responses(respond, us))
            == multiset(rs + [respond(p[j])]) + multiset(Responses(respond, p[..j] + p[j + 1..]))
  {
    ResponsesRemove(respond, p, j);
  }

  lemma PendingShrinks(p: seq<string>, j: nat, us: seq<string>)
    requires j < |p| && multiset(p) <= multiset(us)
    ensures multiset(p[..j] + p[j + 1..]) <= multiset(us)
  {
    assert p == p[..j] + [p[j]] + p[j + 1..];
  }

  /** The welcome greeting is no reply: it only ever lands in an empty chat. */
  lemma WelcomeAccounted(respond: string -> string, c: Chat, pick: nat)
    requires Accounted(respond, c)
    ensures Accounted(respond, Welcome(c, pick))
  {
    if c.isOpen && |c.messages| == 0 {
      assert |multiset(c.pending)| == 0;
      var g := Message(Greetings[pick % |Greetings|], Ai);
      AppendMessage([], g);
      assert [] + [g] == [g];
    }
  }

  lemma StepAccounted(respond: string -> string, c: Chat, e: ChatEvent)
    requires Accounted(respond, c)
    ensures Accounted(respond, ChatStep(c, respond, e))
  {
    var r := ChatStep(c, respond, e);
    if e.Reply? {
      assert r == ReplyArrives(c, respond, e.j);
      ReplyAccounted(respond, c, e.j);
    } else if e.WelcomeEffect? {
      assert r == Welcome(c, e.pick);
      WelcomeAccounted(respond, c, e.pick);
    } else if e.Key? || e.SendButton? || e.SuggestionClick? {
      InputAccounted(respond, c, e);
    } else {
      SameAccount(respond, c, ChatStep(c, respond, e));
    }
  }

  /** The events that may start a send keep the account. */
  lemma InputAccounted(respond: string -> string, c: Chat, e: ChatEvent)
    requires Accounted(respond, c)
    requires e.Key? || e.SendButton? || e.SuggestionClick?
    ensures Accounted(respond, ChatStep(c, respond, e))
  {
    var r := ChatStep(c, respond, e);
    match e
    case Key(key, shiftKey) =>
      if key == "Enter" && !shiftKey {
        assert r == UserSends(c, None);
        SendAccounted(respond, c, None);
      } else {
        assert r == c;
      }
    case SendButton =>
      assert r == UserSends(c, None);
      SendAccounted(respond, c, None);
    case SuggestionClick(k) =>
      if k < |c.suggestions| {
        assert r == UserSends(c, Some(c.suggestions[k]));
        SendAccounted(respond, c, Some(c.suggestions[k]));
      } else {
        assert r == c;
      }
  }

  /** The account reads only the messages, the pending texts and the typing flag. */
  lemma SameAccount(respond: string -> string, c: Chat, d: Chat)
    requires Accounted(respond, c)
    requires d.messages == c.messages && d.pending == c.pending && d.isTyping == c.isTyping
    ensures Accounted(respond, d)
  {
  }

  /** Whatever happens, in whatever order the replies arrive, every user message is answered exactly once or outstanding. */
  lemma {:induction false} AlwaysAccounted(respond: string -> string, c: Chat, es: seq<ChatEvent>)
    requires Accounted(respond, c)
    ensures Accounted(respond, ChatRun(c, respond, es))
    decreases |es|
  {
    if |es| > 0 {
      StepAccounted(respond, c, es[0]);
      AlwaysAccounted(respond, ChatStep(c, respond, es[0]), es[1..]);
    }
  }

  /** So replies never outnumber the user's messages, and they match them in number once none is outstanding. */
  lemma RepliesNeverOutnumber(respond: string -> string, es: seq<ChatEvent>)
    ensures var c := ChatRun(InitialChat, respond, es);
            |ReplyTexts(c.messages)| + |c.pending| == |UserTexts(c.messages)|
            && (|c.pending| == 0 ==> |ReplyTexts(c.messages)| == |UserTexts(c.messages)|)
  {
    AlwaysAccounted(respond, InitialChat, es);
    var c := ChatRun(InitialChat, respond, es);
    assert |multiset(Responses(respond, UserTexts(c.messages)))|
           == |multiset(ReplyTexts(c.messages))| + |multiset(Responses(respond, c.pending))|;
  }

  // ---------------------------------------------------------------- pairing

  /** Every user message is directly followed by the reply to it. */
  predicate Paired(respond: string -> string, ms: seq<Message>)
  {
    forall i :: 0 <= i < |ms| ==> AnsweredAt(respond, ms, i)
  }

  /** A user message at `i` is followed by the reply to it. */
  predicate AnsweredAt(respond: string -> string, ms: seq<Message>, i: nat)
    requires i < |ms|
  {
    ms[i].sender == User ==> i + 1 < |ms| && ms[i + 1] == Message(respond(ms[i].text), Ai)
  }

  /** Appending a user message and then its reply keeps the messages paired. */
  lemma PairAppended(respond: string -> string, ms: seq<Message>, text: string)
    requires Paired(respond, ms)
    ensures Paired(respond, ms + [Message(text, User), Message(respond(text), Ai)])
  {
    var r := ms + [Message(text, User), Message(respond(text), Ai)];
    var n := |ms|;
    forall i | 0 <= i < |r|
      ensures AnsweredAt(respond, r, i)
    {
      if i < n {
        assert AnsweredAt(respond, ms, i);
        assert r[i] == ms[i];
        if i + 1 < n {
          assert r[i + 1] == ms[i + 1];
        }
      }
    }
  }

  /** A send whose reply arrives before anything else keeps the messages paired. */
  lemma SendKeepsPaired(c: Chat, respond: string -> string, messageText: Option<string>)
    requires Paired(respond, c.messages)
    ensures Paired(respond, SendMessage(c, respond, messageText).messages)
  {
    var text := OutgoingText(c, messageText);
    if text != "" {
      PairAppended(respond, c.messages, text);
    }
  }

  /**
   * Without suggestion clicks the chat is sequential: either nothing is
   * outstanding and the messages are paired, or exactly the last message
   * awaits its reply, the typing indicator shows, and the rest is paired.
   */
  predicate Sequential(respond: string -> string, c: Chat)
  {
    (|c.pending| == 0 && !c.isTyping && Paired(respond, c.messages))
    || (|c.pending| == 1 && c.isTyping && |c.messages| > 0
        && c.messages[|c.messages| - 1] == Message(c.pending[0], User)
        && Paired(respond, c.messages[..|c.messages| - 1]))
  }

  lemma SequentialSend(respond: string -> string, c: Chat)
    requires Sequential(respond, c) && !c.isTyping
    ensures Sequential(respond, UserSends(c, None))
  {
    var r := UserSends(c, None);
    if Text.Trim(c.inputValue) != "" {
      assert r.messages[..|r.messages| - 1] == c.messages;
    }
  }

  lemma SequentialReply(respond: string -> string, c: Chat, j: nat)
    requires Sequential(respond, c) && j < |c.pending|
    ensures Sequential(respond, ReplyArrives(c, respond, j))
  {
    var ms := c.messages;
    var init := ms[..|ms| - 1];
    var text := c.pending[0];
    assert ms == init + [Message(text, User)];
    var r := ReplyArrives(c, respond, j);
    assert r.messages == init + [Message(text, User), Message(respond(text), Ai)];
    assert |r.pending| == 0 && !r.isTyping;
    PairAppended(respond, init, text);
  }

  lemma SequentialWelcome(respond: string -> string, c: Chat, pick: nat)
    requires Sequential(respond, c)
    ensures Sequential(respond, Welcome(c, pick))
  {
    var r := Welcome(c, pick);
    if c.isOpen && |c.messages| == 0 {
      assert forall i :: 0 <= i < |r.messages| ==> AnsweredAt(respond, r.messages, i);
    }
  }

  lemma SequentialStep(respond: string -> string, c: Chat, e: ChatEvent)
    requires Sequential(respond, c) && ChatOffered(c, e) && !e.SuggestionClick?
    ensures Sequential(respond, ChatStep(c, respond, e))
  {
    match e
    case Toggle =>
    case Minimize =>
    case WelcomeEffect(pick) => SequentialWelcome(respond, c, pick);
    case Type(_) =>
    case Key(key, shiftKey) =>
      if key == "Enter" && !shiftKey {
        SequentialSend(respond, c);
      }
    case SendButton => SequentialSend(respond, c);
    case Reply(j) => SequentialReply(respond, c, j);
  }

  /** The events of a run are offered in turn. */
  predicate OfferedRun(c: Chat, respond: string -> string, es: seq<ChatEvent>)
    decreases |es|
  {
    |es| == 0 || (ChatOffered(c, es[0]) && OfferedRun(ChatStep(c, respond, es[0]), respond, es[1..]))
  }

  /**
   * With the input field alone (no suggestion click), which is disabled while
   * a reply is outstanding, every user message is directly followed by the
   * reply to it, except the last one while its reply is outstanding.
   */
  lemma {:induction false} TypedRunsStayPaired(respond: string -> string, c: Chat, es: seq<ChatEvent>)
    requires Sequential(respond, c) && OfferedRun(c, respond, es)
    requires forall i :: 0 <= i < |es| ==> !es[i].SuggestionClick?
    ensures Sequential(respond, ChatRun(c, respond, es))
    decreases |es|
  {
    if |es| > 0 {
      SequentialStep(respond, c, es[0]);
      TypedRunsStayPaired(respond, ChatStep(c, respond, es[0]), es[1..]);
    }
  }

  /**
   * The suggestion buttons stay enabled while a reply is outstanding, so two
   * quick clicks put both questions before either reply: the messages are
   * no longer paired, although each is still answered.
   */
  lemma SuggestionClicksInterleave(respond: string -> string, c: Chat)
    requires |c.suggestions| >= 2 && c.suggestions[0] != "" && c.suggestions[1] != ""
    ensures var c1 := ChatStep(c, respond, SuggestionClick(0));
            var c2 := ChatStep(c1, respond, SuggestionClick(1));
            ChatOffered(c, SuggestionClick(0)) && ChatOffered(c1, SuggestionClick(1))
            && c2.messages == c.messages + [Message(c.suggestions[0], User), Message(c.suggestions[1], User)]
            && !Paired(respond, ChatStep(c2, respond, Reply(|c.pending|)).messages)
  {
    var s0 := c.suggestions[0];
    var s1 := c.suggestions[1];
    var c1 := ChatStep(c, respond, SuggestionClick(0));
    SuggestionSends(respond, c, 0);
    var c2 := ChatStep(c1, respond, SuggestionClick(1));
    SuggestionSends(respond, c1, 1);
    var n := |c.messages|;
    assert c2.messages == c.messages + [Message(s0, User), Message(s1, User)];
    UserReplyUnanswered(respond, c2, |c.pending|, n);
  }

  /** Clicking a non-empty suggestion sends its text, leaving the suggestions as they were. */
  lemma SuggestionSends(respond: string -> string, c: Chat, k: nat)
    requires k < |c.suggestions| && c.suggestions[k] != ""
    ensures var r := ChatStep(c, respond, SuggestionClick(k));
            r.messages == c.messages + [Message(c.suggestions[k], User)]
            && r.pending == c.pending + [c.suggestions[k]] && r.suggestions == c.suggestions
  {
    assert ChatStep(c, respond, SuggestionClick(k)) == UserSends(c, Some(c.suggestions[k]));
  }

  /** Two user messages in a row at `n` stay unanswered whichever reply arrives next. */
  lemma UserReplyUnanswered(respond: string -> string, c: Chat, j: nat, n: nat)
    requires n + 1 < |c.messages| && c.messages[n].sender == User && c.messages[n + 1].sender == User
    ensures !Paired(respond, ChatStep(c, respond, Reply(j)).messages)
  {
    var r := ChatStep(c, respond, Reply(j));
    assert r == ReplyArrives(c, respond, j);
    assert r.messages[..|c.messages|] == c.messages;
    assert r.messages[n] == c.messages[n] && r.messages[n + 1] == c.messages[n + 1];
    assert !AnsweredAt(respond, r.messages, n);
  }

}

=== FILE: blog.dfy ===
/**
 * `Blog.tsx`: the search-and-category filter over the posts, the category
 * list, the featured strip, the tag chips and the read-more modal.
 */
module Blog {
  import opened Wrappers
  import opened Seqs
  import Text

  /** The fields of a post that the rules read. */
  datatype Post = Post(id: string, title: string, excerpt: string, category: string, tags: seq<string>, featured: bool)

  const AllCategories := "all"

  /** The search half of the filter, on lowercased text. */
  predicate MatchesSearch(p: Post, searchTerm: string)
  {
    var q := Text.Lower(searchTerm);
    Text.Contains(Text.Lower(p.title), q)
    || Text.Contains(Text.Lower(p.excerpt), q)
    || exists i :: 0 <= i < |p.tags| && Text.Contains(Text.Lower(p.tags[i]), q)
  }

  predicate MatchesCategory(p: Post, selectedCategory: string)
  {
    selectedCategory == AllCategories || p.category == selectedCategory
  }

  predicate Shown(p: Post, searchTerm: string, selectedCategory: string)
  {
    MatchesSearch(p, searchTerm) && MatchesCategory(p, selectedCategory)
  }

  /** `filteredPosts`. */
  function FilteredPosts(posts: seq<Post>, searchTerm: string, selectedCategory: string): (r: seq<Post>)
    ensures IsSubsequence(r, posts)
    ensures forall i :: 0 <= i < |r| ==> Shown(r[i], searchTerm, selectedCategory)
    ensures forall i :: 0 <= i < |posts| && Shown(posts[i], searchTerm, selectedCategory) ==> posts[i] in r
    ensures forall i :: 0 <= i < |posts| && Shown(posts[i], searchTerm, selectedCategory) ==>
              multiset(r)[posts[i]] == multiset(posts)[posts[i]]
  {
    FilterMultiplicity(posts, (p: Post) => Shown(p, searchTerm, selectedCategory));
    Filter(posts, (p: Post) => Shown(p, searchTerm, selectedCategory))
  }

  /** An empty search matches every post. */
  lemma EmptySearchMatchesAll(p: Post)
    ensures MatchesSearch(p, "")
  {
    assert Text.Lower("") == "";
    Text.ContainsEmpty(Text.Lower(p.title));
  }

  /** With an empty search and "all", every post is listed, in order. */
  lemma NoFilterShowsAll(posts: seq<Post>)
    ensures FilteredPosts(posts, "", AllCategories) == posts
  {
    forall i | 0 <= i < |posts| ensures Shown(posts[i], "", AllCategories) {
      EmptySearchMatchesAll(posts[i]);
    }
    FilterAll(posts, (p: Post) => Shown(p, "", AllCategories));
  }

  function CategoriesOf(posts: seq<Post>): (r: seq<string>)
    ensures |r| == |posts|
    ensures forall i :: 0 <= i < |posts| ==> r[i] == posts[i].category
  {
    seq(|posts|, i requires 0 <= i < |posts| => posts[i].category)
  }

  /** `['all', ...Array.from(new Set(categories))]`. */
  function Categories(posts: seq<Post>): (r: seq<string>)
    ensures |r| > 0 && r[0] == AllCategories
    ensures NoDuplicates(r[1..])
    ensures forall c :: c in r[1..] ==> c in CategoriesOf(posts)
    ensures forall i :: 0 <= i < |posts| ==> posts[i].category in r[1..]
    ensures forall i, j :: 0 <= i < j < |r[1..]| ==>
              FirstIndex(CategoriesOf(posts), r[1..][i]) < FirstIndex(CategoriesOf(posts), r[1..][j])
  {
    var cs := CategoriesOf(posts);
    var d := Distinct(cs);
    var r := [AllCategories] + d;
    assert r[1..] == d;
    assert forall i :: 0 <= i < |posts| ==> posts[i].category in d by {
      forall i | 0 <= i < |posts| ensures posts[i].category in d {
        assert cs[i] == posts[i].category;
      }
    }
    r
  }

  /** Unless some post is itself in a category named "all", the list has no repeats. */
  lemma CategoriesDistinct(posts: seq<Post>)
    requires forall i :: 0 <= i < |posts| ==> posts[i].category != AllCategories
    ensures NoDuplicates(Categories(posts))
  {
    var r := Categories(posts);
    forall i, j | 0 <= i < j < |r| ensures r[i] != r[j] {
      if i == 0 {
        assert r[j] in r[1..];
      } else {
        assert r[1..][i - 1] == r[i] && r[1..][j - 1] == r[j];
      }
    }
  }

  /** `featuredPosts.slice(0, 3)`. */
  function FeaturedShown(posts: seq<Post>): (r: seq<Post>)
    ensures |r| <= 3
    ensures forall i :: 0 <= i < |r| ==> r[i].featured
    ensures IsSubsequence(r, posts)
    ensures r <= Filter(posts, (p: Post) => p.featured)
    ensures |r| == Min(3, |Filter(posts, (p: Post) => p.featured)|)
  {
    var f := Filter(posts, (p: Post) => p.featured);
    var r := Take(f, 3);
    PrefixIsSubsequence(r, f);
    SubsequenceTransitive(r, f, posts);
    r
  }

  /** `post.tags.slice(0, 3)`: the chips on a featured card. */
  function ShownTags(p: Post): (r: seq<string>)
    ensures |r| == Min(3, |p.tags|)
    ensures r <= p.tags
  {
    Take(p.tags, 3)
  }

  // ---------------------------------------------------------------- state

  datatype BlogState = BlogState(
    searchTerm: string,
    selectedCategory: string,
    selectedPost: Option<Post>,
    isModalOpen: bool)

  const InitialBlog := BlogState("", AllCategories, None, false)

  datatype BlogEvent = TypeSearch(term: string) | ChooseCategory(category: string) | ReadMore(post: Post) | CloseModal

  function BlogStep(s: BlogState, e: BlogEvent): (r: BlogState)
    ensures e.ReadMore? ==> r.selectedPost == Some(e.post) && r.isModalOpen
    ensures e.CloseModal? ==> r.selectedPost == None && !r.isModalOpen
    ensures e.TypeSearch? || e.ChooseCategory? ==> r.selectedPost == s.selectedPost && r.isModalOpen == s.isModalOpen
    ensures e.ReadMore? || e.CloseModal? ==> r.searchTerm == s.searchTerm && r.selectedCategory == s.selectedCategory
  {
    match e
    case TypeSearch(term) => s.(searchTerm := term)
    case ChooseCategory(category) => s.(selectedCategory := category)
    case ReadMore(post) => s.(selectedPost := Some(post), isModalOpen := true)
    case CloseModal => s.(isModalOpen := false, selectedPost := None)
  }

  function BlogRun(s: BlogState, es: seq<BlogEvent>): BlogState
    decreases |es|
  {
    if |es| == 0 then s else BlogRun(BlogStep(s, es[0]), es[1..])
  }

  /** The modal is open exactly when a post is selected. */
  predicate ModalConsistent(s: BlogState)
  {
    s.isModalOpen <==> s.selectedPost.Some?
  }

  lemma {:induction false} ModalStaysConsistent(s: BlogState, es: seq<BlogEvent>)
    requires ModalConsistent(s)
    ensures ModalConsistent(BlogRun(s, es))
    decreases |es|
  {
    if |es| > 0 {
      ModalStaysConsistent(BlogStep(s, es[0]), es[1..]);
    }
  }

  /** So from the initial state the modal renders exactly when it is open. */
  lemma ModalFromStart(es: seq<BlogEvent>)
    ensures ModalConsistent(BlogRun(InitialBlog, es))
  {
    ModalStaysConsistent(InitialBlog, es);
  }
}

=== FILE: card_count.dfy ===
/**
 * `useResponsiveCardCount.ts`: how many project cards a carousel page holds
 * at a given window width, and what that does to the carousel's page count.
 */
module CardCount {
  import Carousel

  const MobileBreakpoint := 768
  const TabletBreakpoint := 1200

  /** `CARDS_PER_VIEWPORT.DESKTOP`: the count before the first measurement. */
  const InitialVisibleCards := 6

  /** `updateVisibleCards` at `window.innerWidth == width`. */
  function VisibleCards(width: int): (r: int)
    ensures r == 2 || r == 3 || r == 6
    ensures r == 2 <==> width <= MobileBreakpoint
    ensures r == 3 <==> MobileBreakpoint < width <= TabletBreakpoint
    ensures r == 6 <==> width > TabletBreakpoint
  {
    if width <= MobileBreakpoint then 2
    else if width <= TabletBreakpoint then 3
    else 6
  }

  /** A wider window never shows fewer cards per page. */
  lemma CardsMonotone(a: int, b: int)
    requires a <= b
    ensures VisibleCards(a) <= VisibleCards(b)
  {
  }

  /**
   * The hook's state after mounting at `widths[0]` and one `resize` event at
   * each later width: the initial desktop count until the first measurement,
   * then whatever the last measured width calls for.
   */
  function CardsAfter(widths: seq<int>): (r: int)
    ensures |widths| == 0 ==> r == InitialVisibleCards
    ensures |widths| > 0 ==> r == VisibleCards(widths[|widths| - 1])
  {
    if |widths| == 0 then InitialVisibleCards
    else VisibleCards(widths[|widths| - 1])
  }

  /** Mounting on a desktop-width window keeps the initial count: the first render is already right. */
  lemma DesktopMountKeepsInitial(width: int)
    requires width > TabletBreakpoint
    ensures CardsAfter([width]) == CardsAfter([])
  {
  }

  /** Mounting on any narrower window changes the count after the first render. */
  lemma NarrowMountChangesCount(width: int)
    requires width <= TabletBreakpoint
    ensures CardsAfter([width]) != CardsAfter([])
    ensures CardsAfter([width]) < InitialVisibleCards
  {
  }

  /** Only the last measured width matters: two histories ending at the same width agree. */
  lemma OnlyLastWidthCounts(a: seq<int>, b: seq<int>)
    requires |a| > 0 && |b| > 0 && a[|a| - 1] == b[|b| - 1]
    ensures CardsAfter(a) == CardsAfter(b)
  {
  }

  /** So a wider window never needs more carousel pages for the same projects. */
  lemma WiderNeedsNoMorePages(count: nat, a: int, b: int)
    requires a <= b
    ensures Carousel.TotalPages(count, VisibleCards(b)) <= Carousel.TotalPages(count, VisibleCards(a))
  {
    CardsMonotone(a, b);
    PagesAntitone(count, VisibleCards(a), VisibleCards(b));
  }

  /** More items per page never means more pages. */
  lemma PagesAntitone(count: nat, m1: int, m2: int)
    requires 0 < m1 <= m2
    ensures Carousel.TotalPages(count, m2) <= Carousel.TotalPages(count, m1)
  {
    var t1 := Carousel.TotalPages(count, m1);
    var t2 := Carousel.TotalPages(count, m2);
    if count > 0 {
      assert t1 * m1 <= t1 * m2 by {
        Carousel.MulMonotone(m1, m2, t1);
      }
      assert (t2 - 1) * m2 < t1 * m2;
      Below(t2 - 1, t1, m2);
    }
  }

  lemma Below(a: int, b: int, m: int)
    requires m > 0 && a * m < b * m
    ensures a < b
  {
    if a >= b {
      Carousel.MulMonotone(b, a, m);
    }
  }
}

=== FILE: carousel.dfy ===
/**
 * `useCarousel`: pages of `itemsPerPage` items over a list, a current page
 * that wraps at both ends, a bounds-checked jump, and an effect that resets an
 * out-of-range page to 0 once the list has at least one page.
 */
module Carousel {
  import opened Seqs
  import Cyclic

  /** The hook's inputs and its one piece of state. */
  datatype CarouselState<T> = CarouselState(items: seq<T>, itemsPerPage: int, currentPage: int)

  /** `Math.ceil(items.length / itemsPerPage)`. */
  function TotalPages(count: nat, itemsPerPage: int): (t: nat)
    requires itemsPerPage > 0
    ensures t * itemsPerPage >= count
    ensures count > 0 ==> (t - 1) * itemsPerPage < count
    ensures t == 0 <==> count == 0
  {
    var q := (count + itemsPerPage - 1) / itemsPerPage;
    var m := (count + itemsPerPage - 1) % itemsPerPage;
    assert count + itemsPerPage - 1 == q * itemsPerPage + m;
    assert (q - 1) * itemsPerPage == q * itemsPerPage - itemsPerPage;
    q
  }

  function Pages<T>(c: CarouselState<T>): nat
    requires c.itemsPerPage > 0
  {
    TotalPages(|c.items|, c.itemsPerPage)
  }

  /** `items.slice(page * itemsPerPage, page * itemsPerPage + itemsPerPage)`. */
  function PageItems<T>(items: seq<T>, itemsPerPage: int, page: int): (r: seq<T>)
    requires itemsPerPage > 0
    ensures |r| <= itemsPerPage
    ensures 0 <= page ==>
              var a := Min(page * itemsPerPage, |items|);
              var b := Min(page * itemsPerPage + itemsPerPage, |items|);
              r == items[a..b]
  {
    var start := page * itemsPerPage;
    SliceWindow(items, start, itemsPerPage);
    if 0 <= page then
      MulMonotone(0, page, itemsPerPage);
      Slice(items, start, start + itemsPerPage)
    else
      Slice(items, start, start + itemsPerPage)
  }

  /** A slice of width `n` starting at a non-negative offset, with both ends clamped to the list. */
  lemma SliceWindow<T>(items: seq<T>, start: int, n: int)
    requires n > 0
    ensures |Slice(items, start, start + n)| <= n
    ensures 0 <= start ==> Slice(items, start, start + n) == items[Min(start, |items|)..Min(start + n, |items|)]
  {
  }

  /** The `visibleItems` the hook returns. */
  function VisibleItems<T>(c: CarouselState<T>): (r: seq<T>)
    requires c.itemsPerPage > 0
    ensures |r| <= c.itemsPerPage
    ensures 0 <= c.currentPage < Pages(c) ==> |r| > 0
  {
    var r := PageItems(c.items, c.itemsPerPage, c.currentPage);
    if 0 <= c.currentPage < Pages(c) then
      assert c.currentPage * c.itemsPerPage < |c.items| by {
        MulMonotone(c.currentPage, Pages(c) - 1, c.itemsPerPage);
      }
      r
    else r
  }

  lemma MulMonotone(a: int, b: int, m: nat)
    requires a <= b
    ensures a * m <= b * m
  {
    assert b * m - a * m == (b - a) * m;
  }

  /** The pages `k, k+1, ..., t-1` in order. */
  function PagesFrom<T>(items: seq<T>, itemsPerPage: int, k: nat, t: nat): seq<seq<T>>
    requires itemsPerPage > 0
    requires k <= t
    decreases t - k
  {
    if k == t then [] else [PageItems(items, itemsPerPage, k)] + PagesFrom(items, itemsPerPage, k + 1, t)
  }

  /** Pages `k..t-1` laid end to end give back the items from page `k` on. */
  lemma {:induction false} PagesFromConcat<T>(items: seq<T>, itemsPerPage: int, k: nat, t: nat)
    requires itemsPerPage > 0 && k <= t
    requires t == TotalPages(|items|, itemsPerPage)
    ensures Concat(PagesFrom(items, itemsPerPage, k, t)) == items[Min(k * itemsPerPage, |items|)..]
    decreases t - k
  {
    if k == t {
      assert t * itemsPerPage >= |items|;
    } else {
      PagesFromConcat(items, itemsPerPage, k + 1, t);
      PageThenRest(items, itemsPerPage, k, t);
    }
  }

  /** One step of the concatenation: page `k`, then the items from page `k + 1` on. */
  lemma PageThenRest<T>(items: seq<T>, itemsPerPage: int, k: nat, t: nat)
    requires itemsPerPage > 0 && k < t
    requires Concat(PagesFrom(items, itemsPerPage, k + 1, t)) == items[Min((k + 1) * itemsPerPage, |items|)..]
    ensures Concat(PagesFrom(items, itemsPerPage, k, t)) == items[Min(k * itemsPerPage, |items|)..]
  {
    var m := k * itemsPerPage;
    MulSucc(k, itemsPerPage);
    MulMonotone(0, k, itemsPerPage);
    var page := PageItems(items, itemsPerPage, k);
    var rest := PagesFrom(items, itemsPerPage, k + 1, t);
    assert PagesFrom(items, itemsPerPage, k, t) == [page] + rest;
    PageStep(items, itemsPerPage, m, page, rest);
  }

  /** The page at offset `m`, followed by pieces making up the items from `m + itemsPerPage` on, makes up the items from `m` on. */
  lemma PageStep<T>(items: seq<T>, itemsPerPage: int, m: int, page: seq<T>, rest: seq<seq<T>>)
    requires itemsPerPage > 0 && m >= 0
    requires page == items[Min(m, |items|)..Min(m + itemsPerPage, |items|)]
    requires Concat(rest) == items[Min(m + itemsPerPage, |items|)..]
    ensures Concat([page] + rest) == items[Min(m, |items|)..]
  {
    ConcatCons(page, rest);
    var a := Min(m, |items|);
    var b := Min(m + itemsPerPage, |items|);
    assert items[a..] == items[a..b] + items[b..];
  }

  lemma MulSucc(k: int, n: int)
    ensures (k + 1) * n == k * n + n
  {
  }

  lemma ConcatCons<T>(x: seq<T>, rest: seq<seq<T>>)
    ensures Concat([x] + rest) == x + Concat(rest)
  {
    assert ([x] + rest)[1..] == rest;
  }

  /** The pages `0 .. totalPages-1`, concatenated, are exactly the items. */
  lemma AllPagesConcat<T>(items: seq<T>, itemsPerPage: int)
    requires itemsPerPage > 0
    ensures Concat(PagesFrom(items, itemsPerPage, 0, TotalPages(|items|, itemsPerPage))) == items
  {
    PagesFromConcat(items, itemsPerPage, 0, TotalPages(|items|, itemsPerPage));
  }

  /** `goToNext`: the last page wraps to 0. */
  function GoToNext<T>(c: CarouselState<T>): (r: CarouselState<T>)
    requires c.itemsPerPage > 0
    ensures r.items == c.items && r.itemsPerPage == c.itemsPerPage
    ensures 0 <= c.currentPage < Pages(c) ==> 0 <= r.currentPage < Pages(c)
  {
    c.(currentPage := Cyclic.Next(c.currentPage, Pages(c)))
  }

  /** `goToPrevious`: page 0 wraps to the last page. */
  function GoToPrevious<T>(c: CarouselState<T>): (r: CarouselState<T>)
    requires c.itemsPerPage > 0
    ensures r.items == c.items && r.itemsPerPage == c.itemsPerPage
    ensures 0 <= c.currentPage < Pages(c) ==> 0 <= r.currentPage < Pages(c)
  {
    c.(currentPage := Cyclic.Prev(c.currentPage, Pages(c)))
  }

  /** `goToPage`: only an existing page is accepted. */
  function GoToPage<T>(c: CarouselState<T>, page: int): (r: CarouselState<T>)
    requires c.itemsPerPage > 0
    ensures r.items == c.items && r.itemsPerPage == c.itemsPerPage
    ensures r.currentPage == page || r == c
    ensures r.currentPage == page <==> (0 <= page < Pages(c) || page == c.currentPage)
  {
    if 0 <= page < Pages(c) then c.(currentPage := page) else c
  }

  /** `canGoNext` and `canGoPrevious` are the same flag. */
  function CanNavigate<T>(c: CarouselState<T>): bool
    requires c.itemsPerPage > 0
  {
    Pages(c) > 1
  }

  /** The reset effect: an out-of-range page goes back to 0 when a page exists. */
  function Settle<T>(c: CarouselState<T>): (r: CarouselState<T>)
    requires c.itemsPerPage > 0
    ensures r.items == c.items && r.itemsPerPage == c.itemsPerPage
    ensures Pages(c) > 0 && 0 <= c.currentPage ==> 0 <= r.currentPage < Pages(c)
    ensures 0 <= c.currentPage < Pages(c) ==> r == c
  {
    if c.currentPage >= Pages(c) && Pages(c) > 0 then c.(currentPage := 0) else c
  }

  /** Next and previous undo each other on a valid page. */
  lemma NextPreviousInverse<T>(c: CarouselState<T>)
    requires c.itemsPerPage > 0
    requires 0 <= c.currentPage < Pages(c)
    ensures GoToPrevious(GoToNext(c)) == c
    ensures GoToNext(GoToPrevious(c)) == c
  {
    Cyclic.NextPrevInverse(c.currentPage, Pages(c));
  }

  /**
   * The navigation buttons are enabled exactly when pressing them moves to a
   * different page.
   */
  lemma CanNavigateIffMoves<T>(c: CarouselState<T>)
    requires c.itemsPerPage > 0
    requires 0 <= c.currentPage < Pages(c)
    ensures CanNavigate(c) <==> GoToNext(c).currentPage != c.currentPage
    ensures CanNavigate(c) <==> GoToPrevious(c).currentPage != c.currentPage
  {
  }

  /**
   * With an empty list there are no pages: next and previous drive the page to
   * 1 and -1, the reset effect does not fire, and nothing is shown.
   */
  lemma EmptyListDrifts<T>(itemsPerPage: int)
    requires itemsPerPage > 0
    ensures var c: CarouselState<T> := CarouselState([], itemsPerPage, 0);
            && Settle(GoToNext(c)).currentPage == 1
            && Settle(GoToPrevious(c)).currentPage == -1
            && VisibleItems(GoToNext(c)) == []
            && VisibleItems(GoToPrevious(c)) == []
  {
  }
}

=== FILE: counting.dfy ===
/**
 * Occurrence counting with a JavaScript `Map`: `m.set(x, (m.get(x) || 0) + 1)`
 * for each element, the map's entries iterating in first-insertion order.
 * Used by the analytics for interaction counts and for the mouse heatmap.
 */
module Counting {
  import opened Seqs
  import opened Sorting

  /** One `[key, count]` entry of the map. */
  datatype Counted<T> = Counted(key: T, count: nat)

  /** Number of occurrences of `x` in `s`. */
  function Count<T(==)>(s: seq<T>, x: T): nat
    decreases |s|
  {
    if |s| == 0 then 0 else Count(s[..|s| - 1], x) + (if s[|s| - 1] == x then 1 else 0)
  }

  lemma {:induction false} CountAbsent<T>(s: seq<T>, x: T)
    requires x !in s
    ensures Count(s, x) == 0
    decreases |s|
  {
    if |s| > 0 {
      CountAbsent(s[..|s| - 1], x);
    }
  }

  lemma {:induction false} CountPresent<T>(s: seq<T>, x: T)
    requires x in s
    ensures Count(s, x) > 0
    decreases |s|
  {
    if s[|s| - 1] != x {
      assert x in s[..|s| - 1];
      CountPresent(s[..|s| - 1], x);
    }
  }

  function KeysOf<T>(t: seq<Counted<T>>): (ks: seq<T>)
    ensures |ks| == |t|
    ensures forall i :: 0 <= i < |t| ==> ks[i] == t[i].key
  {
    seq(|t|, i requires 0 <= i < |t| => t[i].key)
  }

  lemma KeysOfCons<T>(c: Counted<T>, t: seq<Counted<T>>)
    ensures KeysOf([c] + t) == [c.key] + KeysOf(t)
  {
  }

  /** Add one occurrence of `x`: bump its entry in place, or append a new one. */
  function Bump<T(==)>(t: seq<Counted<T>>, x: T): (r: seq<Counted<T>>)
    ensures KeysOf(r) == if x in KeysOf(t) then KeysOf(t) else KeysOf(t) + [x]
    ensures NoDuplicates(KeysOf(t)) ==>
              forall i :: 0 <= i < |t| ==> r[i].count == t[i].count + (if t[i].key == x then 1 else 0)
    ensures x !in KeysOf(t) ==> r[|t|].count == 1
    decreases |t|
  {
    if |t| == 0 then [Counted(x, 1)]
    else if t[0].key == x then
      var r := [Counted(x, t[0].count + 1)] + t[1..];
      BumpHead(t, x, r);
      r
    else
      var rest := Bump(t[1..], x);
      var r := [t[0]] + rest;
      BumpBehind(t, x, rest, r);
      r
  }

  /** `x` is the first entry's key: that entry's count goes up by one. */
  lemma BumpHead<T>(t: seq<Counted<T>>, x: T, r: seq<Counted<T>>)
    requires |t| > 0 && t[0].key == x && r == [Counted(x, t[0].count + 1)] + t[1..]
    ensures KeysOf(r) == KeysOf(t) && x in KeysOf(t)
    ensures NoDuplicates(KeysOf(t)) ==>
              forall i :: 0 <= i < |t| ==> r[i].count == t[i].count + (if t[i].key == x then 1 else 0)
  {
    assert t == [t[0]] + t[1..];
    KeysOfCons(t[0], t[1..]);
    KeysOfCons(Counted(x, t[0].count + 1), t[1..]);
    if NoDuplicates(KeysOf(t)) {
      forall i | 0 < i < |t| ensures t[i].key != x {
        assert KeysOf(t)[0] != KeysOf(t)[i];
      }
    }
  }

  /** `x` is not the first entry's key: the first entry stays and the rest is bumped. */
  lemma BumpBehind<T>(t: seq<Counted<T>>, x: T, rest: seq<Counted<T>>, r: seq<Counted<T>>)
    requires |t| > 0 && t[0].key != x && r == [t[0]] + rest
    requires KeysOf(rest) == if x in KeysOf(t[1..]) then KeysOf(t[1..]) else KeysOf(t[1..]) + [x]
    requires NoDuplicates(KeysOf(t[1..])) ==>
               forall i :: 0 <= i < |t[1..]| ==> rest[i].count == t[1..][i].count + (if t[1..][i].key == x then 1 else 0)
    requires x !in KeysOf(t[1..]) ==> rest[|t[1..]|].count == 1
    ensures KeysOf(r) == if x in KeysOf(t) then KeysOf(t) else KeysOf(t) + [x]
    ensures NoDuplicates(KeysOf(t)) ==>
              forall i :: 0 <= i < |t| ==> r[i].count == t[i].count + (if t[i].key == x then 1 else 0)
    ensures x !in KeysOf(t) ==> r[|t|].count == 1
  {
    var tail := t[1..];
    KeysBehind(t, tail, x, rest, r);
    if NoDuplicates(KeysOf(t)) {
      TailNoDuplicates(t, tail);
      CountsBehind(t, tail, x, rest, r);
    }
  }

  lemma KeysBehind<T>(t: seq<Counted<T>>, tail: seq<Counted<T>>, x: T, rest: seq<Counted<T>>, r: seq<Counted<T>>)
    requires |t| > 0 && tail == t[1..] && t[0].key != x && r == [t[0]] + rest
    requires KeysOf(rest) == if x in KeysOf(tail) then KeysOf(tail) else KeysOf(tail) + [x]
    ensures x in KeysOf(t) <==> x in KeysOf(tail)
    ensures KeysOf(r) == if x in KeysOf(t) then KeysOf(t) else KeysOf(t) + [x]
  {
    assert t == [t[0]] + tail;
    KeysOfCons(t[0], tail);
    KeysOfCons(t[0], rest);
    if x !in KeysOf(tail) {
      assert [t[0].key] + (KeysOf(tail) + [x]) == ([t[0].key] + KeysOf(tail)) + [x];
    }
  }

  lemma TailNoDuplicates<T>(t: seq<Counted<T>>, tail: seq<Counted<T>>)
    requires |t| > 0 && tail == t[1..] && NoDuplicates(KeysOf(t))
    ensures NoDuplicates(KeysOf(tail))
  {
    forall a, b | 0 <= a < b < |tail| ensures KeysOf(tail)[a] != KeysOf(tail)[b] {
      assert KeysOf(t)[a + 1] != KeysOf(t)[b + 1];
    }
  }

  lemma CountsBehind<T>(t: seq<Counted<T>>, tail: seq<Counted<T>>, x: T, rest: seq<Counted<T>>, r: seq<Counted<T>>)
    requires |t| > 0 && tail == t[1..] && t[0].key != x && r == [t[0]] + rest
    requires |rest| >= |tail|
    requires forall i :: 0 <= i < |tail| ==> rest[i].count == tail[i].count + (if tail[i].key == x then 1 else 0)
    ensures forall i :: 0 <= i < |t| ==> r[i].count == t[i].count + (if t[i].key == x then 1 else 0)
  {
    forall i | 0 < i < |t| ensures r[i].count == t[i].count + (if t[i].key == x then 1 else 0) {
      assert r[i] == rest[i - 1] && t[i] == tail[i - 1];
    }
  }

  /** `r` holds one entry per distinct element of `s`, in first-occurrence order, with its count. */
  predicate TallyOf<T(==)>(s: seq<T>, r: seq<Counted<T>>)
  {
    KeysOf(r) == Distinct(s) && forall i :: 0 <= i < |r| ==> r[i].count == Count(s, r[i].key)
  }

  /** The counting loop. */
  function Tally<T(==)>(s: seq<T>): (r: seq<Counted<T>>)
    ensures TallyOf(s, r)
    decreases |s|
  {
    if |s| == 0 then []
    else
      var t := Tally(s[..|s| - 1]);
      TallyStep(s, t);
      Bump(t, s[|s| - 1])
  }

  lemma TallyStep<T>(s: seq<T>, t: seq<Counted<T>>)
    requires |s| > 0
    requires TallyOf(s[..|s| - 1], t)
    ensures TallyOf(s, Bump(t, s[|s| - 1]))
  {
    var init := s[..|s| - 1];
    var last := s[|s| - 1];
    var d := Distinct(init);
    assert Distinct(s) == if last in d then d else d + [last];
    var r := Bump(t, last);
    forall i | 0 <= i < |r|
      ensures r[i].count == Count(s, r[i].key)
    {
      BumpedCount(s, t, i);
    }
  }

  /** One entry after the step: the old count plus one for the new element, or a fresh count of one. */
  lemma BumpedCount<T>(s: seq<T>, t: seq<Counted<T>>, i: nat)
    requires |s| > 0
    requires TallyOf(s[..|s| - 1], t)
    requires i < |Bump(t, s[|s| - 1])|
    ensures Bump(t, s[|s| - 1])[i].count == Count(s, Bump(t, s[|s| - 1])[i].key)
  {
    if i < |t| {
      BumpedOldEntry(s, t, i);
    } else {
      BumpedNewEntry(s, t, i);
    }
  }

  lemma BumpedOldEntry<T>(s: seq<T>, t: seq<Counted<T>>, i: nat)
    requires |s| > 0
    requires TallyOf(s[..|s| - 1], t)
    requires i < |t|
    ensures i < |Bump(t, s[|s| - 1])|
    ensures Bump(t, s[|s| - 1])[i].count == Count(s, Bump(t, s[|s| - 1])[i].key)
  {
    var init := s[..|s| - 1];
    var last := s[|s| - 1];
    var r := Bump(t, last);
    assert NoDuplicates(KeysOf(t));
    assert |KeysOf(r)| >= |KeysOf(t)|;
    assert r[i].key == KeysOf(r)[i] == KeysOf(t)[i] == t[i].key;
    assert r[i].count == t[i].count + (if t[i].key == last then 1 else 0);
    assert t[i].count == Count(init, t[i].key);
    assert Count(s, t[i].key) == Count(init, t[i].key) + (if last == t[i].key then 1 else 0);
  }

  lemma BumpedNewEntry<T>(s: seq<T>, t: seq<Counted<T>>, i: nat)
    requires |s| > 0
    requires TallyOf(s[..|s| - 1], t)
    requires |t| <= i < |Bump(t, s[|s| - 1])|
    ensures Bump(t, s[|s| - 1])[i].count == Count(s, Bump(t, s[|s| - 1])[i].key)
  {
    var init := s[..|s| - 1];
    var last := s[|s| - 1];
    var r := Bump(t, last);
    assert last !in KeysOf(t);
    assert i == |t| && r[i].key == KeysOf(r)[i] == last;
    assert last !in init;
    CountAbsent(init, last);
    assert Count(s, last) == Count(init, last) + 1;
  }

  /** Every entry counts an element that occurs, and every element has an entry. */
  lemma TallyMembers<T>(s: seq<T>)
    ensures forall i :: 0 <= i < |Tally(s)| ==> Tally(s)[i].key in s && Tally(s)[i].count > 0
    ensures forall x :: x in s ==> Counted(x, Count(s, x)) in Tally(s)
  {
    var t := Tally(s);
    forall i | 0 <= i < |t|
      ensures t[i].key in s && t[i].count > 0
    {
      assert KeysOf(t)[i] == t[i].key;
      CountPresent(s, t[i].key);
    }
    forall x | x in s
      ensures Counted(x, Count(s, x)) in t
    {
      var k :| 0 <= k < |s| && s[k] == x;
      assert x in Distinct(s);
      var i :| 0 <= i < |KeysOf(t)| && KeysOf(t)[i] == x;
      assert t[i] == Counted(x, Count(s, x));
    }
  }

  function CountOf<T>(c: Counted<T>): int
  {
    c.count
  }

  /**
   * `Array.from(counts.entries()).sort((a, b) => b.count - a.count).slice(0, k)`
   * over the tally of `s`: at most `k` entries, one per element, with its true
   * count, largest first, and no element left out counts more than one kept.
   */
  function TopCounts<T(==)>(s: seq<T>, k: nat): (r: seq<Counted<T>>)
    ensures |r| == Min(k, |Distinct(s)|)
    ensures SortedDesc(r, CountOf)
    ensures NoDuplicates(KeysOf(r))
    ensures forall i :: 0 <= i < |r| ==> r[i].key in s && r[i].count == Count(s, r[i].key)
    ensures forall x :: x in s && x !in KeysOf(r) ==> forall i :: 0 <= i < |r| ==> r[i].count >= Count(s, x)
    ensures TiesInFirstOrder(s, r)
    ensures CutInFirstOrder(s, r)
  {
    var t := Tally(s);
    var r := TopK(t, CountOf, k);
    assert |KeysOf(t)| == |Distinct(s)|;
    TopEntriesCounted(s, t, r);
    TopKDistinctKeys(t, r);
    TopEntriesDominate(s, t, r);
    TopTiesFirstSeen(s, k, t, r);
    r
  }

  /** Entries with equal counts are listed in the order their keys first occur in `s`. */
  predicate TiesInFirstOrder<T(==)>(s: seq<T>, r: seq<Counted<T>>)
  {
    forall i, j :: 0 <= i < j < |r| && r[i].count == r[j].count ==> FirstSeen(s, r[i]) < FirstSeen(s, r[j])
  }

  /** An element of `s` left out of `r` with the count of a kept entry first occurs after that entry's key. */
  predicate CutInFirstOrder<T(==)>(s: seq<T>, r: seq<Counted<T>>)
  {
    forall x, i :: x in s && x !in KeysOf(r) && 0 <= i < |r| && r[i].count == Count(s, x) ==>
      FirstSeen(s, r[i]) < FirstIndex(s, x)
  }

  /** The stable sort's tie rule, carried to the tally's first-occurrence order. */
  lemma TopTiesFirstSeen<T>(s: seq<T>, k: nat, t: seq<Counted<T>>, r: seq<Counted<T>>)
    requires t == Tally(s) && r == TopK(t, CountOf, k)
    requires forall i :: 0 <= i < |r| ==> r[i].key in s
    ensures TiesInFirstOrder(s, r)
    ensures CutInFirstOrder(s, r)
  {
    TallyRanked(s);
    TopKRanksTies(t, CountOf, k, RankIn(s));
    TopTiesInOrder(s, r);
    TopCutInOrder(s, t, r);
  }

  /** Where an entry's key first occurs in `s`; past the end for a key that does not. */
  function FirstSeen<T(==)>(s: seq<T>, c: Counted<T>): int
  {
    if c.key in s then FirstIndex(s, c.key) else |s|
  }

  function RankIn<T(==)>(s: seq<T>): Counted<T> -> int
  {
    c => FirstSeen(s, c)
  }

  /** The tally lists its entries in the order their keys first occur. */
  lemma TallyRanked<T>(s: seq<T>)
    ensures RankIncreasing(Tally(s), RankIn(s))
  {
    var t := Tally(s);
    forall i, j | 0 <= i < j < |t| ensures RankIn(s)(t[i]) < RankIn(s)(t[j]) {
      assert KeysOf(t)[i] == t[i].key && KeysOf(t)[j] == t[j].key;
    }
  }

  /** Ranked ties among counted entries are ties in first-occurrence order. */
  lemma TopTiesInOrder<T>(s: seq<T>, r: seq<Counted<T>>)
    requires forall i :: 0 <= i < |r| ==> r[i].key in s
    requires TiesRanked(r, CountOf, RankIn(s))
    ensures TiesInFirstOrder(s, r)
  {
    forall i, j | 0 <= i < j < |r| && r[i].count == r[j].count
      ensures FirstSeen(s, r[i]) < FirstSeen(s, r[j])
    {
      assert CountOf(r[i]) == CountOf(r[j]);
      assert RankIn(s)(r[i]) < RankIn(s)(r[j]);
    }
  }

  /** An element left out with the count of a kept entry first occurs after that entry's key. */
  lemma TopCutInOrder<T>(s: seq<T>, t: seq<Counted<T>>, r: seq<Counted<T>>)
    requires t == Tally(s)
    requires forall i :: 0 <= i < |r| ==> r[i].key in s
    requires CutRanked(t, r, CountOf, RankIn(s))
    ensures CutInFirstOrder(s, r)
  {
    forall x, i | x in s && x !in KeysOf(r) && 0 <= i < |r| && r[i].count == Count(s, x)
      ensures FirstSeen(s, r[i]) < FirstIndex(s, x)
    {
      var j := TallyEntry(s, x);
      assert t[j] !in r;
      assert CountOf(r[i]) == CountOf(t[j]);
      assert RankIn(s)(r[i]) < RankIn(s)(t[j]);
    }
  }

  lemma TopEntriesCounted<T>(s: seq<T>, t: seq<Counted<T>>, r: seq<Counted<T>>)
    requires TallyOf(s, t)
    requires multiset(r) <= multiset(t)
    ensures forall i :: 0 <= i < |r| ==> r[i].key in s && r[i].count == Count(s, r[i].key)
  {
    forall i | 0 <= i < |r|
      ensures r[i].key in s && r[i].count == Count(s, r[i].key)
    {
      assert r[i] in multiset(r);
      var m :| 0 <= m < |t| && t[m] == r[i];
      assert KeysOf(t)[m] == r[i].key;
    }
  }

  lemma TopEntriesDominate<T>(s: seq<T>, t: seq<Counted<T>>, r: seq<Counted<T>>)
    requires t == Tally(s)
    requires forall j :: 0 <= j < |t| && t[j] !in r ==> forall i :: 0 <= i < |r| ==> CountOf(r[i]) >= CountOf(t[j])
    ensures forall x :: x in s && x !in KeysOf(r) ==> forall i :: 0 <= i < |r| ==> r[i].count >= Count(s, x)
  {
    forall x | x in s && x !in KeysOf(r)
      ensures forall i :: 0 <= i < |r| ==> r[i].count >= Count(s, x)
    {
      var j := TallyEntry(s, x);
      assert t[j] !in r;
    }
  }

  /** The index of `x`'s entry in the tally. */
  lemma TallyEntry<T>(s: seq<T>, x: T) returns (j: nat)
    requires x in s
    ensures j < |Tally(s)| && Tally(s)[j] == Counted(x, Count(s, x))
  {
    var t := Tally(s);
    assert x in Distinct(s);
    j :| 0 <= j < |KeysOf(t)| && KeysOf(t)[j] == x;
  }

  /** A sub-multiset of entries with distinct keys has distinct keys. */
  lemma TopKDistinctKeys<T>(t: seq<Counted<T>>, r: seq<Counted<T>>)
    requires NoDuplicates(KeysOf(t))
    requires multiset(r) <= multiset(t)
    ensures NoDuplicates(KeysOf(r))
  {
    assert NoDuplicates(t) by {
      forall a, b | 0 <= a < b < |t| ensures t[a] != t[b] {
        assert KeysOf(t)[a] != KeysOf(t)[b];
      }
    }
    forall i, j | 0 <= i < j < |r| ensures KeysOf(r)[i] != KeysOf(r)[j] {
      if r[i].key == r[j].key {
        assert r[i] in multiset(t) && r[j] in multiset(t);
        var a :| 0 <= a < |t| && t[a] == r[i];
        var b :| 0 <= b < |t| && t[b] == r[j];
        assert KeysOf(t)[a] == KeysOf(t)[b];
        MultisetTwice(r, i, j);
        NoDuplicatesOnce(t, r[i]);
        assert false;
      }
    }
  }
}

=== FILE: cyclic.dfy ===
/**
 * Wrap-around stepping through `n` positions, written the way the portfolio
 * writes it in the carousel (`goToNext`/`goToPrevious`) and in the screenshot
 * gallery (`nextScreenshot`/`prevScreenshot`): compare with the end, jump to
 * the other end, otherwise step by one.
 */
module Cyclic {

  /** `prev === n - 1 ? 0 : prev + 1` */
  function Next(i: int, n: int): (r: int)
    ensures 0 <= i < n ==> 0 <= r < n && r == (i + 1) % n
  {
    if i == n - 1 then 0 else i + 1
  }

  /** `prev === 0 ? n - 1 : prev - 1` */
  function Prev(i: int, n: int): (r: int)
    ensures 0 <= i < n ==> 0 <= r < n && r == (i - 1) % n
  {
    if i == 0 then n - 1 else i - 1
  }

  /** Within range, one step forward and one step back cancel, in either order. */
  lemma NextPrevInverse(i: int, n: int)
    requires 0 <= i < n
    ensures Prev(Next(i, n), n) == i
    ensures Next(Prev(i, n), n) == i
  {
  }
}

=== FILE: keyboard_navigation.dfy ===
/**
 * `useKeyboardNavigation.ts`: the carousel's key handler. It reports what a
 * key press does (whether the default is prevented, and how often each
 * callback runs); `OnCarousel` applies that to the carousel it drives.
 */
module KeyboardNavigation {
  import Carousel

  datatype KeyEffect = KeyEffect(prevented: bool, previousCalls: nat, nextCalls: nat)

  const NoEffect := KeyEffect(false, 0, 0)

  /** `handleKeyPress`. */
  function HandleKeyPress(enabled: bool, key: string): (r: KeyEffect)
    ensures !enabled ==> r == NoEffect
    ensures enabled && key == "ArrowLeft" ==> r == KeyEffect(true, 1, 0)
    ensures enabled && key == "ArrowRight" ==> r == KeyEffect(true, 0, 1)
    ensures key != "ArrowLeft" && key != "ArrowRight" ==> r == NoEffect
    ensures r.prevented <==> r.previousCalls + r.nextCalls == 1
  {
    if !enabled then NoEffect
    else if key == "ArrowLeft" then KeyEffect(true, 1, 0)
    else if key == "ArrowRight" then KeyEffect(true, 0, 1)
    else NoEffect
  }

  /** The projects carousel wires `onPrevious` to `goToPrevious` and `onNext` to `goToNext`. */
  function OnCarousel<T>(c: Carousel.CarouselState<T>, e: KeyEffect): (r: Carousel.CarouselState<T>)
    requires c.itemsPerPage > 0
    requires e.previousCalls + e.nextCalls <= 1
    ensures r.items == c.items && r.itemsPerPage == c.itemsPerPage
  {
    if e.previousCalls == 1 then Carousel.GoToPrevious(c)
    else if e.nextCalls == 1 then Carousel.GoToNext(c)
    else c
  }

  /** On a valid page, ArrowLeft then ArrowRight (or the reverse) returns to the same page; other keys do nothing. */
  lemma ArrowsUndoEachOther<T>(c: Carousel.CarouselState<T>, key: string)
    requires c.itemsPerPage > 0 && 0 <= c.currentPage < Carousel.Pages(c)
    ensures OnCarousel(OnCarousel(c, HandleKeyPress(true, "ArrowLeft")), HandleKeyPress(true, "ArrowRight")) == c
    ensures OnCarousel(OnCarousel(c, HandleKeyPress(true, "ArrowRight")), HandleKeyPress(true, "ArrowLeft")) == c
    ensures key != "ArrowLeft" && key != "ArrowRight" ==> OnCarousel(c, HandleKeyPress(true, key)) == c
    ensures OnCarousel(c, HandleKeyPress(false, key)) == c
  {
    Carousel.NextPreviousInverse(c);
  }
}

=== FILE: lazy_loading.dfy ===
/**
 * `useLazyLoading.ts`: the visibility flags of `useLazyLoading`, the load
 * state of `useLazyImage` and `useLazyComponent`, the resource-type choice of
 * `usePreload` and the index window of `useVirtualScroll`. Intersection
 * observer callbacks and image/import completions arrive as events.
 */
module LazyLoading {
  import opened Wrappers
  import opened Seqs
  import opened Numbers
  import Text

  // ---------------------------------------------------------------- useLazyLoading

  datatype Visibility = Visibility(isVisible: bool, hasBeenVisible: bool)

  const InitialVisibility := Visibility(false, false)

  /**
   * One intersection callback. (With `triggerOnce` the element is unobserved
   * on first sight, but the callback's identity changes with `hasBeenVisible`,
   * so the effect subscribes again at once: every later event still arrives.)
   */
  function OnIntersection(v: Visibility, isIntersecting: bool): (r: Visibility)
    ensures r.isVisible == isIntersecting
    ensures v.hasBeenVisible ==> r.hasBeenVisible
    ensures r.hasBeenVisible ==> v.hasBeenVisible || isIntersecting
  {
    var seen := if isIntersecting && !v.hasBeenVisible then true else v.hasBeenVisible;
    Visibility(isIntersecting, seen)
  }

  /** The state after a sequence of intersection callbacks. */
  function RunIntersections(v: Visibility, events: seq<bool>): (r: Visibility)
    ensures |events| > 0 ==> r.isVisible == events[|events| - 1]
    ensures |events| == 0 ==> r == v
    ensures r.hasBeenVisible <==> v.hasBeenVisible || true in events
    decreases |events|
  {
    if |events| == 0 then v
    else
      var r := OnIntersection(RunIntersections(v, events[..|events| - 1]), events[|events| - 1]);
      assert events == events[..|events| - 1] + [events[|events| - 1]];
      r
  }

  // ---------------------------------------------------------------- useLazyImage

  const ImageError := "Failed to load image"

  datatype ImageState = ImageState(src: string, isLoaded: bool, isLoading: bool, error: Option<string>)

  function InitialImage(placeholder: string): (s: ImageState)
    ensures s.src == placeholder && !s.isLoaded && !s.isLoading && s.error == None
  {
    ImageState(placeholder, false, false, None)
  }

  /** `loadImage`: ignored while loading or once loaded. */
  function LoadImage(s: ImageState): (r: ImageState)
    ensures s.isLoading || s.isLoaded ==> r == s
    ensures !(s.isLoading || s.isLoaded) ==> r.isLoading && r.error == None && r.src == s.src && !r.isLoaded
  {
    if s.isLoading || s.isLoaded then s
    else s.(isLoading := true, error := None)
  }

  /** `img.onload`. */
  function ImageLoaded(s: ImageState, imageSrc: string): (r: ImageState)
    ensures r.src == imageSrc && r.isLoaded && !r.isLoading && r.error == s.error
  {
    s.(src := imageSrc, isLoaded := true, isLoading := false)
  }

  /** `img.onerror`: the placeholder stays. */
  function ImageFailed(s: ImageState): (r: ImageState)
    ensures r.error == Some(ImageError) && !r.isLoading && r.src == s.src && r.isLoaded == s.isLoaded
  {
    s.(error := Some(ImageError), isLoading := false)
  }

  /**
   * What reaches the hook: the element entering the viewport (which calls
   * `loadImage`; the observer only runs while the image is not loaded) and the
   * completion of the request `loadImage` started.
   */
  datatype ImageEvent = Intersect | Load | Fail

  function ImageStep(s: ImageState, imageSrc: string, e: ImageEvent): ImageState
  {
    match e
    case Intersect => if s.isLoaded then s else LoadImage(s)
    case Load => if s.isLoading then ImageLoaded(s, imageSrc) else s
    case Fail => if s.isLoading then ImageFailed(s) else s
  }

  /**
   * The image's invariant: it shows the placeholder until it has loaded and
   * `imageSrc` afterwards; a loaded image is neither loading nor in error; an
   * error is the fixed message and only outside a load.
   */
  predicate ImageInvariant(s: ImageState, placeholder: string, imageSrc: string)
  {
    && (s.isLoaded ==> s.src == imageSrc && !s.isLoading && s.error == None)
    && (!s.isLoaded ==> s.src == placeholder)
    && (s.error.Some? ==> s.error == Some(ImageError) && !s.isLoading)
  }

  lemma ImageStepInvariant(s: ImageState, placeholder: string, imageSrc: string, e: ImageEvent)
    requires ImageInvariant(s, placeholder, imageSrc)
    ensures ImageInvariant(ImageStep(s, imageSrc, e), placeholder, imageSrc)
    ensures s.isLoaded ==> ImageStep(s, imageSrc, e) == s
  {
  }

  function RunImage(s: ImageState, imageSrc: string, events: seq<ImageEvent>): ImageState
    decreases |events|
  {
    if |events| == 0 then s else RunImage(ImageStep(s, imageSrc, events[0]), imageSrc, events[1..])
  }

  /** From the initial state the invariant holds after any events, and a loaded image stays loaded. */
  lemma {:induction false} RunImageInvariant(s: ImageState, placeholder: string, imageSrc: string,
                                             events: seq<ImageEvent>)
    requires ImageInvariant(s, placeholder, imageSrc)
    ensures ImageInvariant(RunImage(s, imageSrc, events), placeholder, imageSrc)
    ensures s.isLoaded ==> RunImage(s, imageSrc, events) == s
    decreases |events|
  {
    if |events| > 0 {
      ImageStepInvariant(s, placeholder, imageSrc, events[0]);
      RunImageInvariant(ImageStep(s, imageSrc, events[0]), placeholder, imageSrc, events[1..]);
    }
  }

  // ---------------------------------------------------------------- useLazyComponent

  const ComponentError := "Failed to load component"

  datatype ComponentState<T> = ComponentState(
    component: Option<T>, isLoading: bool, error: Option<string>, hasTriggered: bool)

  function InitialComponent<T>(): ComponentState<T>
  {
    ComponentState(None, false, None, false)
  }

  /** `loadComponent`: the new state and whether `importFunction` was called. */
  function LoadComponent<T>(s: ComponentState<T>): (r: (ComponentState<T>, bool))
    ensures r.1 <==> !s.isLoading && s.component.None? && !s.hasTriggered
    ensures r.1 ==> r.0.hasTriggered && r.0.isLoading && r.0.error == None
    ensures !r.1 ==> r.0 == s
  {
    if s.isLoading || s.component.Some? || s.hasTriggered then (s, false)
    else (s.(hasTriggered := true, isLoading := true, error := None), true)
  }

  datatype ComponentEvent<T> = Visible | Resolved(loaded: T) | Rejected

  /** One event and whether it started an import. */
  function ComponentStep<T>(s: ComponentState<T>, e: ComponentEvent<T>): (r: (ComponentState<T>, bool))
    ensures s.hasTriggered ==> r.0.hasTriggered && !r.1
  {
    match e
    case Visible => if s.component.Some? then (s, false) else LoadComponent(s)
    case Resolved(m) => if s.isLoading then (s.(component := Some(m), isLoading := false), false) else (s, false)
    case Rejected => if s.isLoading then (s.(error := Some(ComponentError), isLoading := false), false) else (s, false)
  }

  /** Number of imports started by a sequence of events. */
  function ImportsStarted<T>(s: ComponentState<T>, events: seq<ComponentEvent<T>>): (r: (ComponentState<T>, nat))
    ensures s.hasTriggered ==> r.1 == 0 && r.0.hasTriggered
    decreases |events|
  {
    if |events| == 0 then (s, 0)
    else
      var (t, started) := ComponentStep(s, events[0]);
      var (u, n) := ImportsStarted(t, events[1..]);
      (u, n + (if started then 1 else 0))
  }

  /**
   * The import runs at most once per hook instance, whatever the events: a
   * failed import is not retried.
   */
  lemma {:induction false} ImportAtMostOnce<T>(events: seq<ComponentEvent<T>>)
    ensures ImportsStarted(InitialComponent<T>(), events).1 <= 1
  {
    if |events| > 0 {
      var (t, started) := ComponentStep(InitialComponent<T>(), events[0]);
      if !started {
        assert t == InitialComponent<T>();
        ImportAtMostOnce(events[1..]);
      }
    }
  }

  // ---------------------------------------------------------------- usePreload

  /** The `as` attribute of a preload link. */
  datatype ResourceKind = Style | Script | Font | Image | Fetch

  datatype PreloadLink = PreloadLink(href: string, kind: ResourceKind, crossOrigin: Option<string>)

  /** `resource.split('.').pop()?.toLowerCase()`. */
  function Extension(resource: string): (ext: string)
    ensures '.' !in ext
    ensures |ext| <= |resource|
  {
    Text.Lower(Text.LastPiece(resource, '.'))
  }

  const FontExtensions: seq<string> := ["woff", "woff2", "ttf", "otf"]
  const ImageExtensions: seq<string> := ["jpg", "jpeg", "png", "webp", "svg"]

  function KindOf(ext: string): (k: ResourceKind)
    ensures k == Style <==> ext == "css"
    ensures k == Script <==> ext == "js"
    ensures k == Font <==> ext in FontExtensions
    ensures k == Image <==> ext in ImageExtensions
    ensures k == Fetch <==> ext != "css" && ext != "js" && ext !in FontExtensions && ext !in ImageExtensions
  {
    if ext == "css" then Style
    else if ext == "js" then Script
    else if ext in FontExtensions then Font
    else if ext in ImageExtensions then Image
    else Fetch
  }

  /** The link element built for one resource. */
  function PreloadLinkFor(resource: string): (l: PreloadLink)
    ensures l.href == resource
    ensures l.crossOrigin.Some? <==> l.kind == Font || l.kind == Fetch
    ensures l.crossOrigin.Some? ==> l.crossOrigin.value == "anonymous"
  {
    var kind := KindOf(Extension(resource));
    PreloadLink(resource, kind, if kind == Font || kind == Fetch then Some("anonymous") else None)
  }

  /** `usePreload`: nothing unless `condition`; one link per resource, in order. */
  function Preload(resources: seq<string>, condition: bool): (links: seq<PreloadLink>)
    ensures !condition ==> links == []
    ensures condition ==> |links| == |resources|
    ensures condition ==> forall i :: 0 <= i < |resources| ==> links[i] == PreloadLinkFor(resources[i])
  {
    if condition then seq(|resources|, i requires 0 <= i < |resources| => PreloadLinkFor(resources[i])) else []
  }

  /** The extension is what follows the last dot, lowercased. */
  lemma {:induction false} ExtensionAfterLastDot(name: string, ext: string)
    requires '.' !in ext
    ensures Extension(name + "." + ext) == Text.Lower(ext)
    decreases |ext|
  {
    if |ext| == 0 {
    } else {
      var s := name + "." + ext;
      var init := ext[..|ext| - 1];
      assert s[..|s| - 1] == name + "." + init;
      ExtensionAfterLastDot(name, init);
      assert Text.LastPiece(s, '.') == Text.LastPiece(name + "." + init, '.') + [ext[|ext| - 1]];
      assert init + [ext[|ext| - 1]] == ext;
    }
  }

  /** A file without a dot is looked up by its whole (lowercased) name. */
  lemma NoDotWholeName(resource: string)
    requires '.' !in resource
    ensures Extension(resource) == Text.Lower(resource)
  {
    var r := Text.LastPiece(resource, '.');
    assert |r| == |resource|;
  }

  // ---------------------------------------------------------------- useVirtualScroll

  datatype VirtualWindow = VirtualWindow(startIndex: int, endIndex: int, totalHeight: real, offsetY: real)

  /** `c` rows are the fewest that reach the viewport's bottom edge. */
  predicate RowsToBottom(scrollTop: real, containerHeight: real, itemHeight: real, c: int)
  {
    RowsToReach(scrollTop + containerHeight, itemHeight, c)
  }

  /** The window `useVirtualScroll` derives from the last scroll offset. */
  function VirtualScroll(itemCount: int, itemHeight: real, containerHeight: real, overscan: int,
                         scrollTop: real): (w: VirtualWindow)
    requires itemHeight > 0.0
    ensures w.startIndex >= 0
    ensures w.endIndex <= itemCount - 1
    ensures w.totalHeight == itemCount as real * itemHeight
    ensures w.offsetY == w.startIndex as real * itemHeight
    ensures overscan >= 0 ==> w.offsetY <= MaxReal(scrollTop, 0.0)
    ensures forall f :: RowOf(scrollTop, itemHeight, f) ==> w.startIndex == Max(0, f - overscan)
    ensures forall c :: RowsToBottom(scrollTop, containerHeight, itemHeight, c) ==>
              w.endIndex <= c + overscan && (w.endIndex == itemCount - 1 || w.endIndex == c + overscan)
  {
    var first := Floor(scrollTop / itemHeight);
    var startIndex := Max(0, first - overscan);
    var endIndex := Min(itemCount - 1, Ceil((scrollTop + containerHeight) / itemHeight) + overscan);
    StartAtMostScroll(scrollTop, itemHeight, overscan);
    FloorIsRow(scrollTop, itemHeight);
    CeilIsReach(scrollTop + containerHeight, itemHeight);
    VirtualWindow(startIndex, endIndex, itemCount as real * itemHeight, startIndex as real * itemHeight)
  }

  /**
   * The window is determined by its description: from `overscan` rows above
   * the row holding `scrollTop` to `overscan` rows past the fewest rows that
   * reach the viewport's bottom edge, but no further than the last item.
   */
  lemma VirtualWindowDetermined(itemCount: int, itemHeight: real, containerHeight: real, overscan: int,
                                scrollTop: real, row: int, rows: int, w: VirtualWindow)
    requires itemHeight > 0.0
    requires RowOf(scrollTop, itemHeight, row)
    requires RowsToBottom(scrollTop, containerHeight, itemHeight, rows)
    requires w.startIndex == Max(0, row - overscan)
    requires w.endIndex == Min(itemCount - 1, rows + overscan)
    requires w.totalHeight == itemCount as real * itemHeight
    requires w.offsetY == w.startIndex as real * itemHeight
    ensures w == VirtualScroll(itemCount, itemHeight, containerHeight, overscan, scrollTop)
  {
    FloorIsRow(scrollTop, itemHeight);
    CeilIsReach(scrollTop + containerHeight, itemHeight);
  }

  /** The first rendered row, overscan included, starts no lower than the scroll offset. */
  lemma StartAtMostScroll(scrollTop: real, itemHeight: real, overscan: int)
    requires itemHeight > 0.0
    ensures var start := Max(0, Floor(scrollTop / itemHeight) - overscan);
            overscan >= 0 ==> start as real * itemHeight <= MaxReal(scrollTop, 0.0)
  {
    var first := Floor(scrollTop / itemHeight);
    DivBounds(scrollTop, itemHeight, first);
    var start := Max(0, first - overscan);
    if overscan >= 0 && start > 0 {
      MulLe(start as real, first as real, itemHeight);
    } else {
      assert start == 0 || overscan < 0;
      assert start == 0 ==> start as real * itemHeight == 0.0;
    }
  }

  /**
   * With a non-negative overscan, every item overlapping the viewport
   * `[scrollTop, scrollTop + containerHeight)` is inside the rendered window.
   */
  lemma VirtualScrollCovers(itemCount: int, itemHeight: real, containerHeight: real, overscan: int,
                            scrollTop: real, i: int)
    requires itemHeight > 0.0 && overscan >= 0
    requires 0 <= i < itemCount
    requires i as real * itemHeight < scrollTop + containerHeight
    requires scrollTop < (i + 1) as real * itemHeight
    ensures var w := VirtualScroll(itemCount, itemHeight, containerHeight, overscan, scrollTop);
            w.startIndex <= i <= w.endIndex
  {
    FloorAtMost(scrollTop, itemHeight, i);
    BelowCeil(scrollTop + containerHeight, itemHeight, i);
  }
}

=== FILE: numbers.dfy ===
/** `Math.floor`, `Math.ceil` and `Math.abs` on JavaScript numbers, modelled as reals. */
module Numbers {

  function Floor(x: real): (f: int)
    ensures f as real <= x < f as real + 1.0
  {
    x.Floor
  }

  function Ceil(x: real): (c: int)
    ensures c as real - 1.0 < x <= c as real
  {
    -((-x).Floor)
  }

  function Abs(x: real): (a: real)
    ensures a >= 0.0 && (a == x || a == -x)
  {
    if x < 0.0 then -x else x
  }

  function MaxReal(a: real, b: real): real { if a < b then b else a }
  function MinReal(a: real, b: real): real { if a < b then a else b }

  /** `x / h` lies in `[f, f + 1)` exactly when `x` lies in `[f*h, (f+1)*h)`. */
  lemma DivBounds(x: real, h: real, f: int)
    requires h > 0.0
    requires f as real <= x / h < f as real + 1.0
    ensures f as real * h <= x < (f + 1) as real * h
  {
    var q := x / h;
    assert q * h == x;
    MulLe(f as real, q, h);
    assert f as real * h <= x;
    var g := (f + 1) as real;
    assert g == f as real + 1.0;
    MulLt(q, g, h);
    assert x < g * h;
  }

  lemma CeilBounds(x: real, h: real, c: int)
    requires h > 0.0
    requires c as real - 1.0 < x / h <= c as real
    ensures (c - 1) as real * h < x <= c as real * h
  {
    assert (x / h) * h == x;
    MulLt((c - 1) as real, x / h, h);
    MulLe(x / h, c as real, h);
  }

  lemma MulLe(a: real, b: real, h: real)
    requires a <= b && h > 0.0
    ensures a * h <= b * h
  {
    assert b * h - a * h == (b - a) * h;
  }

  lemma MulLt(a: real, b: real, h: real)
    requires a < b && h > 0.0
    ensures a * h < b * h
  {
    assert b * h - a * h == (b - a) * h;
  }

  /** A quotient exceeds `c` when the dividend exceeds `c` times the (positive) divisor. */
  lemma QuotientAbove(x: real, h: real, c: real)
    requires h > 0.0 && x > c * h
    ensures x / h > c
  {
    var q := x / h;
    assert q * h == x;
    assert (q - c) * h == x - c * h;
    PositiveFactor(q - c, h);
  }

  lemma PositiveFactor(a: real, h: real)
    requires h > 0.0 && a * h > 0.0
    ensures a > 0.0
  {
  }

  lemma LessByFactor(a: int, b: int, h: real)
    requires h > 0.0
    requires a as real * h < b as real * h
    ensures a < b
  {
    if a >= b {
      MulLe(b as real, a as real, h);
    }
  }

  /** An item whose top edge is above `x` has an index below `ceil(x / h)`. */
  lemma BelowCeil(x: real, h: real, i: int)
    requires h > 0.0
    requires i as real * h < x
    ensures i < Ceil(x / h)
  {
    var c := Ceil(x / h);
    CeilBounds(x, h, c);
    LessByFactor(i, c, h);
  }

  /** An item reaching below `x` has an index at least `floor(x / h)`. */
  lemma FloorAtMost(x: real, h: real, i: int)
    requires h > 0.0
    requires x < (i + 1) as real * h
    ensures Floor(x / h) <= i
  {
    var f := Floor(x / h);
    DivBounds(x, h, f);
    LessByFactor(f, i + 1, h);
  }
  /** Row `f` of height `h` (rows start at 0) is the one containing offset `x`. */
  predicate RowOf(x: real, h: real, f: int)
  {
    f as real * h <= x < (f + 1) as real * h
  }

  /** `c` rows of height `h` are the fewest that reach down to offset `x`. */
  predicate RowsToReach(x: real, h: real, c: int)
  {
    (c - 1) as real * h < x <= c as real * h
  }

  /** `floor(x / h)` is the one row containing `x`. */
  lemma FloorIsRow(x: real, h: real)
    requires h > 0.0
    ensures RowOf(x, h, Floor(x / h))
    ensures forall f :: RowOf(x, h, f) ==> f == Floor(x / h)
  {
    var g := Floor(x / h);
    DivBounds(x, h, g);
    forall f | RowOf(x, h, f)
      ensures f == g
    {
      LessByFactor(f, g + 1, h);
      LessByFactor(g, f + 1, h);
    }
  }

  /** `ceil(x / h)` is the one row count reaching exactly down to `x`. */
  lemma CeilIsReach(x: real, h: real)
    requires h > 0.0
    ensures RowsToReach(x, h, Ceil(x / h))
    ensures forall c :: RowsToReach(x, h, c) ==> c == Ceil(x / h)
  {
    var d := Ceil(x / h);
    CeilBounds(x, h, d);
    forall c | RowsToReach(x, h, c)
      ensures c == d
    {
      LessByFactor(d - 1, c, h);
      LessByFactor(c - 1, d, h);
    }
  }

  /** A part of a positive whole, divided by the whole, lies in `[0, 1]`. */
  lemma UnitQuotient(x: real, m: real)
    requires m > 0.0 && 0.0 <= x <= m
    ensures 0.0 <= x / m <= 1.0
  {
    var q := x / m;
    assert q * m == x;
    if q < 0.0 {
      MulLt(q, 0.0, m);
    }
    if q > 1.0 {
      MulLt(1.0, q, m);
    }
  }
}

=== FILE: performance_grade.dfy ===
/**
 * `PerformanceMonitor.tsx`: `getScoreColor`, the grading of a measured metric
 * against its good and needs-improvement thresholds. Measuring the metrics
 * is not modelled; values are parameters.
 */
module PerformanceGrade {
  import opened Wrappers

  datatype Grade = Good | NeedsImprovement | Poor | Neutral

  /** The CSS class each grade renders as. */
  function GradeClass(g: Grade): (r: string)
    ensures r == "good" <==> g == Good
    ensures r == "needs-improvement" <==> g == NeedsImprovement
    ensures r == "poor" <==> g == Poor
    ensures r == "neutral" <==> g == Neutral
  {
    match g
    case Good => "good"
    case NeedsImprovement => "needs-improvement"
    case Poor => "poor"
    case Neutral => "neutral"
  }

  /** A metric's two thresholds: at most `good` is good, at most `fair` needs improvement. */
  datatype Thresholds = Thresholds(good: real, fair: real)

  /** The metrics `getScoreColor` knows, with their thresholds. */
  function ThresholdsOf(metric: string): (t: Option<Thresholds>)
  {
    if metric == "lcp" then Some(Thresholds(2500.0, 4000.0))
    else if metric == "cls" then Some(Thresholds(0.1, 0.25))
    else if metric == "fid" then Some(Thresholds(100.0, 300.0))
    else if metric == "fcp" then Some(Thresholds(1800.0, 3000.0))
    else None
  }

  /** `getScoreColor(metric, value)`. */
  function ScoreColor(metric: string, value: real): (g: Grade)
    ensures ThresholdsOf(metric).None? <==> g == Neutral
    ensures ThresholdsOf(metric).Some? ==>
              var t := ThresholdsOf(metric).value;
              (g == Good <==> value <= t.good)
              && (g == NeedsImprovement <==> t.good < value <= t.fair)
              && (g == Poor <==> value > t.fair)
  {
    match ThresholdsOf(metric)
    case None => Neutral
    case Some(t) => if value <= t.good then Good else if value <= t.fair then NeedsImprovement else Poor
  }

  /** Worse grades rank higher; neutral ranks with none of them. */
  function Badness(g: Grade): int
  {
    match g
    case Good => 0
    case NeedsImprovement => 1
    case Poor => 2
    case Neutral => 0
  }

  /** For every named metric a larger value never gets a better grade. */
  lemma LargerIsNeverBetter(metric: string, a: real, b: real)
    requires a <= b
    ensures Badness(ScoreColor(metric, a)) <= Badness(ScoreColor(metric, b))
  {
  }

  /** Each named metric's thresholds are ordered, so every grade is reachable. */
  lemma ThresholdsOrdered(metric: string)
    requires ThresholdsOf(metric).Some?
    ensures ThresholdsOf(metric).value.good < ThresholdsOf(metric).value.fair
    ensures ScoreColor(metric, ThresholdsOf(metric).value.good) == Good
    ensures ScoreColor(metric, ThresholdsOf(metric).value.fair) == NeedsImprovement
    ensures ScoreColor(metric, ThresholdsOf(metric).value.fair + 1.0) == Poor
  {
  }

  /** The "First Paint" and "First Contentful Paint" rows both use the fcp thresholds. */
  function FirstPaintGrade(firstPaint: real): (g: Grade)
    ensures g == ScoreColor("fcp", firstPaint)
    ensures g != Neutral
  {
    ScoreColor("fcp", firstPaint)
  }
}

=== FILE: performance_optimizations.dfy ===
/**
 * `performanceOptimizations.ts`: the bounded insertion-order cache
 * `MemoryManager` and the virtual-list window `calculateVisibleItems`.
 */
module PerformanceOptimizations {
  import opened Wrappers
  import opened Seqs
  import opened Numbers

  /** One entry of the underlying `Map<string, T>`. */
  datatype Entry<V> = Entry(key: string, value: V)

  /**
   * The cache: its entries in insertion order (a JavaScript `Map` iterates in
   * insertion order) and the size bound given to the constructor.
   */
  datatype Cache<V> = Cache(entries: seq<Entry<V>>, maxSize: int)

  /** The constructor's default size bound. */
  const DefaultMaxSize: int := 100

  function Keys<V>(entries: seq<Entry<V>>): (ks: seq<string>)
    ensures |ks| == |entries|
    ensures forall i :: 0 <= i < |entries| ==> ks[i] == entries[i].key
  {
    seq(|entries|, i requires 0 <= i < |entries| => entries[i].key)
  }

  /** A map holds each key at most once. */
  predicate Valid<V>(c: Cache<V>)
  {
    NoDuplicates(Keys(c.entries))
  }

  /** `new MemoryManager(maxSize)`. */
  function NewCache<V>(maxSize: int): (c: Cache<V>)
    ensures Valid(c) && Size(c) == 0 && c.maxSize == maxSize
  {
    Cache([], maxSize)
  }

  /** The value stored under `k`, if any (the first entry with that key). */
  function Lookup<V>(entries: seq<Entry<V>>, k: string): (r: Option<V>)
    ensures r.Some? <==> k in Keys(entries)
    ensures r.Some? ==> Entry(k, r.value) in entries
    decreases |entries|
  {
    if |entries| == 0 then None
    else if entries[0].key == k then Some(entries[0].value)
    else
      var r := Lookup(entries[1..], k);
      assert Keys(entries) == [entries[0].key] + Keys(entries[1..]);
      r
  }

  lemma KeysCons<V>(e: Entry<V>, rest: seq<Entry<V>>)
    ensures Keys([e] + rest) == [e.key] + Keys(rest)
  {
  }

  /** `Map.prototype.set`: overwrite in place if present, else append. */
  function Put<V>(entries: seq<Entry<V>>, k: string, v: V): (r: seq<Entry<V>>)
    ensures Keys(r) == if k in Keys(entries) then Keys(entries) else Keys(entries) + [k]
    ensures Lookup(r, k) == Some(v)
    ensures forall k' :: k' != k ==> Lookup(r, k') == Lookup(entries, k')
    decreases |entries|
  {
    if |entries| == 0 then [Entry(k, v)]
    else
      assert entries == [entries[0]] + entries[1..];
      KeysCons(entries[0], entries[1..]);
      if entries[0].key == k then
        KeysCons(Entry(k, v), entries[1..]);
        [Entry(k, v)] + entries[1..]
      else
        var rest := Put(entries[1..], k, v);
        KeysCons(entries[0], rest);
        [entries[0]] + rest
  }

  /** `get`. */
  function Get<V>(c: Cache<V>, k: string): Option<V>
  {
    Lookup(c.entries, k)
  }

  /** `has`. */
  predicate Has<V>(c: Cache<V>, k: string)
  {
    k in Keys(c.entries)
  }

  /** `size`. */
  function Size<V>(c: Cache<V>): nat
  {
    |c.entries|
  }

  /** `clear`. */
  function Clear<V>(c: Cache<V>): (r: Cache<V>)
    ensures Size(r) == 0 && r.maxSize == c.maxSize
    ensures forall k :: !Has(r, k) && Get(r, k) == None
  {
    c.(entries := [])
  }

  /** Whether a `set` on `c` first evicts the oldest entry. */
  predicate Evicts<V>(c: Cache<V>)
  {
    |c.entries| >= c.maxSize && |c.entries| > 0
  }

  /**
   * `set`: when the cache is full, delete the first key in insertion order
   * (whatever `k` is), then store `v` under `k`.
   */
  function Set<V>(c: Cache<V>, k: string, v: V): (r: Cache<V>)
    ensures r.maxSize == c.maxSize
    ensures Get(r, k) == Some(v) && Has(r, k)
    ensures var kept := if Evicts(c) then Keys(c.entries)[1..] else Keys(c.entries);
            Keys(r.entries) == if k in kept then kept else kept + [k]
  {
    var kept := if Evicts(c) then c.entries[1..] else c.entries;
    assert Keys(kept) == if Evicts(c) then Keys(c.entries)[1..] else Keys(c.entries);
    c.(entries := Put(kept, k, v))
  }

  /** Keys stay distinct across `set`. */
  lemma SetValid<V>(c: Cache<V>, k: string, v: V)
    requires Valid(c)
    ensures Valid(Set(c, k, v))
  {
    var ks := Keys(c.entries);
    var kept := if Evicts(c) then ks[1..] else ks;
    assert NoDuplicates(kept);
  }

  /**
   * With `maxSize >= 1`, a cache within its bound stays within it after `set`.
   * (With `maxSize <= 0` every `set` evicts first, so the size stays at most 1.)
   */
  lemma SetBounded<V>(c: Cache<V>, k: string, v: V)
    requires Valid(c)
    requires Size(c) <= Max(c.maxSize, 1)
    ensures Size(Set(c, k, v)) <= Max(c.maxSize, 1)
  {
    var r := Set(c, k, v);
    assert |Keys(r.entries)| == Size(r);
  }

  /**
   * A full cache loses its oldest key even when the key being set is already
   * present: the oldest key survives only if it is the key being set, and then
   * it moves to the end.
   */
  lemma SetEvictsOldest<V>(c: Cache<V>, k: string, v: V)
    requires Valid(c) && Evicts(c)
    ensures var oldest := c.entries[0].key;
            (oldest != k ==> !Has(Set(c, k, v), oldest))
            && (oldest == k ==> Keys(Set(c, k, v).entries) == Keys(c.entries)[1..] + [k])
  {
    var ks := Keys(c.entries);
    assert ks[0] !in ks[1..];
  }

  /**
   * Re-setting a key that is not evicted keeps its place in insertion order
   * and leaves the cache's size as it was unless something was evicted.
   */
  lemma SetExistingKeepsPosition<V>(c: Cache<V>, k: string, v: V)
    requires Valid(c) && Has(c, k) && !Evicts(c)
    ensures Keys(Set(c, k, v).entries) == Keys(c.entries)
    ensures Size(Set(c, k, v)) == Size(c)
  {
    assert |Keys(Set(c, k, v).entries)| == Size(Set(c, k, v));
  }

  /** `set(k, _)` changes no other key's value except by evicting it. */
  lemma SetFrame<V>(c: Cache<V>, k: string, v: V, other: string)
    requires Valid(c)
    requires other != k
    requires !(Evicts(c) && c.entries[0].key == other)
    ensures Get(Set(c, k, v), other) == Get(c, other)
    ensures Has(Set(c, k, v), other) == Has(c, other)
  {
    if Evicts(c) {
      LookupPastFirst(c.entries, other);
    }
  }

  /** Dropping the first entry changes nothing for any other key. */
  lemma LookupPastFirst<V>(e: seq<Entry<V>>, k: string)
    requires |e| > 0 && e[0].key != k
    ensures Lookup(e[1..], k) == Lookup(e, k)
    ensures (k in Keys(e[1..])) == (k in Keys(e))
  {
    assert Keys(e) == [e[0].key] + Keys(e[1..]);
  }

  /** The window `calculateVisibleItems` returns. */
  datatype Window = Window(startIndex: int, endIndex: int, visibleItems: int)

  /**
   * `calculateVisibleItems`: `overscan` items of slack on each side of the
   * rows under the viewport. The source divides by `itemHeight`, so a zero
   * height is excluded.
   */
  function CalculateVisibleItems(scrollTop: real, containerHeight: real, itemHeight: real,
                                 totalItems: int, overscan: int): (w: Window)
    requires itemHeight > 0.0
    ensures w.startIndex >= 0
    ensures w.startIndex == 0 ||
            ((w.startIndex + overscan) as real * itemHeight <= scrollTop
             && scrollTop < (w.startIndex + overscan + 1) as real * itemHeight)
    ensures (w.visibleItems - 1) as real * itemHeight < containerHeight <= w.visibleItems as real * itemHeight
    ensures forall f :: RowOf(scrollTop, itemHeight, f) ==> w.startIndex == Max(0, f - overscan)
    ensures RowsToReach(containerHeight, itemHeight, w.visibleItems)
    ensures w.endIndex <= totalItems - 1
    ensures w.endIndex <= w.startIndex + w.visibleItems + 2 * overscan
    ensures w.endIndex == totalItems - 1 || w.endIndex == w.startIndex + w.visibleItems + 2 * overscan
    ensures totalItems == 0 && containerHeight >= 0.0 && overscan >= 0 ==> w.endIndex == -1
  {
    var first := Floor(scrollTop / itemHeight);
    var startIndex := Max(0, first - overscan);
    var visibleItems := Ceil(containerHeight / itemHeight);
    var endIndex := Min(totalItems - 1, startIndex + visibleItems + overscan * 2);
    DivBounds(scrollTop, itemHeight, first);
    CeilBounds(containerHeight, itemHeight, visibleItems);
    FloorIsRow(scrollTop, itemHeight);
    Window(startIndex, endIndex, visibleItems)
  }

  /**
   * The window is determined by its description: starting `overscan` rows
   * above the row holding `scrollTop`, spanning the fewest rows that fill the
   * container, and ending at the earlier of the last item and
   * `visibleItems + 2 * overscan` rows past the start.
   */
  lemma WindowDetermined(scrollTop: real, containerHeight: real, itemHeight: real,
                         totalItems: int, overscan: int, row: int, w: Window)
    requires itemHeight > 0.0
    requires RowOf(scrollTop, itemHeight, row)
    requires w.startIndex == Max(0, row - overscan)
    requires RowsToReach(containerHeight, itemHeight, w.visibleItems)
    requires w.endIndex == Min(totalItems - 1, w.startIndex + w.visibleItems + 2 * overscan)
    ensures w == CalculateVisibleItems(scrollTop, containerHeight, itemHeight, totalItems, overscan)
  {
    FloorIsRow(scrollTop, itemHeight);
    CeilIsReach(containerHeight, itemHeight);
  }

  /**
   * With a non-negative overscan and scroll offset, every item that overlaps
   * the viewport `[scrollTop, scrollTop + containerHeight)` lies inside the
   * window.
   */
  lemma {:induction false} WindowCoversViewport(scrollTop: real, containerHeight: real, itemHeight: real,
                                                totalItems: int, overscan: int, i: int)
    requires itemHeight > 0.0 && overscan >= 0 && scrollTop >= 0.0
    requires 0 <= i < totalItems
    requires i as real * itemHeight < scrollTop + containerHeight
    requires scrollTop < (i + 1) as real * itemHeight
    ensures var w := CalculateVisibleItems(scrollTop, containerHeight, itemHeight, totalItems, overscan);
            w.startIndex <= i <= w.endIndex
  {
    var first := Floor(scrollTop / itemHeight);
    var visible := Ceil(containerHeight / itemHeight);
    FloorAtMost(scrollTop, itemHeight, i);
    CoverTo(scrollTop, containerHeight, itemHeight, i);
    var w := CalculateVisibleItems(scrollTop, containerHeight, itemHeight, totalItems, overscan);
    assert w.startIndex == Max(0, first - overscan);
    assert w.endIndex == Min(totalItems - 1, w.startIndex + visible + overscan * 2);
  }

  /** An item starting above the viewport's bottom edge is within `visibleItems` rows of the first. */
  lemma CoverTo(scrollTop: real, containerHeight: real, itemHeight: real, i: int)
    requires itemHeight > 0.0
    requires i as real * itemHeight < scrollTop + containerHeight
    ensures i <= Floor(scrollTop / itemHeight) + Ceil(containerHeight / itemHeight)
  {
    var first := Floor(scrollTop / itemHeight);
    var visible := Ceil(containerHeight / itemHeight);
    DivBounds(scrollTop, itemHeight, first);
    CeilBounds(containerHeight, itemHeight, visible);
    var top := (first + 1) as real * itemHeight;
    var rows := visible as real * itemHeight;
    assert scrollTop + containerHeight < top + rows;
    assert top + rows == ((first + 1) as real + visible as real) * itemHeight;
    assert (first + 1) as real + visible as real == (first + 1 + visible) as real;
    LessByFactor(i, first + 1 + visible, itemHeight);
  }
}

=== FILE: progressive_loading.dfy ===
/**
 * `useProgressiveLoading`: a growing prefix of a fixed item list, revealed
 * first as an initial batch and then one batch per completed `loadMore`. The
 * `setTimeout` between starting and finishing a batch is split into two
 * atomic steps; `pending` is the `visibleItems.length` the delayed callback
 * captured when `loadMore` ran.
 */
module ProgressiveLoading {
  import opened Wrappers
  import opened Seqs

  datatype Progress<T> = Progress(visibleItems: seq<T>, isLoading: bool, hasMore: bool, pending: Option<int>)

  /** The hook's options with their defaults. */
  datatype Options = Options(initialBatchSize: int, batchSize: int)

  const DefaultOptions := Options(6, 3)

  /** The initialising effect: the first batch, and whether anything is left. */
  function Init<T(==)>(items: seq<T>, opts: Options): (p: Progress<T>)
    ensures p.visibleItems <= items
    ensures opts.initialBatchSize >= 0 ==>
              |p.visibleItems| == Min(opts.initialBatchSize, |items|)
    ensures p.hasMore <==> |items| > opts.initialBatchSize
    ensures !p.isLoading && p.pending == None
  {
    var v := Slice(items, 0, opts.initialBatchSize);
    assert v <= items;
    Progress(v, false, |items| > opts.initialBatchSize, None)
  }

  /** `loadMore`: ignored while a batch is loading or when nothing is left. */
  function LoadMore<T(==)>(p: Progress<T>): (r: Progress<T>)
    ensures p.isLoading || !p.hasMore ==> r == p
    ensures !(p.isLoading || !p.hasMore) ==>
              r.isLoading && r.pending == Some(|p.visibleItems|)
              && r.visibleItems == p.visibleItems && r.hasMore == p.hasMore
  {
    if p.isLoading || !p.hasMore then p
    else p.(isLoading := true, pending := Some(|p.visibleItems|))
  }

  /**
   * The delayed callback: append the next batch, recompute `hasMore`, and
   * report whether `onLoadComplete` was called.
   */
  function CompleteLoad<T(==)>(p: Progress<T>, items: seq<T>, opts: Options): (r: (Progress<T>, bool))
    ensures p.pending.None? ==> r == (p, false)
    ensures p.pending.Some? ==>
              var cur := p.pending.value;
              && !r.0.isLoading && r.0.pending == None
              && p.visibleItems <= r.0.visibleItems
              && (r.0.hasMore <==> cur + opts.batchSize < |items|)
              && (r.1 <==> cur + opts.batchSize >= |items|)
  {
    match p.pending
    case None => (p, false)
    case Some(cur) =>
      var next := Slice(items, cur, cur + opts.batchSize);
      var done := cur + opts.batchSize >= |items|;
      (Progress(p.visibleItems + next, false, cur + opts.batchSize < |items|, None), done)
  }

  /**
   * The hook's invariant: what is shown is a prefix of the items, a batch is
   * loading exactly while a delayed callback is pending, and the callback
   * knows the current length.
   */
  predicate Valid<T(==)>(p: Progress<T>, items: seq<T>)
  {
    && p.visibleItems <= items
    && (p.isLoading <==> p.pending.Some?)
    && (p.pending.Some? ==> p.pending.value == |p.visibleItems|)
  }

  lemma InitValid<T>(items: seq<T>, opts: Options)
    ensures Valid(Init(items, opts), items)
  {
  }

  lemma LoadMoreValid<T>(p: Progress<T>, items: seq<T>)
    requires Valid(p, items)
    ensures Valid(LoadMore(p), items)
  {
  }

  /**
   * A completed batch keeps the prefix property (for any batch size, since a
   * slice of the rest is contiguous with what is already shown), and once the
   * completion callback fires with a non-negative batch size, everything is shown.
   */
  lemma CompleteLoadValid<T>(p: Progress<T>, items: seq<T>, opts: Options)
    requires Valid(p, items)
    ensures Valid(CompleteLoad(p, items, opts).0, items)
    ensures CompleteLoad(p, items, opts).1 && opts.batchSize >= 0 ==>
              CompleteLoad(p, items, opts).0.visibleItems == items
  {
    if p.pending.Some? {
      var cur := p.pending.value;
      var a := SliceBound(cur, |items|);
      var b := SliceBound(cur + opts.batchSize, |items|);
      assert a == cur;
      if a <= b {
        assert items[..cur] + items[a..b] == items[..b];
      }
    }
  }

  /** The events the hook sees: a `loadMore` call or the end of a batch's delay. */
  datatype Event = Request | Finish

  function Step<T(==)>(p: Progress<T>, items: seq<T>, opts: Options, e: Event): Progress<T>
  {
    match e
    case Request => LoadMore(p)
    case Finish => CompleteLoad(p, items, opts).0
  }

  function Run<T(==)>(p: Progress<T>, items: seq<T>, opts: Options, events: seq<Event>): Progress<T>
    decreases |events|
  {
    if |events| == 0 then p else Run(Step(p, items, opts, events[0]), items, opts, events[1..])
  }

  /**
   * From the initial batch, any sequence of calls and completions keeps the
   * shown items a prefix of the list that only grows.
   */
  lemma {:induction false} RunValid<T>(p: Progress<T>, items: seq<T>, opts: Options, events: seq<Event>)
    requires Valid(p, items)
    ensures Valid(Run(p, items, opts, events), items)
    ensures p.visibleItems <= Run(p, items, opts, events).visibleItems
    decreases |events|
  {
    if |events| > 0 {
      var q := Step(p, items, opts, events[0]);
      if events[0] == Request {
        LoadMoreValid(p, items);
      } else {
        CompleteLoadValid(p, items, opts);
      }
      RunValid(q, items, opts, events[1..]);
    }
  }

  /**
   * With non-negative batch sizes, "more to load" means the shown prefix is a
   * proper one, so a request followed by its completion shows strictly more.
   */
  predicate HasMoreHonest<T(==)>(p: Progress<T>, items: seq<T>)
  {
    p.hasMore ==> |p.visibleItems| < |items|
  }

  lemma HasMoreHonestPreserved<T>(p: Progress<T>, items: seq<T>, opts: Options, e: Event)
    requires opts.batchSize >= 0
    requires Valid(p, items) && HasMoreHonest(p, items)
    requires p.pending.Some? ==> p.hasMore
    ensures HasMoreHonest(Step(p, items, opts, e), items)
    ensures Step(p, items, opts, e).pending.Some? ==> Step(p, items, opts, e).hasMore
  {
    if e == Finish && p.pending.Some? {
      CompleteLoadValid(p, items, opts);
      var cur := p.pending.value;
      assert SliceBound(cur + opts.batchSize, |items|) == Min(cur + opts.batchSize, |items|);
    }
  }

  lemma InitHonest<T>(items: seq<T>, opts: Options)
    requires opts.initialBatchSize >= 0
    ensures HasMoreHonest(Init(items, opts), items)
  {
  }

  /**
   * From the initial batch, with non-negative batch sizes, no sequence of
   * calls and completions ever claims more to load once everything is shown.
   */
  lemma RunHonest<T>(items: seq<T>, opts: Options, events: seq<Event>)
    requires opts.initialBatchSize >= 0 && opts.batchSize >= 0
    ensures HasMoreHonest(Run(Init(items, opts), items, opts, events), items)
  {
    InitValid(items, opts);
    InitHonest(items, opts);
    RunHonestFrom(Init(items, opts), items, opts, events);
  }

  lemma {:induction false} RunHonestFrom<T>(p: Progress<T>, items: seq<T>, opts: Options, events: seq<Event>)
    requires opts.batchSize >= 0
    requires Valid(p, items) && HasMoreHonest(p, items)
    requires p.pending.Some? ==> p.hasMore
    ensures HasMoreHonest(Run(p, items, opts, events), items)
    decreases |events|
  {
    if |events| > 0 {
      var q := Step(p, items, opts, events[0]);
      HasMoreHonestPreserved(p, items, opts, events[0]);
      if events[0] == Request {
        LoadMoreValid(p, items);
      } else {
        CompleteLoadValid(p, items, opts);
      }
      RunHonestFrom(q, items, opts, events[1..]);
    }
  }

  /** With a positive batch size, a request and its completion reveal at least one more item. */
  lemma LoadMoreProgresses<T>(p: Progress<T>, items: seq<T>, opts: Options)
    requires opts.batchSize > 0
    requires Valid(p, items) && HasMoreHonest(p, items)
    requires !p.isLoading && p.hasMore
    ensures |CompleteLoad(LoadMore(p), items, opts).0.visibleItems| > |p.visibleItems|
  {
    var q := LoadMore(p);
    var cur := |p.visibleItems|;
    assert SliceBound(cur, |items|) == cur;
    assert SliceBound(cur + opts.batchSize, |items|) > cur;
  }
}

=== FILE: project_card.dfy ===
/**
 * `ProjectCard.tsx`: the technology chips a card shows, the "+N" badge for the
 * rest, and the background colour picked by the card's position.
 */
module ProjectCard {
  import opened Wrappers
  import opened Seqs
  import opened ProjectTypes

  /** `project.technologies?.slice(0, 3) || []`. */
  function DisplayedTechnologies(p: Project): (r: seq<string>)
    ensures p.technologies.None? ==> r == []
    ensures p.technologies.Some? ==> |r| == Min(3, |p.technologies.value|) && r <= p.technologies.value
  {
    match p.technologies
    case None => []
    case Some(ts) => Take(ts, 3)
  }

  /** The number of technologies a card stands for. */
  function TechCount(p: Project): nat
  {
    if p.technologies.None? then 0 else |p.technologies.value|
  }

  /** `(project.technologies?.length || 0) - 3`: negative for short lists. */
  function RemainingTechCount(p: Project): (r: int)
    ensures r + 3 == TechCount(p)
  {
    TechCount(p) - 3
  }

  /** The "+N" chip renders only for a positive remainder. */
  predicate ShowsMoreBadge(p: Project)
  {
    RemainingTechCount(p) > 0
  }

  /** The chips and the badge together account for every technology, none twice. */
  lemma TechnologiesAccountedFor(p: Project)
    ensures |DisplayedTechnologies(p)| + Max(RemainingTechCount(p), 0) == TechCount(p)
    ensures ShowsMoreBadge(p) <==> |DisplayedTechnologies(p)| < TechCount(p)
  {
  }

  // ---------------------------------------------------------------- colour

  const CardColors := ["var(--color-accent-1)", "var(--color-detail)", "var(--color-accent-2)", "var(--color-detail)", "var(--color-surface)"]

  /** JavaScript's `%`: the remainder takes the sign of the dividend. */
  function JsRem(a: int, n: int): (r: int)
    requires n > 0
    ensures a >= 0 ==> r == a % n
    ensures -n < r < n
    ensures a < 0 ==> r <= 0
  {
    if a >= 0 then a % n else -((-a) % n)
  }

  /** `CARD_COLORS[colorIndex % CARD_COLORS.length]`; a negative remainder indexes nothing. */
  function CardColor(colorIndex: int): (r: Option<string>)
    ensures colorIndex >= 0 ==> r == Some(CardColors[colorIndex % |CardColors|])
    ensures r.None? <==> JsRem(colorIndex, |CardColors|) < 0
  {
    var k := JsRem(colorIndex, |CardColors|);
    if 0 <= k then Some(CardColors[k]) else None
  }

  /** Colours repeat every five cards. */
  lemma ColorsCycle(i: nat)
    ensures CardColor(i + |CardColors|) == CardColor(i)
  {
  }

  /** Neighbouring cards in the list never share a colour, across the wrap too. */
  lemma NeighboursDiffer(i: nat)
    ensures CardColor(i) != CardColor(i + 1)
  {
    var k := i % 5;
    assert (i + 1) % 5 == if k == 4 then 0 else k + 1;
  }
}

=== FILE: project_showcase.dfy ===
/**
 * `EnhancedProjectShowcase.tsx`: the screenshot gallery's index, stepped by
 * the previous and next buttons with wrap-around and set directly by the
 * thumbnails, and the device frame class of the view-mode switch.
 */
module ProjectShowcase {
  import opened Wrappers
  import Cyclic

  /**
   * `project.screenshots?.length || 1`: the length the gallery wraps at. A
   * missing list and an empty one both count as one screenshot.
   */
  function ScreenshotCount(screenshots: Option<seq<string>>): (n: int)
    ensures n >= 1
    ensures screenshots.Some? && |screenshots.value| > 0 ==> n == |screenshots.value|
    ensures screenshots.None? || |screenshots.value| == 0 ==> n == 1
  {
    match screenshots
    case None => 1
    case Some(s) => if |s| == 0 then 1 else |s|
  }

  /** The previous/next buttons and the thumbnail strip render only for more than one screenshot. */
  predicate HasGalleryControls(screenshots: Option<seq<string>>)
  {
    screenshots.Some? && |screenshots.value| > 1
  }

  /** Controls exist exactly when stepping can change the index. */
  lemma ControlsIffSteppingMoves(screenshots: Option<seq<string>>, i: int)
    requires 0 <= i < ScreenshotCount(screenshots)
    ensures HasGalleryControls(screenshots) <==> Cyclic.Next(i, ScreenshotCount(screenshots)) != i
    ensures HasGalleryControls(screenshots) <==> Cyclic.Prev(i, ScreenshotCount(screenshots)) != i
  {
  }

  datatype GalleryEvent = NextShot | PrevShot | Thumbnail(index: int)

  /** `nextScreenshot`, `prevScreenshot` and a thumbnail's `setCurrentScreenshot(index)`. */
  function GalleryStep(current: int, screenshots: Option<seq<string>>, e: GalleryEvent): (r: int)
    ensures e.Thumbnail? ==> r == e.index
    ensures e.NextShot? ==> r == Cyclic.Next(current, ScreenshotCount(screenshots))
    ensures e.PrevShot? ==> r == Cyclic.Prev(current, ScreenshotCount(screenshots))
  {
    match e
    case NextShot => Cyclic.Next(current, ScreenshotCount(screenshots))
    case PrevShot => Cyclic.Prev(current, ScreenshotCount(screenshots))
    case Thumbnail(index) => index
  }

  /** An event the rendered gallery can produce: a thumbnail exists for every screenshot, and only with controls. */
  predicate Offered(screenshots: Option<seq<string>>, e: GalleryEvent)
  {
    HasGalleryControls(screenshots) && (e.Thumbnail? ==> 0 <= e.index < |screenshots.value|)
  }

  function GalleryRun(current: int, screenshots: Option<seq<string>>, es: seq<GalleryEvent>): int
    decreases |es|
  {
    if |es| == 0 then current else GalleryRun(GalleryStep(current, screenshots, es[0]), screenshots, es[1..])
  }

  /** Through any sequence of offered events the index names a screenshot. */
  lemma {:induction false} IndexStaysInRange(current: int, screenshots: Option<seq<string>>, es: seq<GalleryEvent>)
    requires 0 <= current < ScreenshotCount(screenshots)
    requires forall k :: 0 <= k < |es| ==> Offered(screenshots, es[k])
    ensures 0 <= GalleryRun(current, screenshots, es) < ScreenshotCount(screenshots)
    decreases |es|
  {
    if |es| > 0 {
      IndexStaysInRange(GalleryStep(current, screenshots, es[0]), screenshots, es[1..]);
    }
  }

  /** Next then previous, or previous then next, lands back on the same screenshot. */
  lemma NextPrevUndo(current: int, screenshots: Option<seq<string>>)
    requires 0 <= current < ScreenshotCount(screenshots)
    ensures GalleryRun(current, screenshots, [NextShot, PrevShot]) == current
    ensures GalleryRun(current, screenshots, [PrevShot, NextShot]) == current
  {
    var n := ScreenshotCount(screenshots);
    Cyclic.NextPrevInverse(current, n);
    assert [NextShot, PrevShot][1..] == [PrevShot];
    assert [PrevShot, NextShot][1..] == [NextShot];
  }

  /** `k` presses of next, from a valid index. */
  function NextTimes(current: int, n: int, k: nat): int
    decreases k
  {
    if k == 0 then current else Cyclic.Next(NextTimes(current, n, k - 1), n)
  }

  /**
   * Pressing next `k` times advances by `k` modulo `n`, however many laps that
   * takes; within one lap the position wraps past the end at most once, and a
   * whole number of laps returns to the start.
   */
  lemma {:induction false} NextTimesAdvances(current: int, n: int, k: nat)
    requires 0 <= current < n
    ensures NextTimes(current, n, k) == (current + k) % n
    ensures k <= n ==> NextTimes(current, n, k) == if current + k < n then current + k else current + k - n
    ensures k % n == 0 ==> NextTimes(current, n, k) == current
    decreases k
  {
    if k > 0 {
      NextTimesAdvances(current, n, k - 1);
      StepMod(current + k - 1, n);
    }
    LapMod(current, n, k);
  }

  /** One more step on a residue is one more step on the number. */
  lemma StepMod(a: int, n: int)
    requires n > 0
    ensures (a % n + 1) % n == (a + 1) % n
  {
    if a % n + 1 < n {
      ModUnique(a + 1, n, a / n, a % n + 1);
      ModUnique(a % n + 1, n, 0, a % n + 1);
    } else {
      ModUnique(a + 1, n, a / n + 1, 0);
      ModUnique(a % n + 1, n, 1, 0);
    }
  }

  /** Whole laps and a partial lap, in residues. */
  lemma LapMod(current: int, n: int, k: nat)
    requires 0 <= current < n
    ensures k <= n ==> (current + k) % n == if current + k < n then current + k else current + k - n
    ensures k % n == 0 ==> (current + k) % n == current
  {
    if current + k < n {
      ModUnique(current + k, n, 0, current + k);
    } else if k <= n {
      ModUnique(current + k, n, 1, current + k - n);
    }
    if k % n == 0 {
      ModUnique(current + k, n, k / n, current);
    }
  }

  /** Euclidean division has one quotient and one remainder. */
  lemma ModUnique(a: int, n: int, q: int, r: int)
    requires n > 0 && 0 <= r < n && a == q * n + r
    ensures a % n == r && a / n == q
  {
    var d := q - a / n;
    assert d * n == q * n - (a / n) * n;
    assert d * n == a % n - r;
    MulAwayFromZero(d, n);
  }

  /** A nonzero multiple of `n` is at least `n` away from zero. */
  lemma {:induction false} MulAwayFromZero(d: int, n: int)
    requires n > 0
    ensures d > 0 ==> d * n >= n
    ensures d < 0 ==> d * n <= -n
    decreases if d < 0 then -d else d
  {
    if d > 1 {
      MulAwayFromZero(d - 1, n);
      assert d * n == (d - 1) * n + n;
    } else if d < -1 {
      MulAwayFromZero(d + 1, n);
      assert d * n == (d + 1) * n - n;
    }
  }

  // ---------------------------------------------------------------- device frame

  datatype ViewMode = Desktop | Tablet | Mobile

  /** `getDeviceClass`. */
  function DeviceClass(m: ViewMode): (r: string)
    ensures r == "tablet-view" <==> m == Tablet
    ensures r == "mobile-view" <==> m == Mobile
    ensures r == "desktop-view" <==> m == Desktop
  {
    match m
    case Tablet => "tablet-view"
    case Mobile => "mobile-view"
    case Desktop => "desktop-view"
  }
}

=== FILE: project_types.dfy ===
/** The `Project` record shared by the project list, cards and showcase. */
module ProjectTypes {
  import opened Wrappers

  /** Optional fields of the TypeScript interface are `Option`s. */
  datatype Project = Project(
    id: string,
    title: string,
    description: string,
    technologies: Option<seq<string>>,
    screenshots: Option<seq<string>>,
    status: Option<string>,
    category: Option<string>,
    year: Option<int>
  )
}

=== FILE: project_utils.dfy ===
/**
 * `projectUtils.ts`: category extraction, category filter, newest-first sort
 * and grouping by status over a list of projects.
 */
module ProjectUtils {
  import opened Wrappers
  import opened Seqs
  import opened ProjectTypes
  import Sorting

  /** `projects.map(p => p.category).filter(c => typeof c === "string")`. */
  function DefinedCategories(ps: seq<Project>): (r: seq<string>)
    ensures forall i :: 0 <= i < |ps| && ps[i].category.Some? ==> ps[i].category.value in r
    ensures forall j :: 0 <= j < |r| ==> exists i :: 0 <= i < |ps| && ps[i].category == Some(r[j])
    decreases |ps|
  {
    if |ps| == 0 then []
    else
      var rest := DefinedCategories(ps[1..]);
      assert forall i :: 1 <= i < |ps| ==> ps[i] == ps[1..][i - 1];
      if ps[0].category.Some? then [ps[0].category.value] + rest else rest
  }

  /** `getUniqueCategories`: each defined category once, in first-seen order. */
  function UniqueCategories(ps: seq<Project>): (r: seq<string>)
    ensures NoDuplicates(r)
    ensures forall i :: 0 <= i < |ps| && ps[i].category.Some? ==> ps[i].category.value in r
    ensures forall j :: 0 <= j < |r| ==> exists i :: 0 <= i < |ps| && ps[i].category == Some(r[j])
    ensures forall a, b :: 0 <= a < b < |r| ==>
              FirstIndex(DefinedCategories(ps), r[a]) < FirstIndex(DefinedCategories(ps), r[b])
  {
    var r := Distinct(DefinedCategories(ps));
    DistinctCategoriesCover(ps);
    r
  }

  lemma DistinctCategoriesCover(ps: seq<Project>)
    ensures forall i :: 0 <= i < |ps| && ps[i].category.Some? ==> ps[i].category.value in Distinct(DefinedCategories(ps))
    ensures forall j :: 0 <= j < |Distinct(DefinedCategories(ps))| ==>
              exists i :: 0 <= i < |ps| && ps[i].category == Some(Distinct(DefinedCategories(ps))[j])
  {
    var d := DefinedCategories(ps);
    var r := Distinct(d);
    forall i | 0 <= i < |ps| && ps[i].category.Some? ensures ps[i].category.value in r {
      var k :| 0 <= k < |d| && d[k] == ps[i].category.value;
    }
    forall j | 0 <= j < |r| ensures exists i :: 0 <= i < |ps| && ps[i].category == Some(r[j]) {
      var k :| 0 <= k < |d| && d[k] == r[j];
    }
  }

  /** `filterProjectsByCategory`. */
  function FilterByCategory(ps: seq<Project>, category: string): (r: seq<Project>)
    ensures category == "all" ==> r == ps
    ensures category != "all" ==>
              && IsSubsequence(r, ps)
              && (forall i :: 0 <= i < |r| ==> r[i].category == Some(category))
              && (forall i :: 0 <= i < |ps| && ps[i].category == Some(category) ==>
                    multiset(r)[ps[i]] == multiset(ps)[ps[i]])
  {
    if category == "all" then ps
    else
      FilterMultiplicity(ps, (p: Project) => p.category == Some(category));
      Filter(ps, (p: Project) => p.category == Some(category))
  }

  /** `b.year || 0`: a missing year sorts as year 0. */
  function YearKey(p: Project): int
  {
    p.year.GetOr(0)
  }

  /** `sortProjectsByYear`: a sorted copy, newest first, ties in input order. */
  function SortByYear(ps: seq<Project>): (r: seq<Project>)
    ensures multiset(r) == multiset(ps)
    ensures forall i, j :: 0 <= i < j < |r| ==> YearKey(r[i]) >= YearKey(r[j])
    ensures Sorting.SameTies(r, ps, YearKey)
  {
    Sorting.SortDesc(ps, YearKey)
  }

  /**
   * The newest-first order with the projects of each year in input order is
   * unique, and it is the one `SortByYear` returns.
   */
  lemma SortByYearIsTheStableOrder(ps: seq<Project>, r: seq<Project>)
    ensures Sorting.SortedDesc(r, YearKey) && Sorting.SameTies(r, ps, YearKey) <==> r == SortByYear(ps)
  {
    Sorting.SortDescIsTheStableSort(ps, r, YearKey);
    assert SortByYear(ps) == Sorting.SortDesc(ps, YearKey);
  }

  /** `project.status || "unknown"`. */
  function StatusKey(p: Project): string
  {
    if p.status.None? || p.status.value == "" then "unknown" else p.status.value
  }

  /** The projects whose status key is `k`, in input order. */
  function WithStatus(ps: seq<Project>, k: string): (r: seq<Project>)
    ensures IsSubsequence(r, ps)
    ensures forall i :: 0 <= i < |r| ==> StatusKey(r[i]) == k
    decreases |ps|
  {
    if |ps| == 0 then []
    else
      var rest := WithStatus(ps[1..], k);
      if StatusKey(ps[0]) == k then [ps[0]] + rest else rest
  }

  /** Every project with status key `k` is in the group of `k`, and only those are. */
  lemma {:induction false} WithStatusMembers(ps: seq<Project>, k: string)
    ensures forall p :: p in WithStatus(ps, k) <==> p in ps && StatusKey(p) == k
    decreases |ps|
  {
    if |ps| > 0 {
      WithStatusMembers(ps[1..], k);
      assert forall p :: p in ps <==> p == ps[0] || p in ps[1..];
    }
  }

  lemma {:induction false} WithStatusAbsent(ps: seq<Project>, k: string)
    requires forall i :: 0 <= i < |ps| ==> StatusKey(ps[i]) != k
    ensures WithStatus(ps, k) == []
    decreases |ps|
  {
    if |ps| > 0 {
      assert forall i :: 0 <= i < |ps| - 1 ==> ps[1..][i] == ps[i + 1];
      WithStatusAbsent(ps[1..], k);
    }
  }

  /** The last project belongs to its own group only. */
  lemma {:induction false} WithStatusLast(ps: seq<Project>, k: string)
    requires |ps| > 0
    ensures WithStatus(ps, k) ==
              WithStatus(ps[..|ps| - 1], k) + (if StatusKey(ps[|ps| - 1]) == k then [ps[|ps| - 1]] else [])
    decreases |ps|
  {
    if |ps| > 1 {
      assert ps[1..][..|ps| - 2] == ps[..|ps| - 1][1..];
      WithStatusLast(ps[1..], k);
    }
  }

  /** One step of the `reduce`: append `p` to the group of its status. */
  function AddToGroup(acc: map<string, seq<Project>>, p: Project): map<string, seq<Project>>
  {
    var k := StatusKey(p);
    acc[k := (if k in acc then acc[k] else []) + [p]]
  }

  /** `groupProjectsByStatus`, the `reduce` over the projects from the left. */
  function GroupByStatus(ps: seq<Project>): (r: map<string, seq<Project>>)
    ensures GroupsOf(ps, r)
    decreases |ps|
  {
    if |ps| == 0 then map[]
    else
      var g := GroupByStatus(ps[..|ps| - 1]);
      GroupStep(ps, g);
      AddToGroup(g, ps[|ps| - 1])
  }

  /**
   * `r` is the grouping of `ps` by status: its keys are exactly the status keys
   * that occur, and each group holds that status's projects in input order.
   */
  predicate GroupsOf(ps: seq<Project>, r: map<string, seq<Project>>)
  {
    && GroupContents(ps, r)
    && (forall i :: 0 <= i < |ps| ==> StatusKey(ps[i]) in r)
    && (forall k :: k in r ==> exists i :: 0 <= i < |ps| && StatusKey(ps[i]) == k)
  }

  predicate GroupContents(ps: seq<Project>, r: map<string, seq<Project>>)
  {
    forall k :: k in r ==> r[k] == WithStatus(ps, k) && |r[k]| > 0
  }

  lemma GroupStep(ps: seq<Project>, g: map<string, seq<Project>>)
    requires |ps| > 0 && GroupsOf(ps[..|ps| - 1], g)
    ensures GroupsOf(ps, AddToGroup(g, ps[|ps| - 1]))
  {
    GroupStepContents(ps, g);
    GroupStepKeys(ps, ps[..|ps| - 1], g, AddToGroup(g, ps[|ps| - 1]));
  }

  /** After the step, every status key of `ps` has a group, and every group's key occurs in `ps`. */
  lemma GroupStepKeys(ps: seq<Project>, init: seq<Project>, g: map<string, seq<Project>>, r: map<string, seq<Project>>)
    requires |ps| > 0 && init == ps[..|ps| - 1] && r == AddToGroup(g, ps[|ps| - 1])
    requires forall i :: 0 <= i < |init| ==> StatusKey(init[i]) in g
    requires forall k :: k in g ==> exists i :: 0 <= i < |init| && StatusKey(init[i]) == k
    ensures forall i :: 0 <= i < |ps| ==> StatusKey(ps[i]) in r
    ensures forall k :: k in r ==> exists i :: 0 <= i < |ps| && StatusKey(ps[i]) == k
  {
    forall i | 0 <= i < |ps| ensures StatusKey(ps[i]) in r {
      if i < |init| {
        assert ps[i] == init[i];
      }
    }
    forall k | k in r
      ensures exists i :: 0 <= i < |ps| && StatusKey(ps[i]) == k
    {
      if k in g {
        var i :| 0 <= i < |init| && StatusKey(init[i]) == k;
        assert ps[i] == init[i];
      } else {
        assert StatusKey(ps[|ps| - 1]) == k;
      }
    }
  }

  lemma GroupStepContents(ps: seq<Project>, g: map<string, seq<Project>>)
    requires |ps| > 0
    requires GroupContents(ps[..|ps| - 1], g)
    requires forall i :: 0 <= i < |ps| - 1 ==> StatusKey(ps[i]) in g
    ensures GroupContents(ps, AddToGroup(g, ps[|ps| - 1]))
  {
    var init := ps[..|ps| - 1];
    var last := ps[|ps| - 1];
    var r := AddToGroup(g, last);
    forall k | k in r
      ensures r[k] == WithStatus(ps, k) && |r[k]| > 0
    {
      WithStatusLast(ps, k);
      if k !in g {
        forall i | 0 <= i < |init|
          ensures StatusKey(init[i]) != k
        {
          assert init[i] == ps[i];
        }
        WithStatusAbsent(init, k);
      }
    }
  }

  /** Sum of group sizes over a list of keys. */
  function SizeSum(ps: seq<Project>, keys: seq<string>): nat
  {
    if |keys| == 0 then 0 else |WithStatus(ps, keys[0])| + SizeSum(ps, keys[1..])
  }

  lemma {:induction false} SizeSumSnoc(ps: seq<Project>, x: Project, keys: seq<string>)
    requires NoDuplicates(keys)
    ensures SizeSum(ps + [x], keys) == SizeSum(ps, keys) + (if StatusKey(x) in keys then 1 else 0)
    decreases |keys|
  {
    if |keys| > 0 {
      assert (ps + [x])[..|ps|] == ps;
      WithStatusLast(ps + [x], keys[0]);
      SizeSumSnoc(ps, x, keys[1..]);
      assert StatusKey(x) in keys <==> StatusKey(x) == keys[0] || StatusKey(x) in keys[1..];
      if StatusKey(x) == keys[0] {
        assert StatusKey(x) !in keys[1..];
      }
    }
  }

  lemma {:induction false} SizeSumCovers(ps: seq<Project>, keys: seq<string>)
    requires NoDuplicates(keys)
    requires forall i :: 0 <= i < |ps| ==> StatusKey(ps[i]) in keys
    ensures SizeSum(ps, keys) == |ps|
    decreases |ps|
  {
    if |ps| == 0 {
      SizeSumEmpty(keys);
    } else {
      var init := ps[..|ps| - 1];
      assert ps == init + [ps[|ps| - 1]];
      SizeSumCovers(init, keys);
      SizeSumSnoc(init, ps[|ps| - 1], keys);
    }
  }

  lemma {:induction false} SizeSumEmpty(keys: seq<string>)
    ensures SizeSum([], keys) == 0
    decreases |keys|
  {
    if |keys| > 0 {
      SizeSumEmpty(keys[1..]);
    }
  }

  /**
   * Every project lands in exactly one group: the group sizes, summed over the
   * distinct status keys, equal the number of projects.
   */
  lemma GroupSizesSum(ps: seq<Project>, keys: seq<string>)
    requires NoDuplicates(keys)
    requires forall k :: k in keys <==> k in GroupByStatus(ps)
    ensures SizeSum(ps, keys) == |ps|
  {
    SizeSumCovers(ps, keys);
  }
}

=== FILE: ripple_button.dfy ===
/**
 * `RippleButton.tsx`: the list of ripples a button shows, one appended per
 * accepted click under a fresh key. The removal effect re-arms one timer per
 * ripple every time the list changes, so no ripple goes until `duration`
 * passes with the list unchanged, and how many go then depends on how the
 * timer callbacks interleave with re-renders. Allowing an `Expire` step for
 * any key at any time admits every such schedule and more, so what holds
 * here holds for the button.
 */
module RippleButton {
  import Seqs

  /** A ripple's geometry (from the click position) and its key. */
  datatype Ripple = Ripple(x: real, y: real, size: real, id: int)

  datatype RippleState = RippleState(ripples: seq<Ripple>, nextKey: int)

  const InitialRipples := RippleState([], 0)

  /** `disabled={disabled || loading}`. */
  predicate ButtonDisabled(disabled: bool, loading: bool)
  {
    disabled || loading
  }

  /** What `handleClick` does: the new state, and whether the `onClick` prop was called. */
  datatype ClickResult = ClickResult(state: RippleState, calledOnClick: bool)

  /** `handleClick`, given the ripple geometry derived from the click and the button's box. */
  function HandleClick(s: RippleState, disabled: bool, loading: bool, x: real, y: real, size: real): (r: ClickResult)
    ensures ButtonDisabled(disabled, loading) ==> r == ClickResult(s, false)
    ensures !ButtonDisabled(disabled, loading) ==>
              r.calledOnClick
              && r.state.ripples == s.ripples + [Ripple(x, y, size, s.nextKey)]
              && r.state.nextKey == s.nextKey + 1
  {
    if !disabled && !loading then
      ClickResult(RippleState(s.ripples + [Ripple(x, y, size, s.nextKey)], s.nextKey + 1), true)
    else ClickResult(s, false)
  }

  /** The ripples without the one keyed `id`: `filter((r) => r.id !== id)`. */
  function WithoutId(rs: seq<Ripple>, id: int): (r: seq<Ripple>)
    ensures |r| <= |rs|
    ensures forall i :: 0 <= i < |r| ==> r[i].id != id && r[i] in rs
    ensures forall i :: 0 <= i < |rs| && rs[i].id != id ==> rs[i] in r
  {
    Seqs.Filter(rs, (r: Ripple) => r.id != id)
  }

  /** A ripple's timer fires: `prevRipples.filter((r) => r.id !== ripple.id)`. */
  function Expire(s: RippleState, id: int): (r: RippleState)
    ensures r.nextKey == s.nextKey
    ensures r.ripples == WithoutId(s.ripples, id)
  {
    s.(ripples := WithoutId(s.ripples, id))
  }

  // ---------------------------------------------------------------- keys

  /** Keys strictly increase along the list and are all below `nextKey`. */
  predicate KeysOrdered(s: RippleState)
  {
    Increasing(s.ripples)
    && forall i :: 0 <= i < |s.ripples| ==> s.ripples[i].id < s.nextKey
  }

  predicate Increasing(rs: seq<Ripple>)
  {
    forall i, j :: 0 <= i < j < |rs| ==> rs[i].id < rs[j].id
  }

  lemma {:induction false} WithoutIdKeepsOrder(rs: seq<Ripple>, id: int)
    requires Increasing(rs)
    ensures Increasing(WithoutId(rs, id))
    decreases |rs|
  {
    if |rs| > 0 {
      var tail := rs[1..];
      TailIncreasing(rs);
      WithoutIdKeepsOrder(tail, id);
      if rs[0].id != id {
        var rest := WithoutId(tail, id);
        forall k | 0 <= k < |rest| ensures rs[0].id < rest[k].id {
          var m :| 0 <= m < |tail| && tail[m] == rest[k];
          assert rs[m + 1] == rest[k];
        }
        ConsIncreasing(rs[0], rest);
      }
    }
  }

  lemma ConsIncreasing(x: Ripple, rest: seq<Ripple>)
    requires Increasing(rest)
    requires forall k :: 0 <= k < |rest| ==> x.id < rest[k].id
    ensures Increasing([x] + rest)
  {
    var r := [x] + rest;
    forall i, j | 0 <= i < j < |r| ensures r[i].id < r[j].id {
      assert r[j] == rest[j - 1];
      if i > 0 {
        assert r[i] == rest[i - 1];
      }
    }
  }

  /** An expiry for a key that is present removes exactly one ripple. */
  lemma {:induction false} WithoutIdRemovesOne(rs: seq<Ripple>, id: int, k: nat)
    requires Increasing(rs) && k < |rs| && rs[k].id == id
    ensures |WithoutId(rs, id)| == |rs| - 1
    decreases |rs|
  {
    TailIncreasing(rs);
    if k == 0 {
      forall i | 0 <= i < |rs[1..]| ensures rs[1..][i].id != id {
        assert rs[i + 1].id > rs[0].id;
      }
      WithoutIdAbsent(rs[1..], id);
    } else {
      WithoutIdRemovesOne(rs[1..], id, k - 1);
    }
  }

  /** An expiry for a key that is not present changes nothing. */
  lemma {:induction false} WithoutIdAbsent(rs: seq<Ripple>, id: int)
    requires forall i :: 0 <= i < |rs| ==> rs[i].id != id
    ensures WithoutId(rs, id) == rs
    decreases |rs|
  {
    if |rs| > 0 {
      WithoutIdAbsent(rs[1..], id);
      assert rs == [rs[0]] + rs[1..];
    }
  }

  lemma TailIncreasing(rs: seq<Ripple>)
    requires Increasing(rs) && |rs| > 0
    ensures Increasing(rs[1..])
  {
    var tail := rs[1..];
    forall i, j | 0 <= i < j < |tail| ensures tail[i].id < tail[j].id {
      assert tail[i] == rs[i + 1] && tail[j] == rs[j + 1];
    }
  }

  datatype RippleEvent = Click(disabled: bool, loading: bool, x: real, y: real, size: real) | Timeout(id: int)

  function RippleStep(s: RippleState, e: RippleEvent): RippleState
  {
    match e
    case Click(disabled, loading, x, y, size) => HandleClick(s, disabled, loading, x, y, size).state
    case Timeout(id) => Expire(s, id)
  }

  function RippleRun(s: RippleState, es: seq<RippleEvent>): RippleState
    decreases |es|
  {
    if |es| == 0 then s else RippleRun(RippleStep(s, es[0]), es[1..])
  }

  lemma StepKeepsOrder(s: RippleState, e: RippleEvent)
    requires KeysOrdered(s)
    ensures KeysOrdered(RippleStep(s, e))
  {
    match e
    case Timeout(id) =>
      WithoutIdKeepsOrder(s.ripples, id);
      assert RippleStep(s, e).ripples == WithoutId(s.ripples, id);
    case Click(disabled, loading, x, y, size) =>
      if !ButtonDisabled(disabled, loading) {
        AppendKeepsOrder(s, Ripple(x, y, size, s.nextKey));
      }
  }

  lemma AppendKeepsOrder(s: RippleState, n: Ripple)
    requires KeysOrdered(s) && n.id == s.nextKey
    ensures KeysOrdered(RippleState(s.ripples + [n], s.nextKey + 1))
  {
    var rs := s.ripples + [n];
    assert forall i :: 0 <= i < |s.ripples| ==> rs[i] == s.ripples[i];
  }

  /** Every click and every expiry keeps the keys ordered, so the rendered keys are unique. */
  lemma {:induction false} KeysStayOrdered(s: RippleState, es: seq<RippleEvent>)
    requires KeysOrdered(s)
    ensures KeysOrdered(RippleRun(s, es))
    decreases |es|
  {
    if |es| > 0 {
      StepKeepsOrder(s, es[0]);
      KeysStayOrdered(RippleStep(s, es[0]), es[1..]);
    }
  }

  /** From the initial state, no two ripples on screen share a key. */
  lemma KeysUniqueFromStart(es: seq<RippleEvent>)
    ensures var rs := RippleRun(InitialRipples, es).ripples;
            forall i, j :: 0 <= i < j < |rs| ==> rs[i].id != rs[j].id
  {
    KeysStayOrdered(InitialRipples, es);
  }
}

=== FILE: scroll_animation.dfy ===
/**
 * `useAdvancedScrollAnimation.ts`: the in-view flags and the direction and
 * velocity of `useAdvancedScrollAnimation`, and the keyboard-driven section
 * machine of `useSmoothSectionScroll`. Intersection callbacks, animation
 * frames, key presses, scroll events and the end-of-scroll timer arrive as
 * calls of the step functions below.
 */
module ScrollAnimation {
  import opened Wrappers
  import opened Numbers
  import Sections

  // ---------------------------------------------------------------- in view

  datatype InView = InView(isInView: bool, hasTriggered: bool)

  const InitialInView := InView(false, false)

  /** The intersection observer callback. */
  function OnIntersect(s: InView, inView: bool, triggerOnce: bool): (r: InView)
    ensures r.isInView == inView
    ensures inView ==> r.hasTriggered
    ensures !inView && !triggerOnce ==> !r.hasTriggered
    ensures !inView && triggerOnce ==> r.hasTriggered == s.hasTriggered
  {
    var triggered := if inView && !s.hasTriggered then true else s.hasTriggered;
    InView(inView, if !triggerOnce && !inView then false else triggered)
  }

  /** The `isInView` the hook returns. */
  function Reported(s: InView, triggerOnce: bool): bool
  {
    if triggerOnce then s.hasTriggered else s.isInView
  }

  function RunIntersections(s: InView, events: seq<bool>, triggerOnce: bool): InView
    decreases |events|
  {
    if |events| == 0 then s else RunIntersections(OnIntersect(s, events[0], triggerOnce), events[1..], triggerOnce)
  }

  /**
   * With `triggerOnce` the reported flag latches: it is true from the first
   * intersecting callback on. Without it the reported flag is the latest
   * callback's, and `hasTriggered` tracks it.
   */
  lemma {:induction false} TriggerOnceLatches(s: InView, events: seq<bool>)
    ensures Reported(RunIntersections(s, events, true), true) <==> s.hasTriggered || true in events
    decreases |events|
  {
    if |events| > 0 {
      TriggerOnceLatches(OnIntersect(s, events[0], true), events[1..]);
      assert events == [events[0]] + events[1..];
    }
  }

  lemma {:induction false} WithoutTriggerOnceFollows(s: InView, events: seq<bool>)
    requires |events| > 0
    ensures Reported(RunIntersections(s, events, false), false) == events[|events| - 1]
    ensures RunIntersections(s, events, false).hasTriggered == events[|events| - 1]
    decreases |events|
  {
    if |events| > 1 {
      WithoutTriggerOnceFollows(OnIntersect(s, events[0], false), events[1..]);
    }
  }

  // ---------------------------------------------------------------- direction and velocity

  datatype Direction = Up | Down | Idle

  /** `Math.abs(deltaY) > 1 ? (deltaY > 0 ? 'down' : 'up') : 'idle'`. */
  function DirectionOf(deltaY: real): (d: Direction)
    ensures d == Down <==> deltaY > 1.0
    ensures d == Up <==> deltaY < -1.0
    ensures d == Idle <==> -1.0 <= deltaY <= 1.0
  {
    if Abs(deltaY) > 1.0 then (if deltaY > 0.0 then Down else Up) else Idle
  }

  datatype Motion = Motion(velocity: real, direction: Direction, lastScrollY: real)

  const InitialMotion := Motion(0.0, Idle, 0.0)

  /** One animation frame: `deltaTime` since the last frame, the current `scrollY`. */
  function Frame(m: Motion, deltaTime: real, scrollY: real): (r: Motion)
    ensures r.lastScrollY == scrollY
    ensures deltaTime > 0.0 ==> r.velocity * deltaTime == Abs(scrollY - m.lastScrollY)
    ensures deltaTime > 0.0 ==> r.direction == DirectionOf(scrollY - m.lastScrollY)
    ensures deltaTime <= 0.0 ==> r.velocity == m.velocity && r.direction == m.direction
    ensures m.velocity >= 0.0 ==> r.velocity >= 0.0
  {
    var deltaY := scrollY - m.lastScrollY;
    if deltaTime > 0.0 then
      var v := Abs(deltaY / deltaTime);
      VelocityTimesTime(deltaY, deltaTime);
      Motion(v, DirectionOf(deltaY), scrollY)
    else m.(lastScrollY := scrollY)
  }

  lemma VelocityTimesTime(deltaY: real, deltaTime: real)
    requires deltaTime > 0.0
    ensures Abs(deltaY / deltaTime) * deltaTime == Abs(deltaY)
  {
    var q := deltaY / deltaTime;
    assert q * deltaTime == deltaY;
    if q < 0.0 {
      assert (-q) * deltaTime == -(q * deltaTime);
    }
  }

  // ---------------------------------------------------------------- useSmoothSectionScroll

  /** The element ids `scrollToSection` looks up, by index. */
  const SectionIds := ["introduction", "about", "projects", "skills", "contact"]

  datatype SectionScroll = SectionScroll(currentSection: int, isScrolling: bool)

  const InitialSectionScroll := SectionScroll(0, false)

  /**
   * `scrollToSection(index)`: `mounted` holds the indices whose element is in
   * the document (by id, or else by ref). An index with no id or no element
   * changes nothing.
   */
  function ScrollToSection(s: SectionScroll, index: int, mounted: set<int>): (r: SectionScroll)
    ensures 0 <= index < |SectionIds| && index in mounted ==> r == SectionScroll(index, true)
    ensures !(0 <= index < |SectionIds| && index in mounted) ==> r == s
  {
    if 0 <= index < |SectionIds| && index in mounted then SectionScroll(index, true) else s
  }

  /** The timer that ends a programmatic scroll. */
  function ScrollSettled(s: SectionScroll): (r: SectionScroll)
    ensures !r.isScrolling && r.currentSection == s.currentSection
  {
    s.(isScrolling := false)
  }

  datatype KeyResult = KeyResult(state: SectionScroll, prevented: bool)

  /** The keydown listener. */
  function KeyDown(s: SectionScroll, key: string, sectionCount: int, mounted: set<int>): (r: KeyResult)
    ensures s.isScrolling ==> r == KeyResult(s, false)
    ensures r.prevented <==> !s.isScrolling && key in {"ArrowDown", "PageDown", "ArrowUp", "PageUp", "Home", "End"}
    ensures !s.isScrolling && (key == "ArrowDown" || key == "PageDown") ==>
              r.state == if s.currentSection < sectionCount - 1 then ScrollToSection(s, s.currentSection + 1, mounted) else s
    ensures !s.isScrolling && (key == "ArrowUp" || key == "PageUp") ==>
              r.state == if s.currentSection > 0 then ScrollToSection(s, s.currentSection - 1, mounted) else s
    ensures !s.isScrolling && key == "Home" ==> r.state == ScrollToSection(s, 0, mounted)
    ensures !s.isScrolling && key == "End" ==> r.state == ScrollToSection(s, sectionCount - 1, mounted)
  {
    if s.isScrolling then KeyResult(s, false)
    else if key == "ArrowDown" || key == "PageDown" then
      KeyResult(if s.currentSection < sectionCount - 1 then ScrollToSection(s, s.currentSection + 1, mounted) else s, true)
    else if key == "ArrowUp" || key == "PageUp" then
      KeyResult(if s.currentSection > 0 then ScrollToSection(s, s.currentSection - 1, mounted) else s, true)
    else if key == "Home" then KeyResult(ScrollToSection(s, 0, mounted), true)
    else if key == "End" then KeyResult(ScrollToSection(s, sectionCount - 1, mounted), true)
    else KeyResult(s, false)
  }

  /** The throttled scroll listener, subscribed only while not scrolling programmatically. */
  function OnScroll(s: SectionScroll, sections: seq<Sections.Box>, mountedRefs: seq<bool>, scrollY: real, innerHeight: real): (r: SectionScroll)
    requires |mountedRefs| == |sections|
    ensures r.isScrolling == s.isScrolling
    ensures s.isScrolling ==> r == s
    ensures !s.isScrolling ==>
              r.currentSection == Sections.Track(s.currentSection, Refs(sections, mountedRefs), Sections.Probe(scrollY, innerHeight))
  {
    if s.isScrolling then s
    else s.(currentSection := Sections.Track(s.currentSection, Refs(sections, mountedRefs), Sections.Probe(scrollY, innerHeight)))
  }

  /** Section refs: a box where the ref holds an element. */
  function Refs(sections: seq<Sections.Box>, mountedRefs: seq<bool>): (r: seq<Option<Sections.Box>>)
    requires |mountedRefs| == |sections|
    ensures |r| == |sections|
    ensures forall i :: 0 <= i < |r| ==> r[i] == if mountedRefs[i] then Some(sections[i]) else None
  {
    seq(|sections|, i requires 0 <= i < |sections| => if mountedRefs[i] then Some(sections[i]) else None)
  }

  /** A key press keeps a valid current section valid. */
  lemma KeyKeepsSectionInRange(s: SectionScroll, key: string, sectionCount: int, mounted: set<int>)
    requires 0 <= s.currentSection < sectionCount
    ensures 0 <= KeyDown(s, key, sectionCount, mounted).state.currentSection < sectionCount
  {
  }

  /**
   * Only five section ids exist: with more sections, End (and any move past
   * the fifth section) does nothing.
   */
  lemma EndBeyondKnownIds(s: SectionScroll, sectionCount: int, mounted: set<int>)
    requires !s.isScrolling && sectionCount > |SectionIds|
    ensures KeyDown(s, "End", sectionCount, mounted).state == s
  {
  }

  /** Keys move one section at a time: the target differs from the current by at most one, except Home and End. */
  lemma ArrowsMoveByOne(s: SectionScroll, key: string, sectionCount: int, mounted: set<int>)
    requires key in {"ArrowDown", "PageDown", "ArrowUp", "PageUp"}
    ensures var c := KeyDown(s, key, sectionCount, mounted).state.currentSection;
            s.currentSection - 1 <= c <= s.currentSection + 1
  {
  }
}

=== FILE: scroll_navigation.dfy ===
/**
 * `useScrollNavigation.ts`: the current section, the two arrow-hiding flags
 * and the scroll percentage, driven by `scrollToSection` calls and window
 * scroll events. The section refs are a parameter: one slot per section,
 * `None` while the slot holds no element.
 */
module ScrollNavigation {
  import opened Wrappers
  import opened Numbers
  import Sections

  datatype ScrollNav = ScrollNav(currentSection: int, hideUpArrow: bool, hideDownArrow: bool, scrollProgress: Option<real>)

  /** Top of the page: section 0, no up arrow, a down arrow, no progress. */
  const InitialScrollNav := ScrollNav(0, true, false, Some(0.0))

  /** `scrollToSection(index)`: only an index whose ref holds an element moves the section. */
  function ScrollToSection(s: ScrollNav, refs: seq<Option<Sections.Box>>, index: int): (r: ScrollNav)
    ensures 0 <= index < |refs| && refs[index].Some? ==> r == s.(currentSection := index)
    ensures !(0 <= index < |refs| && refs[index].Some?) ==> r == s
  {
    if 0 <= index < |refs| && refs[index].Some? then s.(currentSection := index) else s
  }

  /**
   * `(scrollY / (documentHeight - windowHeight)) * 100`, unclamped. When the
   * page is no taller than the window the division yields no finite number.
   */
  function ScrollPercent(scrollY: real, windowHeight: real, documentHeight: real): (r: Option<real>)
    ensures r.Some? <==> documentHeight != windowHeight
    ensures r.Some? ==> r.value * (documentHeight - windowHeight) == scrollY * 100.0
  {
    var range := documentHeight - windowHeight;
    if range == 0.0 then None else Some(scrollY / range * 100.0)
  }

  /** Within the scrollable range the percentage lies in [0, 100]. */
  lemma PercentWithinRange(scrollY: real, windowHeight: real, documentHeight: real)
    requires 0.0 <= scrollY <= documentHeight - windowHeight && documentHeight > windowHeight
    ensures ScrollPercent(scrollY, windowHeight, documentHeight).Some?
    ensures 0.0 <= ScrollPercent(scrollY, windowHeight, documentHeight).value <= 100.0
  {
    var range := documentHeight - windowHeight;
    assert ScrollPercent(scrollY, windowHeight, documentHeight).value == scrollY / range * 100.0;
    UnitQuotient(scrollY, range);
  }

  /** Nothing clamps it: scrolling past the range (an overscroll bounce) reports more than 100. */
  lemma PercentUnclamped(scrollY: real, windowHeight: real, documentHeight: real)
    requires documentHeight > windowHeight && scrollY > documentHeight - windowHeight
    ensures ScrollPercent(scrollY, windowHeight, documentHeight).Some?
    ensures ScrollPercent(scrollY, windowHeight, documentHeight).value > 100.0
  {
    var range := documentHeight - windowHeight;
    assert ScrollPercent(scrollY, windowHeight, documentHeight).value == scrollY / range * 100.0;
    QuotientAbove(scrollY, range, 1.0);
  }

  /** `handleScroll`: track the section under the probe point and recompute the flags and percentage. */
  function HandleScroll(s: ScrollNav, refs: seq<Option<Sections.Box>>, scrollY: real, windowHeight: real, documentHeight: real): (r: ScrollNav)
    ensures r.currentSection == Sections.Track(s.currentSection, refs, Sections.Probe(scrollY, windowHeight))
    ensures r.hideUpArrow <==> scrollY < 50.0
    ensures r.hideDownArrow <==> scrollY + windowHeight >= documentHeight - 50.0
    ensures r.scrollProgress == ScrollPercent(scrollY, windowHeight, documentHeight)
  {
    ScrollNav(
      Sections.Track(s.currentSection, refs, Sections.Probe(scrollY, windowHeight)),
      scrollY < 50.0,
      scrollY + windowHeight >= documentHeight - 50.0,
      ScrollPercent(scrollY, windowHeight, documentHeight))
  }

  datatype NavEvent = ScrollTo(index: int) | Scrolled(scrollY: real, windowHeight: real, documentHeight: real)

  function NavStep(s: ScrollNav, refs: seq<Option<Sections.Box>>, e: NavEvent): ScrollNav
  {
    match e
    case ScrollTo(index) => ScrollToSection(s, refs, index)
    case Scrolled(y, h, d) => HandleScroll(s, refs, y, h, d)
  }

  function NavRun(s: ScrollNav, refs: seq<Option<Sections.Box>>, es: seq<NavEvent>): ScrollNav
    decreases |es|
  {
    if |es| == 0 then s else NavRun(NavStep(s, refs, es[0]), refs, es[1..])
  }

  /**
   * From the initial state, with one ref slot per section, the current
   * section always names a section: every change of it goes to a slot
   * holding an element.
   */
  lemma {:induction false} CurrentStaysValid(s: ScrollNav, refs: seq<Option<Sections.Box>>, es: seq<NavEvent>)
    requires 0 <= s.currentSection < |refs|
    ensures 0 <= NavRun(s, refs, es).currentSection < |refs|
    decreases |es|
  {
    if |es| > 0 {
      CurrentStaysValid(NavStep(s, refs, es[0]), refs, es[1..]);
    }
  }

  lemma CurrentValidFromStart(refs: seq<Option<Sections.Box>>, es: seq<NavEvent>)
    requires |refs| > 0
    ensures 0 <= NavRun(InitialScrollNav, refs, es).currentSection < |refs|
  {
    CurrentStaysValid(InitialScrollNav, refs, es);
  }

  /** Once the section has moved away from 0, it only ever sits on a slot that held an element when it was chosen. */
  lemma {:induction false} CurrentIsMounted(s: ScrollNav, refs: seq<Option<Sections.Box>>, es: seq<NavEvent>)
    requires 0 <= s.currentSection < |refs| && refs[s.currentSection].Some?
    ensures var c := NavRun(s, refs, es).currentSection;
            0 <= c < |refs| && refs[c].Some?
    decreases |es|
  {
    if |es| > 0 {
      CurrentIsMounted(NavStep(s, refs, es[0]), refs, es[1..]);
    }
  }
}

=== FILE: scroll_progress.dfy ===
/**
 * `ScrollProgress.tsx`: the top progress bar and its indicator dot, both
 * placed at `Math.max(0, Math.min(100, scrollProgress))` percent.
 */
module ScrollProgress {

  /** `Math.max(0, Math.min(100, p))`. */
  function Clamp(p: real): (r: real)
    ensures 0.0 <= r <= 100.0
    ensures 0.0 <= p <= 100.0 ==> r == p
    ensures p < 0.0 ==> r == 0.0
    ensures p > 100.0 ==> r == 100.0
  {
    var capped := if p < 100.0 then p else 100.0;
    if capped > 0.0 then capped else 0.0
  }

  /** The bar's width, in percent. */
  function BarWidth(scrollProgress: real): (r: real)
    ensures 0.0 <= r <= 100.0
    ensures 0.0 <= scrollProgress <= 100.0 ==> r == scrollProgress
  {
    Clamp(scrollProgress)
  }

  /** The dot's left offset, in percent. */
  function DotPosition(scrollProgress: real): (r: real)
    ensures 0.0 <= r <= 100.0
    ensures 0.0 <= scrollProgress <= 100.0 ==> r == scrollProgress
    ensures r == BarWidth(scrollProgress)
  {
    Clamp(scrollProgress)
  }

  /** More progress never moves the bar or the dot back, and the dot sits at the bar's end. */
  lemma ClampMonotone(a: real, b: real)
    requires a <= b
    ensures BarWidth(a) <= BarWidth(b)
    ensures DotPosition(a) == BarWidth(a)
  {
  }

  /** Clamping twice is clamping once. */
  lemma ClampIdempotent(p: real)
    ensures Clamp(Clamp(p)) == Clamp(p)
  {
  }
}

=== FILE: sections.dfy ===
/**
 * Scroll-position section tracking, shared by `useScrollNavigation` and
 * `useSmoothSectionScroll`: walk the section refs in order and, for every
 * mounted section whose box `[offsetTop, offsetTop + offsetHeight)` holds the
 * probe point `scrollY + innerHeight / 2`, set it as current. The last hit wins;
 * with no hit the current section is left as it was.
 */
module Sections {
  import opened Wrappers

  /** Layout of a mounted section element. */
  datatype Box = Box(offsetTop: real, offsetHeight: real)

  /** A section ref is `None` while it holds no element. */
  predicate Hit(section: Option<Box>, probe: real)
  {
    section.Some? && section.value.offsetTop <= probe < section.value.offsetTop + section.value.offsetHeight
  }

  /** The probe point: half a viewport below the top of the scroll position. */
  function Probe(scrollY: real, innerHeight: real): real
  {
    scrollY + innerHeight / 2.0
  }

  /** The `forEach` loop from index `k` on, carrying the current section. */
  function Sweep(current: int, sections: seq<Option<Box>>, probe: real, k: nat): (r: int)
    requires k <= |sections|
    ensures (exists i :: k <= i < |sections| && Hit(sections[i], probe)) ==>
              k <= r < |sections| && Hit(sections[r], probe)
              && forall j :: r < j < |sections| ==> !Hit(sections[j], probe)
    ensures (forall i :: k <= i < |sections| ==> !Hit(sections[i], probe)) ==> r == current
    decreases |sections| - k
  {
    if k == |sections| then current
    else Sweep(if Hit(sections[k], probe) then k else current, sections, probe, k + 1)
  }

  /** The section current after one scroll event. */
  function Track(current: int, sections: seq<Option<Box>>, probe: real): (r: int)
    ensures (exists i :: 0 <= i < |sections| && Hit(sections[i], probe)) ==>
              0 <= r < |sections| && Hit(sections[r], probe)
              && forall j :: r < j < |sections| ==> !Hit(sections[j], probe)
    ensures (forall i :: 0 <= i < |sections| ==> !Hit(sections[i], probe)) ==> r == current
  {
    Sweep(current, sections, probe, 0)
  }

  /**
   * When section boxes do not overlap (the page lays sections out one below
   * another), the tracked section is the unique one holding the probe.
   */
  lemma TrackUnique(current: int, sections: seq<Option<Box>>, probe: real, i: nat)
    requires i < |sections| && Hit(sections[i], probe)
    requires forall a, b :: 0 <= a < b < |sections| && sections[a].Some? && sections[b].Some? ==>
               sections[a].value.offsetTop + sections[a].value.offsetHeight <= sections[b].value.offsetTop
    ensures Track(current, sections, probe) == i
  {
  }
}

=== FILE: seqs.dfy ===
/**
 * Sequence utilities shared by the models: the JavaScript array operations the
 * portfolio relies on (`filter`, `slice`, `Array.from(new Set(..))`) stated
 * once, with the facts the component models need about them.
 */
module Seqs {
  import opened Wrappers

  /** `r` keeps some of the elements of `s`, in their original order. */
  predicate IsSubsequence<T(==)>(r: seq<T>, s: seq<T>)
    decreases |s|
  {
    if |r| == 0 then true
    else if |s| == 0 then false
    else (r[0] == s[0] && IsSubsequence(r[1..], s[1..])) || IsSubsequence(r, s[1..])
  }

  /** No element occurs twice. */
  predicate NoDuplicates<T(==)>(s: seq<T>)
  {
    forall i, j :: 0 <= i < j < |s| ==> s[i] != s[j]
  }

  /** `Array.prototype.filter`: the elements satisfying `p`, in order. */
  function Filter<T(==)>(s: seq<T>, p: T -> bool): (r: seq<T>)
    ensures |r| <= |s|
    ensures forall i :: 0 <= i < |r| ==> p(r[i])
    ensures forall i :: 0 <= i < |r| ==> r[i] in s
    ensures forall i :: 0 <= i < |s| && p(s[i]) ==> s[i] in r
    ensures IsSubsequence(r, s)
    decreases |s|
  {
    if |s| == 0 then []
    else
      assert s == [s[0]] + s[1..];
      if p(s[0]) then [s[0]] + Filter(s[1..], p)
      else Filter(s[1..], p)
  }

  /** Filtering drops elements but never duplicates one, and keeps every copy of a kept value. */
  lemma FilterMultiplicity<T>(s: seq<T>, p: T -> bool)
    ensures multiset(Filter(s, p)) <= multiset(s)
    ensures forall i :: 0 <= i < |s| && p(s[i]) ==> multiset(Filter(s, p))[s[i]] == multiset(s)[s[i]]
  {
    forall x ensures multiset(Filter(s, p))[x] <= multiset(s)[x] {
      FilterCount(s, p, x);
    }
    forall i | 0 <= i < |s| && p(s[i]) ensures multiset(Filter(s, p))[s[i]] == multiset(s)[s[i]] {
      FilterCount(s, p, s[i]);
    }
  }

  /** A value keeps all its copies when `p` holds for it, and loses them all otherwise. */
  lemma {:induction false} FilterCount<T>(s: seq<T>, p: T -> bool, x: T)
    ensures multiset(Filter(s, p))[x] == if p(x) then multiset(s)[x] else 0
    decreases |s|
  {
    if |s| > 0 {
      FilterCount(s[1..], p, x);
      assert s == [s[0]] + s[1..];
      assert multiset(s) == multiset{s[0]} + multiset(s[1..]);
      if p(s[0]) {
        assert Filter(s, p) == [s[0]] + Filter(s[1..], p);
        assert multiset(Filter(s, p)) == multiset{s[0]} + multiset(Filter(s[1..], p));
      }
    }
  }

  /** Position of the first occurrence of `x` in `s`. */
  function FirstIndex<T(==)>(s: seq<T>, x: T): (i: nat)
    requires x in s
    ensures i < |s| && s[i] == x
    ensures forall j :: 0 <= j < i ==> s[j] != x
  {
    if s[0] == x then 0 else 1 + FirstIndex(s[1..], x)
  }

  lemma {:induction false} FirstIndexAppend<T>(init: seq<T>, last: T, x: T)
    requires x in init
    ensures FirstIndex(init + [last], x) == FirstIndex(init, x)
  {
    var s := init + [last];
    var k := FirstIndex(init, x);
    var i := FirstIndex(s, x);
    assert s[k] == x;
    assert s[i] == init[i];
  }

  /**
   * `Array.from(new Set(s))`: each distinct element once, in the order of its
   * first occurrence (a JavaScript Set iterates in insertion order).
   */
  function Distinct<T(==)>(s: seq<T>): (r: seq<T>)
    ensures NoDuplicates(r)
    ensures forall i :: 0 <= i < |r| ==> r[i] in s
    ensures forall i :: 0 <= i < |s| ==> s[i] in r
    ensures |r| <= |s|
    ensures forall i, j :: 0 <= i < j < |r| ==> FirstIndex(s, r[i]) < FirstIndex(s, r[j])
    decreases |s|
  {
    if |s| == 0 then []
    else
      var init := s[..|s| - 1];
      var last := s[|s| - 1];
      assert s == init + [last];
      var d := Distinct(init);
      var r := if last in d then d else d + [last];
      DistinctStep(init, last, d, r);
      r
  }

  /** The inductive step of `Distinct`: appending one element to the input. */
  lemma {:induction false} DistinctStep<T>(init: seq<T>, last: T, d: seq<T>, r: seq<T>)
    requires NoDuplicates(d)
    requires forall i :: 0 <= i < |d| ==> d[i] in init
    requires forall i :: 0 <= i < |init| ==> init[i] in d
    requires |d| <= |init|
    requires forall i, j :: 0 <= i < j < |d| ==> FirstIndex(init, d[i]) < FirstIndex(init, d[j])
    requires r == if last in d then d else d + [last]
    ensures NoDuplicates(r)
    ensures forall i :: 0 <= i < |r| ==> r[i] in init + [last]
    ensures forall i :: 0 <= i < |init + [last]| ==> (init + [last])[i] in r
    ensures |r| <= |init + [last]|
    ensures forall i, j :: 0 <= i < j < |r| ==> FirstIndex(init + [last], r[i]) < FirstIndex(init + [last], r[j])
  {
    var s := init + [last];
    forall i | 0 <= i < |s|
      ensures s[i] in r
    {
      if i < |init| {
        assert s[i] == init[i];
      }
    }
    if last in d {
      forall i, j | 0 <= i < j < |r|
        ensures FirstIndex(s, r[i]) < FirstIndex(s, r[j])
      {
        FirstIndexAppend(init, last, d[i]);
        FirstIndexAppend(init, last, d[j]);
      }
    } else {
      assert last !in init;
      assert FirstIndex(s, last) == |init| by {
        forall j | 0 <= j < |init| ensures s[j] != last {
          assert s[j] == init[j];
        }
      }
      forall i, j | 0 <= i < j < |r|
        ensures FirstIndex(s, r[i]) < FirstIndex(s, r[j])
      {
        FirstIndexAppend(init, last, d[i]);
        if j < |d| {
          FirstIndexAppend(init, last, d[j]);
        } else {
          assert r[j] == last;
          assert FirstIndex(init, d[i]) < |init|;
        }
      }
      forall i, j | 0 <= i < j < |r|
        ensures r[i] != r[j]
      {
        if j == |d| {
          assert r[i] == d[i];
        }
      }
    }
  }

  /**
   * `s.slice(start, end)` with JavaScript's conventions: a negative bound
   * counts from the end, and bounds are clamped to `[0, |s|]`.
   */
  function SliceBound(i: int, len: nat): (b: nat)
    ensures b <= len
    ensures 0 <= i ==> b == if i <= len then i else len
  {
    if i < 0 then (if len + i < 0 then 0 else len + i)
    else if i > len then len
    else i
  }

  function Slice<T>(s: seq<T>, start: int, end: int): (r: seq<T>)
    ensures |r| <= |s|
    ensures var a := SliceBound(start, |s|);
            var b := SliceBound(end, |s|);
            r == if a <= b then s[a..b] else []
  {
    var a := SliceBound(start, |s|);
    var b := SliceBound(end, |s|);
    if a < b then s[a..b] else []
  }

  /** `s.slice(0, n)` for a non-negative `n`: the first `min(n, |s|)` elements. */
  function Take<T>(s: seq<T>, n: nat): (r: seq<T>)
    ensures |r| == if n <= |s| then n else |s|
    ensures r <= s
  {
    Slice(s, 0, n)
  }

  /** Maximum and minimum on integers. */
  function Max(a: int, b: int): int { if a < b then b else a }
  function Min(a: int, b: int): int { if a < b then a else b }

  function Concat<T>(ss: seq<seq<T>>): seq<T>
  {
    if |ss| == 0 then [] else ss[0] + Concat(ss[1..])
  }

  /** Filtering with a predicate every element satisfies changes nothing. */
  lemma {:induction false} FilterAll<T>(s: seq<T>, p: T -> bool)
    requires forall i :: 0 <= i < |s| ==> p(s[i])
    ensures Filter(s, p) == s
    decreases |s|
  {
    if |s| > 0 {
      FilterAll(s[1..], p);
    }
  }

  /** Two positions holding the same value make it occur at least twice. */
  lemma MultisetTwice<T>(s: seq<T>, i: nat, j: nat)
    requires i < j < |s| && s[i] == s[j]
    ensures multiset(s)[s[i]] >= 2
  {
    assert s == s[..j] + s[j..];
    assert s[i] in s[..j];
    assert s[j] in s[j..];
  }

  /** In a sequence without duplicates every member occurs once. */
  lemma {:induction false} NoDuplicatesOnce<T>(s: seq<T>, x: T)
    requires NoDuplicates(s) && x in s
    ensures multiset(s)[x] == 1
    decreases |s|
  {
    assert s == [s[0]] + s[1..];
    if s[0] == x {
      assert x !in s[1..];
    } else {
      NoDuplicatesOnce(s[1..], x);
    }
  }

  lemma {:induction false} PrefixIsSubsequence<T>(r: seq<T>, s: seq<T>)
    requires r <= s
    ensures IsSubsequence(r, s)
    decreases |r|
  {
    if |r| > 0 {
      PrefixIsSubsequence(r[1..], s[1..]);
    }
  }

  lemma {:induction false} SubsequenceTransitive<T>(a: seq<T>, b: seq<T>, c: seq<T>)
    requires IsSubsequence(a, b) && IsSubsequence(b, c)
    ensures IsSubsequence(a, c)
    decreases |c|
  {
    if |a| > 0 {
      if b[0] == c[0] && IsSubsequence(b[1..], c[1..]) {
        if a[0] == b[0] && IsSubsequence(a[1..], b[1..]) {
          SubsequenceTransitive(a[1..], b[1..], c[1..]);
        } else {
          SubsequenceTransitive(a, b[1..], c[1..]);
        }
      } else {
        SubsequenceTransitive(a, b, c[1..]);
      }
    }
  }

  /** `Array.prototype.find` / `findIndex`: the first position satisfying `p`. */
  function FindFirst<T>(s: seq<T>, p: T -> bool): (r: Option<nat>)
    ensures r.Some? ==> r.value < |s| && p(s[r.value]) && forall j :: 0 <= j < r.value ==> !p(s[j])
    ensures r.None? <==> forall j :: 0 <= j < |s| ==> !p(s[j])
    decreases |s|
  {
    if |s| == 0 then None
    else if p(s[0]) then Some(0)
    else
      match FindFirst(s[1..], p)
      case None => None
      case Some(k) => Some(k + 1)
  }
}

=== FILE: smooth_scroll_nav.dfy ===
/**
 * `SmoothScrollNav.tsx`: the side navigation's click and arrow-key handlers,
 * the two scroll-arrow buttons, the progress line and the label rule. The
 * component is controlled: it never changes the section itself but asks its
 * parent through `onSectionChange`, modelled here as the requested index
 * (`None` when no call is made).
 */
module SmoothScrollNav {
  import opened Wrappers

  /** The props the handlers read. */
  datatype NavProps = NavProps(sectionCount: int, currentSection: int, isScrolling: bool, showLabels: bool)

  /** A valid current section. */
  predicate InRange(p: NavProps)
  {
    0 <= p.currentSection < p.sectionCount
  }

  /** `handleSectionClick(index)`: ignored while a scroll is in progress. */
  function SectionClick(p: NavProps, index: int): (r: Option<int>)
    ensures r.Some? <==> !p.isScrolling
    ensures r.Some? ==> r.value == index
  {
    if p.isScrolling then None else Some(index)
  }

  /** What the window keydown listener does: whether it prevents the default, and the section it requests. */
  datatype KeyOutcome = KeyOutcome(prevented: bool, request: Option<int>)

  /** `handleKeyNavigation`. */
  function KeyNavigation(p: NavProps, key: string): (r: KeyOutcome)
    ensures r.prevented <==> !p.isScrolling && (key == "ArrowUp" || key == "ArrowDown")
    ensures r.request.Some? ==> r.prevented
    ensures !p.isScrolling && key == "ArrowUp" ==>
              (r.request.Some? <==> p.currentSection > 0) && (r.request.Some? ==> r.request.value == p.currentSection - 1)
    ensures !p.isScrolling && key == "ArrowDown" ==>
              (r.request.Some? <==> p.currentSection < p.sectionCount - 1) && (r.request.Some? ==> r.request.value == p.currentSection + 1)
  {
    if p.isScrolling then KeyOutcome(false, None)
    else if key == "ArrowUp" then
      KeyOutcome(true, if p.currentSection > 0 then Some(p.currentSection - 1) else None)
    else if key == "ArrowDown" then
      KeyOutcome(true, if p.currentSection < p.sectionCount - 1 then Some(p.currentSection + 1) else None)
    else KeyOutcome(false, None)
  }

  /** A key never asks for a section outside the list when the current one is inside it. */
  lemma KeyTargetInRange(p: NavProps, key: string)
    requires InRange(p)
    ensures var r := KeyNavigation(p, key).request;
            r.Some? ==> 0 <= r.value < p.sectionCount && r.value != p.currentSection
  {
  }

  // ---------------------------------------------------------------- scroll arrows

  /** `Math.max(0, currentSection - 1)`. */
  function UpTarget(p: NavProps): (r: int)
    ensures 0 <= r
    ensures InRange(p) ==> r < p.sectionCount && p.currentSection - 1 <= r <= p.currentSection
  {
    if p.currentSection - 1 > 0 then p.currentSection - 1 else 0
  }

  /** `Math.min(sections.length - 1, currentSection + 1)`. */
  function DownTarget(p: NavProps): (r: int)
    ensures r <= p.sectionCount - 1
    ensures InRange(p) ==> 0 <= r && p.currentSection <= r <= p.currentSection + 1
  {
    if p.sectionCount - 1 < p.currentSection + 1 then p.sectionCount - 1 else p.currentSection + 1
  }

  predicate UpDisabled(p: NavProps)
  {
    p.currentSection == 0 || p.isScrolling
  }

  predicate DownDisabled(p: NavProps)
  {
    p.currentSection == p.sectionCount - 1 || p.isScrolling
  }

  /** A press of the up arrow: a disabled button fires nothing. */
  function UpArrowPress(p: NavProps): (r: Option<int>)
    ensures UpDisabled(p) ==> r == None
    ensures r.Some? ==> r.value == UpTarget(p)
  {
    if UpDisabled(p) then None else SectionClick(p, UpTarget(p))
  }

  /** A press of the down arrow. */
  function DownArrowPress(p: NavProps): (r: Option<int>)
    ensures DownDisabled(p) ==> r == None
    ensures r.Some? ==> r.value == DownTarget(p)
  {
    if DownDisabled(p) then None else SectionClick(p, DownTarget(p))
  }

  /**
   * For a valid current section the two arrow buttons do exactly what the
   * ArrowUp and ArrowDown keys do: the buttons' disabling matches the keys'
   * bounds checks and the clamped targets match the keys' steps.
   */
  lemma ArrowButtonsMatchKeys(p: NavProps)
    requires InRange(p)
    ensures UpArrowPress(p) == KeyNavigation(p, "ArrowUp").request
    ensures DownArrowPress(p) == KeyNavigation(p, "ArrowDown").request
  {
  }

  // ---------------------------------------------------------------- progress line and labels

  /** `scaleY: (currentSection + 1) / sections.length`; with no sections the division gives no number. */
  function Progress(p: NavProps): (r: Option<real>)
    ensures r.Some? <==> p.sectionCount != 0
    ensures r.Some? ==> r.value * (p.sectionCount as real) == (p.currentSection + 1) as real
  {
    if p.sectionCount == 0 then None
    else Some((p.currentSection + 1) as real / p.sectionCount as real)
  }

  /** For a valid section the line is a fraction in (0, 1], full exactly at the last section. */
  lemma ProgressBounds(p: NavProps)
    requires InRange(p)
    ensures Progress(p).Some?
    ensures 0.0 < Progress(p).value <= 1.0
    ensures Progress(p).value == 1.0 <==> p.currentSection == p.sectionCount - 1
  {
    var n := p.sectionCount as real;
    var k := (p.currentSection + 1) as real;
    assert 0.0 < k <= n;
    assert Progress(p).value == k / n;
  }

  /** A section's label shows when labels are on and the nav is hovered or the section is current. */
  predicate LabelShown(p: NavProps, isHovered: bool, index: int)
  {
    p.showLabels && (isHovered || p.currentSection == index)
  }

  /** Without hover exactly the current section's label shows; with hover every label does. */
  lemma LabelsShown(p: NavProps, isHovered: bool)
    requires InRange(p) && p.showLabels
    ensures !isHovered ==> (set i | 0 <= i < p.sectionCount && LabelShown(p, isHovered, i)) == {p.currentSection}
    ensures isHovered ==> forall i :: 0 <= i < p.sectionCount ==> LabelShown(p, isHovered, i)
  {
  }
}

=== FILE: sorting.dfy ===
/**
 * The portfolio sorts arrays with `Array.prototype.sort` and a comparator of
 * the form `(a, b) => key(b) - key(a)`: newest/largest first. JavaScript's
 * sort is stable, so the result is the unique arrangement in non-increasing
 * key order that keeps equal-key elements in input order. `SortDesc` builds
 * exactly that arrangement by stable insertion.
 */
module Sorting {

  /** Keys never increase from left to right. */
  predicate SortedDesc<T>(s: seq<T>, key: T -> int)
  {
    forall i, j :: 0 <= i < j < |s| ==> key(s[i]) >= key(s[j])
  }

  /** Insert `x` after every element whose key is at least `key(x)`. */
  function InsertDesc<T(==)>(s: seq<T>, x: T, key: T -> int): (r: seq<T>)
    requires SortedDesc(s, key)
    ensures SortedDesc(r, key)
    ensures multiset(r) == multiset(s) + multiset{x}
    ensures |r| == |s| + 1
    ensures r[0] == x || (|s| > 0 && r[0] == s[0])
    decreases |s|
  {
    if |s| == 0 then [x]
    else if key(s[0]) < key(x) then
      [x] + s
    else
      var rest := InsertDesc(s[1..], x, key);
      InsertBehindSorted(s, x, rest, key);
      [s[0]] + rest
  }

  /** The head of `s` stays in front when `x` goes into the tail. */
  lemma InsertBehindSorted<T>(s: seq<T>, x: T, rest: seq<T>, key: T -> int)
    requires SortedDesc(s, key) && |s| > 0 && key(s[0]) >= key(x)
    requires SortedDesc(rest, key) && multiset(rest) == multiset(s[1..]) + multiset{x}
    requires |rest| == |s| && (rest[0] == x || (|s| > 1 && rest[0] == s[1]))
    ensures SortedDesc([s[0]] + rest, key)
    ensures multiset([s[0]] + rest) == multiset(s) + multiset{x}
  {
    assert s == [s[0]] + s[1..];
    assert key(rest[0]) <= key(s[0]);
    ConsSorted(s[0], rest, key);
  }

  /** Putting an element with a key at least the head's in front keeps a sequence sorted. */
  lemma ConsSorted<T>(y: T, rest: seq<T>, key: T -> int)
    requires SortedDesc(rest, key)
    requires |rest| > 0 ==> key(rest[0]) <= key(y)
    ensures SortedDesc([y] + rest, key)
  {
    var r := [y] + rest;
    forall i, j | 0 <= i < j < |r| ensures key(r[i]) >= key(r[j]) {
      if i == 0 && j > 1 {
        assert key(rest[0]) >= key(rest[j - 1]);
      }
    }
  }

  /** The elements of `s` whose key is `v`, in order. */
  function WithKey<T>(s: seq<T>, key: T -> int, v: int): (r: seq<T>)
    ensures |r| <= |s|
    ensures forall i :: 0 <= i < |r| ==> key(r[i]) == v
    decreases |s|
  {
    if |s| == 0 then []
    else (if key(s[0]) == v then [s[0]] else []) + WithKey(s[1..], key, v)
  }

  /**
   * Stability: for every key, the elements with that key appear in the same
   * order as in `s`.
   */
  ghost predicate SameTies<T>(r: seq<T>, s: seq<T>, key: T -> int)
  {
    forall v :: WithKey(r, key, v) == WithKey(s, key, v)
  }

  /** Stable sort by non-increasing key. */
  function SortDesc<T(==)>(s: seq<T>, key: T -> int): (r: seq<T>)
    ensures SortedDesc(r, key)
    ensures multiset(r) == multiset(s)
    ensures |r| == |s|
    ensures SameTies(r, s, key)
    decreases |s|
  {
    if |s| == 0 then []
    else
      var init := s[..|s| - 1];
      var last := s[|s| - 1];
      assert s == init + [last];
      var sorted := SortDesc(init, key);
      InsertKeepsTies(init, last, sorted, key);
      InsertDesc(sorted, last, key)
  }

  /** Inserting the next element into a stable arrangement of `init` gives one of `init + [x]`. */
  lemma InsertKeepsTies<T>(init: seq<T>, x: T, sorted: seq<T>, key: T -> int)
    requires SortedDesc(sorted, key) && SameTies(sorted, init, key)
    ensures SameTies(InsertDesc(sorted, x, key), init + [x], key)
  {
    forall v ensures WithKey(InsertDesc(sorted, x, key), key, v) == WithKey(init + [x], key, v) {
      InsertStable(sorted, x, key, v);
      WithKeyAppend(init, [x], key, v);
      assert WithKey([x], key, v) == if key(x) == v then [x] else [];
    }
  }

  /** Insertion places `x` after every element with its key. */
  lemma {:induction false} InsertStable<T>(s: seq<T>, x: T, key: T -> int, v: int)
    requires SortedDesc(s, key)
    ensures WithKey(InsertDesc(s, x, key), key, v) == WithKey(s, key, v) + (if key(x) == v then [x] else [])
    decreases |s|
  {
    if |s| == 0 || key(s[0]) < key(x) {
      InsertFrontStable(s, x, key, v);
    } else {
      InsertStable(s[1..], x, key, v);
      InsertBehindStable(s, x, key, v);
    }
  }

  lemma InsertFrontStable<T>(s: seq<T>, x: T, key: T -> int, v: int)
    requires SortedDesc(s, key)
    requires |s| == 0 || key(s[0]) < key(x)
    ensures WithKey(InsertDesc(s, x, key), key, v) == WithKey(s, key, v) + (if key(x) == v then [x] else [])
  {
    InsertFront(s, x, key);
    if key(x) == v {
      WithKeyNone(s, key, v);
    }
    ConsStable(x, s, InsertDesc(s, x, key), WithKey(s, key, v), key, v);
  }

  lemma InsertBehindStable<T>(s: seq<T>, x: T, key: T -> int, v: int)
    requires SortedDesc(s, key)
    requires |s| > 0 && key(s[0]) >= key(x)
    requires WithKey(InsertDesc(s[1..], x, key), key, v)
             == WithKey(s[1..], key, v) + (if key(x) == v then [x] else [])
    ensures WithKey(InsertDesc(s, x, key), key, v) == WithKey(s, key, v) + (if key(x) == v then [x] else [])
  {
    var rest := InsertDesc(s[1..], x, key);
    InsertBehind(s, x, key);
    BehindStable(s, rest, InsertDesc(s, x, key), x, key, v);
  }

  lemma InsertFront<T>(s: seq<T>, x: T, key: T -> int)
    requires SortedDesc(s, key)
    requires |s| == 0 || key(s[0]) < key(x)
    ensures InsertDesc(s, x, key) == [x] + s
  {
  }

  lemma InsertBehind<T>(s: seq<T>, x: T, key: T -> int)
    requires SortedDesc(s, key)
    requires |s| > 0 && key(s[0]) >= key(x)
    ensures InsertDesc(s, x, key) == [s[0]] + InsertDesc(s[1..], x, key)
  {
  }

  /** `r` is `x` in front of `s`, and `s` has the elements `ws` under `v`. */
  lemma ConsStable<T>(x: T, s: seq<T>, r: seq<T>, ws: seq<T>, key: T -> int, v: int)
    requires r == [x] + s && WithKey(s, key, v) == ws
    requires key(x) == v ==> ws == []
    ensures WithKey(r, key, v) == ws + (if key(x) == v then [x] else [])
  {
    WithKeyCons(x, s, key, v);
  }

  /** `r` is the head of `s` in front of `rest`, and `rest` is the tail of `s` with `x` placed behind its ties. */
  lemma BehindStable<T>(s: seq<T>, rest: seq<T>, r: seq<T>, x: T, key: T -> int, v: int)
    requires |s| > 0 && r == [s[0]] + rest
    requires WithKey(rest, key, v) == WithKey(s[1..], key, v) + (if key(x) == v then [x] else [])
    ensures WithKey(r, key, v) == WithKey(s, key, v) + (if key(x) == v then [x] else [])
  {
    var h := if key(s[0]) == v then [s[0]] else [];
    var xs := if key(x) == v then [x] else [];
    assert r[0] == s[0] && r[1..] == rest;
    assert WithKey(r, key, v) == h + (WithKey(s[1..], key, v) + xs);
    assert WithKey(s, key, v) == h + WithKey(s[1..], key, v);
    ConcatAssoc(h, WithKey(s[1..], key, v), xs);
  }

  lemma ConcatAssoc<T>(a: seq<T>, b: seq<T>, c: seq<T>)
    ensures a + (b + c) == (a + b) + c
  {
  }

  lemma WithKeyCons<T>(y: T, rest: seq<T>, key: T -> int, v: int)
    ensures WithKey([y] + rest, key, v) == (if key(y) == v then [y] else []) + WithKey(rest, key, v)
  {
    assert ([y] + rest)[1..] == rest;
  }

  lemma {:induction false} WithKeyAppend<T>(a: seq<T>, b: seq<T>, key: T -> int, v: int)
    ensures WithKey(a + b, key, v) == WithKey(a, key, v) + WithKey(b, key, v)
    decreases |a|
  {
    if |a| == 0 {
      assert a + b == b;
    } else {
      assert (a + b)[1..] == a[1..] + b;
      WithKeyAppend(a[1..], b, key, v);
    }
  }

  lemma {:induction false} WithKeyNone<T>(s: seq<T>, key: T -> int, v: int)
    requires forall i :: 0 <= i < |s| ==> key(s[i]) != v
    ensures WithKey(s, key, v) == []
    decreases |s|
  {
    if |s| > 0 {
      WithKeyNone(s[1..], key, v);
    }
  }

  /** An element with key `v` exists when the elements with key `v` are not none. */
  lemma {:induction false} WithKeyWitness<T>(s: seq<T>, key: T -> int, v: int)
    requires |WithKey(s, key, v)| > 0
    ensures exists j :: 0 <= j < |s| && key(s[j]) == v
    decreases |s|
  {
    if key(s[0]) != v {
      WithKeyWitness(s[1..], key, v);
      var j :| 0 <= j < |s[1..]| && key(s[1..][j]) == v;
      assert key(s[j + 1]) == v;
    }
  }

  /**
   * There is only one stable arrangement: two sequences sorted by
   * non-increasing key with the same elements in the same order under every
   * key are equal.
   */
  lemma {:induction false} StableArrangementUnique<T>(r1: seq<T>, r2: seq<T>, key: T -> int)
    requires SortedDesc(r1, key) && SortedDesc(r2, key) && SameTies(r1, r2, key)
    ensures r1 == r2
    decreases |r1|
  {
    if |r1| == 0 || |r2| == 0 {
      NoneLeft(r1, r2, key);
    } else {
      SameHead(r1, r2, key);
      SameTails(r1, r2, key);
      StableArrangementUnique(r1[1..], r2[1..], key);
      assert r1 == [r1[0]] + r1[1..] && r2 == [r2[0]] + r2[1..];
    }
  }

  /** Two sorted sequences with the same ties start with the same element. */
  lemma SameHead<T>(r1: seq<T>, r2: seq<T>, key: T -> int)
    requires |r1| > 0 && |r2| > 0
    requires SortedDesc(r1, key) && SortedDesc(r2, key) && SameTies(r1, r2, key)
    ensures r1[0] == r2[0]
  {
    var k1 := key(r1[0]);
    var k2 := key(r2[0]);
    HeadLeadsItsKey(r1, key);
    HeadLeadsItsKey(r2, key);
    assert WithKey(r2, key, k1) == WithKey(r1, key, k1);
    WithKeyWitness(r2, key, k1);
    assert WithKey(r1, key, k2) == WithKey(r2, key, k2);
    WithKeyWitness(r1, key, k2);
    assert k1 == k2;
    assert r1[0] == WithKey(r1, key, k1)[0] == WithKey(r2, key, k1)[0] == r2[0];
  }

  /** Dropping a common head keeps the ties the same. */
  lemma SameTails<T>(r1: seq<T>, r2: seq<T>, key: T -> int)
    requires |r1| > 0 && |r2| > 0 && r1[0] == r2[0]
    requires SameTies(r1, r2, key)
    ensures SameTies(r1[1..], r2[1..], key)
  {
    forall v ensures WithKey(r1[1..], key, v) == WithKey(r2[1..], key, v) {
      var h := if key(r1[0]) == v then [r1[0]] else [];
      assert WithKey(r1, key, v) == h + WithKey(r1[1..], key, v);
      assert WithKey(r2, key, v) == h + WithKey(r2[1..], key, v);
      assert WithKey(r1[1..], key, v) == WithKey(r1, key, v)[|h|..];
    }
  }

  /** The head of a sequence is the first of the elements with its key. */
  lemma HeadLeadsItsKey<T>(s: seq<T>, key: T -> int)
    requires |s| > 0
    ensures |WithKey(s, key, key(s[0]))| > 0 && WithKey(s, key, key(s[0]))[0] == s[0]
  {
    assert WithKey(s, key, key(s[0])) == [s[0]] + WithKey(s[1..], key, key(s[0]));
  }

  /** With the same elements under every key, one sequence is empty only if the other is. */
  lemma NoneLeft<T>(r1: seq<T>, r2: seq<T>, key: T -> int)
    requires SameTies(r1, r2, key)
    requires |r1| == 0 || |r2| == 0
    ensures r1 == r2
  {
    if |r1| > 0 {
      HeadLeadsItsKey(r1, key);
    } else if |r2| > 0 {
      HeadLeadsItsKey(r2, key);
    }
  }

  /** So `SortDesc` is the one stable arrangement of `s` in non-increasing key order. */
  lemma SortDescIsTheStableSort<T>(s: seq<T>, r: seq<T>, key: T -> int)
    ensures SortedDesc(r, key) && SameTies(r, s, key) <==> r == SortDesc(s, key)
  {
    if SortedDesc(r, key) && SameTies(r, s, key) {
      var q := SortDesc(s, key);
      assert SameTies(r, q, key);
      StableArrangementUnique(r, q, key);
    }
  }

  /** `rank` strictly increases along `s`: it tells where an element sits in the input. */
  predicate RankIncreasing<T>(s: seq<T>, rank: T -> int)
  {
    forall i, j :: 0 <= i < j < |s| ==> rank(s[i]) < rank(s[j])
  }

  /** Among elements with equal keys, `rank` increases from left to right. */
  predicate TiesRanked<T>(r: seq<T>, key: T -> int, rank: T -> int)
  {
    forall i, j :: 0 <= i < j < |r| && key(r[i]) == key(r[j]) ==> rank(r[i]) < rank(r[j])
  }

  /**
   * Stability, stated through positions: when `rank` increases along the
   * input, elements with equal keys come out of the sort in increasing rank.
   */
  lemma {:induction false} SortDescRanksTies<T>(s: seq<T>, key: T -> int, rank: T -> int)
    requires RankIncreasing(s, rank)
    ensures TiesRanked(SortDesc(s, key), key, rank)
    decreases |s|
  {
    if |s| > 0 {
      var init := s[..|s| - 1];
      var last := s[|s| - 1];
      assert RankIncreasing(init, rank);
      SortDescRanksTies(init, key, rank);
      var sorted := SortDesc(init, key);
      forall y | y in sorted ensures rank(y) < rank(last) {
        assert y in multiset(init);
        var m :| 0 <= m < |init| && init[m] == y;
      }
      InsertRanksTies(sorted, last, key, rank);
    }
  }

  /** Inserting an element that outranks every other keeps the ties ranked. */
  lemma {:induction false} InsertRanksTies<T>(s: seq<T>, x: T, key: T -> int, rank: T -> int)
    requires SortedDesc(s, key) && TiesRanked(s, key, rank)
    requires forall y :: y in s ==> rank(y) < rank(x)
    ensures TiesRanked(InsertDesc(s, x, key), key, rank)
    decreases |s|
  {
    if |s| == 0 || key(s[0]) < key(x) {
      InsertFront(s, x, key);
      FrontRanksTies(s, x, key, rank);
    } else {
      assert TiesRanked(s[1..], key, rank);
      InsertRanksTies(s[1..], x, key, rank);
      InsertBehind(s, x, key);
      BehindRanksTies(s, InsertDesc(s[1..], x, key), x, key, rank);
    }
  }

  /** `x` in front of everything: its key is larger than any other, so it ties with nothing. */
  lemma FrontRanksTies<T>(s: seq<T>, x: T, key: T -> int, rank: T -> int)
    requires SortedDesc(s, key) && TiesRanked(s, key, rank)
    requires |s| == 0 || key(s[0]) < key(x)
    ensures TiesRanked([x] + s, key, rank)
  {
    var r := [x] + s;
    forall j | 1 <= j < |r| ensures key(r[j]) < key(x) {
      assert r[j] == s[j - 1] && key(s[0]) >= key(s[j - 1]);
    }
    forall i, j | 0 < i < j < |r| ensures r[i] == s[i - 1] && r[j] == s[j - 1] {
    }
  }

  /** The head of `s` in front of the rest, where the rest holds `s[1..]` and `x`. */
  lemma BehindRanksTies<T>(s: seq<T>, rest: seq<T>, x: T, key: T -> int, rank: T -> int)
    requires |s| > 0 && TiesRanked(s, key, rank) && TiesRanked(rest, key, rank)
    requires multiset(rest) == multiset(s[1..]) + multiset{x}
    requires forall y :: y in s ==> rank(y) < rank(x)
    ensures TiesRanked([s[0]] + rest, key, rank)
  {
    var r := [s[0]] + rest;
    forall i, j | 0 <= i < j < |r| && key(r[i]) == key(r[j]) ensures rank(r[i]) < rank(r[j]) {
      if i == 0 {
        assert r[j] == rest[j - 1] && r[j] in multiset(rest);
        if r[j] != x {
          assert r[j] in multiset(s[1..]);
          var m :| 0 <= m < |s[1..]| && s[1..][m] == r[j];
          assert s[m + 1] == r[j];
        }
      } else {
        assert r[i] == rest[i - 1] && r[j] == rest[j - 1];
      }
    }
  }

  /**
   * Sortedness survives taking a prefix, and every element left out of the
   * prefix has a key no larger than any element kept: the "top k" property.
   */
  lemma PrefixOfSorted<T>(s: seq<T>, key: T -> int, n: nat)
    requires SortedDesc(s, key)
    requires n <= |s|
    ensures SortedDesc(s[..n], key)
    ensures forall i, j :: 0 <= i < n <= j < |s| ==> key(s[i]) >= key(s[j])
  {
  }

  /**
   * `sort(...).slice(0, k)`: the first `k` elements of the stable sort. Every
   * element left out has a key no larger than any element kept.
   */
  function TopK<T(==)>(s: seq<T>, key: T -> int, k: nat): (r: seq<T>)
    ensures |r| == if k <= |s| then k else |s|
    ensures SortedDesc(r, key)
    ensures multiset(r) <= multiset(s)
    ensures forall j :: 0 <= j < |s| && s[j] !in r ==> forall i :: 0 <= i < |r| ==> key(r[i]) >= key(s[j])
  {
    var sorted := SortDesc(s, key);
    var n := if k <= |s| then k else |s|;
    PrefixOfSortedKeeps(s, sorted, key, n);
    sorted[..n]
  }

  /** Every element of `s` left out of `r` that ties with a kept one outranks it. */
  predicate CutRanked<T(==)>(s: seq<T>, r: seq<T>, key: T -> int, rank: T -> int)
  {
    forall j, i :: 0 <= j < |s| && s[j] !in r && 0 <= i < |r| && key(r[i]) == key(s[j]) ==> rank(r[i]) < rank(s[j])
  }

  /**
   * The tie rule of `sort(...).slice(0, k)`: with `rank` increasing along the
   * input, kept elements with equal keys are in increasing rank, and an
   * element left out that ties with a kept one outranks it.
   */
  lemma TopKRanksTies<T>(s: seq<T>, key: T -> int, k: nat, rank: T -> int)
    requires RankIncreasing(s, rank)
    ensures TiesRanked(TopK(s, key, k), key, rank)
    ensures CutRanked(s, TopK(s, key, k), key, rank)
  {
    var sorted := SortDesc(s, key);
    var n := if k <= |s| then k else |s|;
    SortDescRanksTies(s, key, rank);
    PrefixRanksTies(s, sorted, key, rank, n);
    assert TopK(s, key, k) == sorted[..n];
  }

  lemma PrefixRanksTies<T>(s: seq<T>, sorted: seq<T>, key: T -> int, rank: T -> int, n: nat)
    requires multiset(sorted) == multiset(s) && TiesRanked(sorted, key, rank) && n <= |sorted|
    ensures TiesRanked(sorted[..n], key, rank)
    ensures CutRanked(s, sorted[..n], key, rank)
  {
    var r := sorted[..n];
    forall j, i | 0 <= j < |s| && s[j] !in r && 0 <= i < |r| && key(r[i]) == key(s[j])
      ensures rank(r[i]) < rank(s[j])
    {
      assert s[j] in multiset(sorted);
      var m :| 0 <= m < |sorted| && sorted[m] == s[j];
      assert m >= n && sorted[i] == r[i];
    }
  }

  /**
   * A prefix of a sorted arrangement of `s` is a sub-multiset of `s`, and
   * every element of `s` not in the prefix ranks no higher than the prefix.
   */
  lemma PrefixOfSortedKeeps<T>(s: seq<T>, sorted: seq<T>, key: T -> int, n: nat)
    requires SortedDesc(sorted, key) && multiset(sorted) == multiset(s) && n <= |sorted|
    ensures multiset(sorted[..n]) <= multiset(s)
    ensures forall j :: 0 <= j < |s| && s[j] !in sorted[..n] ==>
              forall i :: 0 <= i < n ==> key(sorted[..n][i]) >= key(s[j])
  {
    var r := sorted[..n];
    assert sorted == r + sorted[n..];
    assert multiset(sorted) == multiset(r) + multiset(sorted[n..]);
    forall j | 0 <= j < |s| && s[j] !in r
      ensures forall i :: 0 <= i < n ==> key(r[i]) >= key(s[j])
    {
      assert s[j] in multiset(sorted);
      var m :| 0 <= m < |sorted| && sorted[m] == s[j];
      assert m >= n;
    }
  }
}

=== FILE: text.dfy ===
/**
 * The string operations the portfolio uses: `toLowerCase` (modelled on ASCII
 * letters only), `includes`, `trim`, the first piece of `split(sep)` and the
 * last piece of `split(sep)` (`.pop()`), and `join`.
 */
module Text {

  function LowerChar(c: char): char
  {
    if 'A' <= c <= 'Z' then (c as int + 32) as char else c
  }

  /** `s.toLowerCase()` restricted to ASCII letters. */
  function Lower(s: string): (r: string)
    ensures |r| == |s|
    ensures forall i :: 0 <= i < |s| ==> r[i] == LowerChar(s[i])
  {
    seq(|s|, i requires 0 <= i < |s| => LowerChar(s[i]))
  }

  predicate IsPrefix(p: string, s: string)
  {
    |p| <= |s| && s[..|p|] == p
  }

  /** `s.includes(p)`: `p` occurs in `s` as a contiguous piece. */
  predicate Contains(s: string, p: string)
    decreases |s|
  {
    IsPrefix(p, s) || (|s| > 0 && Contains(s[1..], p))
  }

  /** An occurrence at any position makes `Contains` true. */
  lemma {:induction false} ContainsAt(s: string, p: string, i: nat)
    requires i + |p| <= |s| && s[i..i + |p|] == p
    ensures Contains(s, p)
    decreases i
  {
    if i > 0 {
      assert s[1..][i - 1..i - 1 + |p|] == s[i..i + |p|];
      ContainsAt(s[1..], p, i - 1);
    } else {
      assert s[..|p|] == p;
    }
  }

  /** `Contains` is exactly "occurs at some position". */
  lemma {:induction false} ContainsWitness(s: string, p: string) returns (i: nat)
    requires Contains(s, p)
    ensures i + |p| <= |s| && s[i..i + |p|] == p
    decreases |s|
  {
    if IsPrefix(p, s) {
      i := 0;
    } else {
      var k := ContainsWitness(s[1..], p);
      assert s[1..][k..k + |p|] == s[k + 1..k + 1 + |p|];
      i := k + 1;
    }
  }

  lemma ContainsEmpty(s: string)
    ensures Contains(s, "")
  {
    assert IsPrefix("", s);
  }

  lemma {:induction false} NotContainsLonger(s: string, p: string)
    requires |p| > |s|
    ensures !Contains(s, p)
    decreases |s|
  {
    if |s| > 0 {
      NotContainsLonger(s[1..], p);
    }
  }

  /** A character of `p` that `s` lacks rules out `s.includes(p)`. */
  lemma {:induction false} MissingCharNotContained(s: string, p: string, k: nat)
    requires k < |p| && p[k] !in s
    ensures !Contains(s, p)
    decreases |s|
  {
    if |s| > 0 {
      MissingCharNotContained(s[1..], p, k);
    }
  }

  /** Whitespace removed by `String.prototype.trim` (the common code points). */
  predicate IsWhitespace(c: char)
  {
    c == ' ' || c == '\t' || c == '\n' || c == '\r' || c == '\U{000B}' || c == '\U{000C}'
    || c == '\U{00A0}' || c == '\U{2028}' || c == '\U{2029}' || c == '\U{FEFF}'
  }

  predicate AllWhitespace(s: string)
  {
    forall i :: 0 <= i < |s| ==> IsWhitespace(s[i])
  }

  function TrimStart(s: string): (r: string)
    ensures |r| <= |s| && r == s[|s| - |r|..]
    ensures |r| > 0 ==> !IsWhitespace(r[0])
    ensures AllWhitespace(s[..|s| - |r|])
    decreases |s|
  {
    if |s| > 0 && IsWhitespace(s[0]) then
      var r := TrimStart(s[1..]);
      assert forall k :: 0 < k < |s| - |r| ==> s[k] == s[1..][..|s[1..]| - |r|][k - 1];
      r
    else s
  }

  function TrimEnd(s: string): (r: string)
    ensures |r| <= |s| && r == s[..|r|]
    ensures |r| > 0 ==> !IsWhitespace(r[|r| - 1])
    ensures AllWhitespace(s[|r|..])
    decreases |s|
  {
    if |s| > 0 && IsWhitespace(s[|s| - 1]) then
      var r := TrimEnd(s[..|s| - 1]);
      assert forall k :: |r| <= k < |s| - 1 ==> s[k] == s[..|s| - 1][|r|..][k - |r|];
      r
    else s
  }

  /** `s.trim()`: the piece of `s` left after dropping whitespace at both ends. */
  function Trim(s: string): (r: string)
    ensures Contains(s, r)
    ensures |r| > 0 ==> !IsWhitespace(r[0]) && !IsWhitespace(r[|r| - 1])
    ensures r == "" <==> AllWhitespace(s)
  {
    var t := TrimStart(s);
    var r := TrimEnd(t);
    TrimFacts(s, t, r);
    r
  }

  lemma TrimFacts(s: string, t: string, r: string)
    requires |t| <= |s| && t == s[|s| - |t|..] && AllWhitespace(s[..|s| - |t|])
    requires |t| > 0 ==> !IsWhitespace(t[0])
    requires |r| <= |t| && r == t[..|r|] && AllWhitespace(t[|r|..])
    requires |r| > 0 ==> !IsWhitespace(r[|r| - 1])
    ensures Contains(s, r)
    ensures |r| > 0 ==> !IsWhitespace(r[0]) && !IsWhitespace(r[|r| - 1])
    ensures r == "" <==> AllWhitespace(s)
  {
    var i := |s| - |t|;
    assert r == s[i..i + |r|];
    ContainsAt(s, r, i);
    if r == "" {
      assert |t| == 0;
      forall k | 0 <= k < |s| ensures IsWhitespace(s[k]) {
        assert s[k] == s[..i][k];
      }
    }
    if |r| > 0 {
      assert r[0] == t[0];
      assert r[0] == s[i];
    }
  }

  /** `s.split(sep)[0]`: everything before the first `sep`. */
  function FirstPiece(s: string, sep: char): (r: string)
    ensures r <= s
    ensures sep !in r
    ensures |r| < |s| ==> s[|r|] == sep
    decreases |s|
  {
    if |s| == 0 || s[0] == sep then ""
    else [s[0]] + FirstPiece(s[1..], sep)
  }

  /** `s.split(sep).pop()`: everything after the last `sep`. */
  function LastPiece(s: string, sep: char): (r: string)
    ensures |r| <= |s| && r == s[|s| - |r|..]
    ensures sep !in r
    ensures |r| < |s| ==> s[|s| - |r| - 1] == sep
    decreases |s|
  {
    if |s| == 0 || s[|s| - 1] == sep then ""
    else
      var r := LastPiece(s[..|s| - 1], sep);
      r + [s[|s| - 1]]
  }

  /** `parts.join(sep)`. */
  function Join(parts: seq<string>, sep: string): string
    decreases |parts|
  {
    if |parts| == 0 then ""
    else if |parts| == 1 then parts[0]
    else parts[0] + sep + Join(parts[1..], sep)
  }
}

=== FILE: wrappers.dfy ===
/** Optional values: `undefined`/`null` in the portfolio's TypeScript become `None`. */
module Wrappers {

  datatype Option<+T> = None | Some(value: T) {

    /** The value, or a default when absent (the `x || d` / `x ?? d` idiom). */
    function GetOr(default: T): T
    {
      match this
      case Some(v) => v
      case None => default
    }
  }
}
